=== FILE: README.md ===
# Pick Me Up admin dashboard — a Dafny model

This project models the client-side logic of the Pick Me Up ride-hailing
admin dashboard, a React single-page application. It covers:

- the session: restoring, logging in and logging out against local storage,
  and the provider check of the `useAuth` hook;
- the request wrappers of the user service, with their error precedence;
- the 401 response interceptor, the route gate and the route table;
- the header's logout sequence and the sidebar's menu and role gate;
- the live dashboard: page size, the push channel and the role-dependent
  metric;
- the rider list, with bulk activate/disable and selection;
- the rider applications, with rank sorting, search and verification;
- the customer and admin management screens;
- the add/edit admin form and the account form, including its email
  pattern;
- the booking history, the feedback list and the rider payment ledger.

Every screen is a record, and every handler is a pure function from a
state, plus the outcome of any request it makes, to the next state. A
request outcome is an input value (`Http<T>`: resolved with a body, or
rejected with an error that may carry an HTTP response). A push event is a
payload in a sequence. Local storage is a `map<string, string>`. JavaScript
truthiness, `x || fallback`, `parseInt`, `slice`, `Math.ceil`, ASCII
`toLowerCase` and `includes` are written out in the modules `Text`,
`Numerals` and `Paging`.

Files: `outcomes.dfy`, `text.dfy`, `numerals.dfy`, `lists.dfy` and
`paging.dfy` hold the shared vocabulary. `session.dfy`, `services.dfy`,
`interceptor.dfy`, `routes.dfy`, `header.dfy`, `sidenav.dfy` and
`login_screen.dfy` cover authentication and navigation. `dashboard.dfy`,
`roster.dfy`, `riders_list.dfy`, `riders_applicant.dfy`, `manage_user.dfy`,
`manage_admin.dfy`, `add_admin_form.dfy`, `email_pattern.dfy`,
`manage_account.dfy`, `booking_history.dfy`, `feedback.dfy` and
`riders_payment.dfy` cover the screens.

Where the code's behaviour is surprising, the model follows the code:

- `ProtectedRoute` reads `isLoading`, which the hook does not return, so it
  never shows its loading text.
- The `/manageadmin` route is not role-gated; only the sidebar button is.
- The customer screen writes a confirmed status change into the filtered
  list only.
- The admin form's add branch calls a service function that does not exist
  (see Findings).
- Clicking Verify inside the applicant detail dialog also closes that
  dialog, which clears the selected applicant. So through the interface,
  the branch of `RidersApplicant.HandleVerificationConfirm` where the
  selected applicant follows the status change is not reached. The
  handler itself, which is what the model states, keeps that branch.

## Model

| member | source | states |
|---|---|---|
| Session.UseAuth | src/hooks/useAuth.js:6-11 | Outside a provider the hook fails with exactly "useAuth must be used within an AuthProvider"; inside one it yields the context value |
| Session.Initial | src/context/AuthContext.js:8-12 | The provider starts unauthenticated with no role or id, loading, and the sidebar closed |
| Session.Restore | src/hooks/useAuth.js:17-29 | The session becomes authenticated with the parsed role exactly when both token and role are stored non-empty, otherwise authentication is left as it was; the id is set from a stored `user_id` independently; loading always ends false; storage is not touched |
| Session.Login | src/hooks/useAuth.js:34-41 | All three credential keys are written and every other key keeps its value; the stored role and id parse back to the given numbers; the session is authenticated with that role and id |
| Session.Logout | src/hooks/useAuth.js:43-50 | Exactly the three credential keys disappear, every other key keeps its value, and the session is unauthenticated with no role and no id |
| Session.LogoutIdempotent | src/hooks/useAuth.js:43-50 | A second logout changes nothing |
| Session.LoginThenLogout | src/hooks/useAuth.js:34-50 | Logging in then out ends where logging out alone would: unauthenticated, no credential key left |
| Session.RestoreAfterLogin | src/hooks/useAuth.js:17-41 | Restoring from the storage a login wrote reproduces an authenticated session with the same role and id |
| Session.RestorePartialRecord | src/hooks/useAuth.js:20-27 | A stored `user_id` alone sets the id while the session stays unauthenticated and role-less |
| Session.InitialIsSignedOut | src/context/AuthContext.js:8-11 | The provider starts unauthenticated, with no role and no id: a logout leaves the initial session as it is |
| Services.ServiceLogin | src/services.js:6-37 | `login` yields the reply body exactly when the request resolved with a truthy token; every failure is swallowed into `undefined` |
| Services.LogoutAuthorization | src/services.js:41-49 | The logout request's header is "Bearer " followed by the stored token, or by "null" when none is stored |
| Services.ServiceLogout | src/services.js:39-71 | The token is removed only when the server answers with exactly "Successfully logout"; no other key ever changes, and the call never fails |
| Services.AccountErrorMessage | src/services.js:148-154 | The rethrown message is the body's truthy `error`, else its truthy `message`, else the fixed default, which is also used without a response; it is never empty |
| Services.UpdateAccount | src/services.js:127-156 | `updateAccount` resolves with the reply, or fails with only that message |
| Services.StatusUpdate | src/services.js:158-207 | The status updaters succeed exactly when the request resolved, and rethrow the very error otherwise |
| Interceptor.Install | src/App.js:32-42 | Registering the handler appends one active slot and returns its index as the id |
| Interceptor.Eject | src/App.js:44-46 | Ejecting deactivates that slot and leaves every other slot as it was |
| Interceptor.MountThenUnmount | src/App.js:32-47 | Mount followed by cleanup leaves the number of active handlers unchanged and the old slots untouched |
| Interceptor.Intercept | src/App.js:35-41 | A 401 response logs out and navigates to "/"; any other outcome leaves the client alone; the error is passed on unchanged |
| Interceptor.ConcurrentUnauthorized | src/App.js:35-41 | Any number of concurrent 401 failures end in the single logged-out state, with one navigation to "/" per failure |
| Routes.Lookup | src/App.js:96-107 | A path finds a screen exactly when the route table lists it, and then it finds a listed pairing |
| Routes.AppContent | src/App.js:66-114 | While loading, a placeholder; unauthenticated, the login screen for every path; authenticated, the listed screen or a redirect to "/dashboard" |
| Routes.InitialShowsPlaceholder | src/App.js:70-72 | Before the session is restored every path shows the placeholder |
| Routes.RestoreLeavesPlaceholder | src/hooks/useAuth.js:28 | After a restore no path shows the placeholder |
| Routes.ListedPathsShowTheirScreen | src/App.js:96-107 | Signed in, every listed path shows its own screen |
| Routes.ManageAdminIgnoresRole | src/App.js:103 | The admin-management route shows the same thing whatever the role |
| Routes.ProtectedRoute | src/components/ProtectedRoute.js:5-18 | Unauthenticated users are redirected to "/" with replace; authenticated ones see the children |
| Routes.ProtectedRouteIgnoresLoading | src/components/ProtectedRoute.js:6-11 | The guard depends on authentication only, so it never shows a loading state |
| Header.HandleLogout | src/components/parts/Header.js:17-25 | Logout runs the server logout with the bearer header, then the local logout, then navigation to "/", in that order, and whatever the server answers the client ends as a local logout leaves it: unauthenticated with no credential key |
| Header.LogoutAlwaysCompletes | src/components/parts/Header.js:17-25 | Whatever the server answers, the client ends in the locally logged-out state |
| Header.OpenModal | src/components/parts/Header.js:27-29 | The confirmation dialog opens |
| Header.Cancel | src/components/parts/Header.js:31-33 | Cancelling closes the dialog and leaves the session alone |
| Header.ConfirmLogout | src/components/parts/Header.js:164-169 | Confirming closes the dialog and ends unauthenticated with no credential key, after the three logout steps |
| Header.ToggleSideBar | src/components/parts/Header.js:35-38 | The sidebar flag flips and nothing else in the context changes |
| Header.ToggleSideBarTwice | src/components/parts/Header.js:35-38 | Toggling twice restores the context |
| LoginScreen.CatchMessage | src/components/screens/Login.js:35-37 | The error shown is the server's truthy `message` when the error carries one, else "An error occurred during login", also without a response; never empty |
| LoginScreen.HandleLogin | src/components/screens/Login.js:18-41 | A failed login shows the generic error and changes nothing; a role other than 1 or 2 shows "Unauthorized access" and does not log in; roles 1 and 2 log in with the reply's credentials and go to "/dashboard"; loading always ends false |
| LoginScreen.AdmittedLoginRestores | src/components/screens/Login.js:27-34 | After an admitted login, a page reload restores an authenticated session with the same role |
| LoginScreen.ToggleVisiblePass | src/components/screens/Login.js:43-45 | Password visibility flips and nothing else changes |
| LoginScreen.ToggleVisiblePassTwice | src/components/screens/Login.js:43-45 | Toggling twice restores the form |
| Sidenav.HandleClick | src/components/parts/Sidenav.js:16-20 | Navigation happens exactly when the target differs from the current path |
| Sidenav.ActiveEntryIgnoresClick | src/components/parts/Sidenav.js:16-34 | An entry is active (and disabled) exactly when clicking it would not navigate; any other entry navigates to its path |
| Sidenav.Panels | src/components/parts/Sidenav.js:22-32 | The Riders panel lists the four rider entries in menu order; the payment and location panels are always empty, since no entry has those parents |
| Sidenav.RidersParentActive | src/components/parts/Sidenav.js:35-39 | The Riders group is open on load exactly when the current path starts with "/riders" |
| Sidenav.Buttons | src/components/parts/Sidenav.js:43-192 | A closed sidebar renders no button; an open one starts with Dashboard |
| Sidenav.ButtonsWhenOpen | src/components/parts/Sidenav.js:43-192 | The open sidebar's buttons in full, with the rider entries only when expanded and Manage Admin only for role 1 |
| Sidenav.ManageAdminButtonOnlyForRoleOne | src/components/parts/Sidenav.js:151-163 | The Manage Admin button appears exactly when the sidebar is open and the role is 1 |
| Dashboard.InitialSnapshot | src/components/screens/Dashboard.js:77-89 | The screen starts with exactly the counters active_riders, disabled_riders, customers, completed_rides, verified and pending, all zero, and no admin counter; no bookings, both loading flags set and page size 5 |
| Dashboard.CalculatePageSize | src/components/screens/Dashboard.js:100-110 | Without a container the size stays; with a container of height h it is never below 3, and above 3 it is one less than the number of 53-pixel rows that fit |
| Dashboard.PageSizeMonotone | src/components/screens/Dashboard.js:100-110 | A taller container never yields fewer rows |
| Dashboard.Displayed | src/components/screens/Dashboard.js:117-119 | The table shows the first min(bookings, page size) bookings, as a prefix |
| Dashboard.FetchDashboardData | src/components/screens/Dashboard.js:121-134 | A successful fetch replaces counts and bookings, a failure keeps them, and both loading flags end false |
| Dashboard.PulledBookingsDisplayed | src/components/screens/Dashboard.js:117-134 | After a successful fetch the table shows the first rows of that payload |
| Dashboard.Mount | src/components/screens/Dashboard.js:147-159 | Mounting connects, subscribes to the channel and binds the update handler, in that order |
| Dashboard.Teardown | src/components/screens/Dashboard.js:162-166 | Cleanup unbinds, unsubscribes and disconnects, in that order |
| Dashboard.Deliver | src/components/screens/Dashboard.js:155-159 | A bound event replaces counts and bookings wholesale; an unbound channel changes nothing |
| Dashboard.LastPushWins | src/components/screens/Dashboard.js:155-159 | After a sequence of events the screen holds the last event's counts and bookings |
| Dashboard.NothingAfterTeardown | src/components/screens/Dashboard.js:162-166 | Once torn down, no event changes the screen |
| Dashboard.RoleMetric | src/components/screens/Dashboard.js:200-224 | Role 1 sees "Active Admins" from `admin_count`, falling back to `admincount`; every other role sees "Disabled Riders" |
| Dashboard.MetricFollowsLastPush | src/components/screens/Dashboard.js:155-224 | After pushes the role metric reflects the last event's counts |
| Dashboard.Render | src/components/screens/Dashboard.js:169-179 | Unauthenticated users are sent to login; otherwise the spinner shows exactly during the initial load |
| Dashboard.SpinnerOnlyBeforeFirstFetch | src/components/screens/Dashboard.js:121-179 | The spinner shows at first and never after the first fetch settles, whatever it returned |
| Roster.NameFilter | src/components/screens/riders/RidersList.js:52-60 | A record is kept exactly when its lowercased "first last" contains the lowercased query |
| Roster.NameFilterEmptyQuery | src/components/screens/riders/RidersList.js:52-60 | An empty query keeps every record, in order |
| Roster.NameFilterConcat | src/components/screens/ManageUser.js:118-126 | The filter works record by record, so it preserves order across concatenation |
| Roster.NextStatus | src/components/screens/ManageUser.js:128-129 | The toggle asks for Disabled exactly for an Active record, and Active otherwise |
| Roster.NextStatusTwice | src/components/screens/ManageUser.js:128-129 | On the two server statuses, toggling twice is the identity |
| Roster.SetStatus | src/components/screens/riders/RidersList.js:120-126 | Records whose id is listed take the new status; all others are unchanged; length and order are kept |
| Roster.SetStatusIdempotent | src/components/screens/riders/RidersList.js:120-126 | Rewriting with the same status again changes nothing |
| RidersList.Initial | src/components/screens/riders/RidersList.js:10-27 | The rider list starts empty, with no selection, an empty query, page 1, no loading flag and the dialog closed |
| RidersList.FetchRiders | src/components/screens/riders/RidersList.js:29-45 | A fetched list fills both lists; a failure keeps them; loading ends false |
| RidersList.HandleFilter | src/components/screens/riders/RidersList.js:52-60 | The filtered list is the name filter of all riders, back on page 1 |
| RidersList.ClearSearchAndFilter | src/components/screens/riders/RidersList.js:63-67 | The query is emptied and every rider is listed again on page 1 |
| RidersList.ClearThenFilterShowsAll | src/components/screens/riders/RidersList.js:52-67 | Filtering with the cleared query shows every rider |
| RidersList.ToggleId | src/components/screens/riders/RidersList.js:86-94 | The id is selected afterwards exactly when it was not before; no other id changes; a new id is appended |
| RidersList.ToggleKeepsNoDup | src/components/screens/riders/RidersList.js:86-94 | Toggling never creates a duplicate selection |
| RidersList.ToggleTwice | src/components/screens/riders/RidersList.js:86-94 | Ticking and unticking a box restores the selection |
| RidersList.HandleSelectRider | src/components/screens/riders/RidersList.js:86-94 | Ticking a rider selects it exactly when it was not selected, no other id changes, the selection stays duplicate-free, and the lists and dialog are untouched |
| RidersList.ShowConfirmationModal | src/components/screens/riders/RidersList.js:96-106 | The dialog opens for the chosen action with the title "Confirm Activation" or "Confirm Disable"; every other field of the screen (both lists, selection, query, page and loading flags) is untouched |
| RidersList.BulkUpdate | src/components/screens/riders/RidersList.js:108-183 | When every request returns a user, the selected riders take the target status, the filtered list is reset to all riders and the selection clears; otherwise nothing changes; the dialog closes and the action's loading flag ends false |
| RidersList.BulkRewritesSelectedOnly | src/components/screens/riders/RidersList.js:108-145 | A successful bulk action moves exactly the selected riders to the target status, keeping ids, length and order |
| RidersList.HandleConfirmAction | src/components/screens/riders/RidersList.js:185-191 | Confirming runs the action the dialog was opened for, and does nothing without one |
| RidersList.SelectAll | src/components/screens/riders/RidersList.js:278-290 | Ticking the header selects every rider id; clearing it selects none |
| RidersList.SelectAllChecksHeader | src/components/screens/riders/RidersList.js:278-290 | After select-all the header is checked exactly when there are riders; after clearing it is not |
| RidersList.ButtonsAfterBulk | src/components/screens/riders/RidersList.js:375-396 | After a successful bulk action both bulk buttons are disabled |
| RidersList.SelectedDisabledBlocksDisable | src/components/screens/riders/RidersList.js:193-201 | Selecting a rider whose first record is Disabled disables the Disable button |
| RidersList.AllActiveSelection | src/components/screens/riders/RidersList.js:193-201 | With a non-empty selection of riders that are all Active and no disable in progress, Disable is enabled and Activate is disabled |
| RidersList.ExtraTickUnchecksHeader | src/components/screens/riders/RidersList.js:287-290 | With every rider selected, ticking an id not yet selected unchecks the header, since the header compares lengths |
| RidersApplicant.Rank | src/components/screens/riders/RidersApplicant.js:278-283 | Pending ranks before Verified, which ranks before Unverified |
| RidersApplicant.Insert | src/components/screens/riders/RidersApplicant.js:278-283 | Insertion adds exactly one element: same length plus one, same multiset plus the element |
| RidersApplicant.InsertSorted | src/components/screens/riders/RidersApplicant.js:278-283 | Inserting into a rank-sorted list keeps it sorted |
| RidersApplicant.SortRiders | src/components/screens/riders/RidersApplicant.js:278-283 | The result is sorted by rank and is a permutation of the input |
| RidersApplicant.SortRidersStable | src/components/screens/riders/RidersApplicant.js:278-283 | The sort is stable: the applicants of each rank keep their relative order |
| RidersApplicant.SortRidersSorted | src/components/screens/riders/RidersApplicant.js:278-283 | Sorting an already sorted list changes nothing |
| RidersApplicant.SearchFindsEachPart | src/components/screens/riders/RidersApplicant.js:285-294 | The search text holds the name, the user name and the status, so a query for the first name, the user name or the status finds the applicant |
| RidersApplicant.SearchEffect | src/components/screens/riders/RidersApplicant.js:285-294 | The shown list is a rank-sorted permutation (same multiset) of the applicants whose search text contains the query, on page 1; nothing else changes |
| RidersApplicant.SetSearch | src/components/screens/riders/RidersApplicant.js:285-298 | After setting or clearing the query, the query is stored, the page is 1, the list is unchanged, and the shown list is a rank-sorted permutation of exactly the matching applicants |
| RidersApplicant.ClearSearchShowsAll | src/components/screens/riders/RidersApplicant.js:285-298 | Clearing the query shows the whole sorted list |
| RidersApplicant.FetchRiders | src/components/screens/riders/RidersApplicant.js:260-294 | The fetched list is sorted into `riders`, and the search effect its change triggers leaves the shown list a rank-sorted permutation of the applicants matching the current query, on page 1, with the query and selection kept; a failure keeps the screen |
| RidersApplicant.FetchWithEmptyQueryShowsAll | src/components/screens/riders/RidersApplicant.js:260-294 | With no query typed, the whole sorted fetched list is shown |
| RidersApplicant.SetVerification | src/components/screens/riders/RidersApplicant.js:313-341 | Exactly the applicants with that user id take the new status; the rest are unchanged |
| RidersApplicant.HandleStatusChange | src/components/screens/riders/RidersApplicant.js:313-341 | Both lists are rewritten and re-sorted; the selected user follows the change only when it is that user |
| RidersApplicant.StatusChangeRewritesOnlyThatUser | src/components/screens/riders/RidersApplicant.js:313-341 | After a status change the list is a permutation of the rewritten list, and no other applicant changes |
| RidersApplicant.VerifyToggle | src/components/screens/riders/RidersApplicant.js:343-344 | Verified goes to Pending; anything else to Verified |
| RidersApplicant.VerifyToggleTwice | src/components/screens/riders/RidersApplicant.js:343-344 | Between Verified and Pending the toggle goes back and forth |
| RidersApplicant.HandleVerifyClick | src/components/screens/riders/RidersApplicant.js:343-351 | Clicking verify opens the dialog for that user with the toggled status; the lists, selection, query, page and loading flag are unchanged |
| RidersApplicant.HandleVerificationConfirm | src/components/screens/riders/RidersApplicant.js:353-398 | A truthy reply rewrites and re-sorts the list, re-runs the search (the shown list is a sorted permutation of the matches in the new list, page 1) and updates the selected user if it is that user; otherwise the lists and selection stay; loading, dialog and pending data are always cleared |
| RidersApplicant.VerifyThenConfirm | src/components/screens/riders/RidersApplicant.js:343-398 | Clicking verify and confirming a truthy reply toggles that applicant's status |
| RidersApplicant.ImageClick | src/components/screens/riders/RidersApplicant.js:116-124 | Clicking a requirement enlarges it only when it is an image |
| RidersApplicant.TextRequirements | src/components/screens/riders/RidersApplicant.js:118 | For every id, exactly requirements 3, 5, 6 and 10 are shown as text; within the ids 1 to 10, the other six enlarge on a click |
| ManageUser.Initial | src/components/screens/ManageUser.js:81-97 | The customer list starts empty, on page 1, with an empty query, not loading and the dialog closed with no customer |
| ManageUser.FetchCustomers | src/components/screens/ManageUser.js:101-116 | A fetched list fills both lists; a failure keeps them |
| ManageUser.HandleFilter | src/components/screens/ManageUser.js:118-126 | The filtered list is the name filter of all customers, back on page 1 |
| ManageUser.HandleStatusChangeClick | src/components/screens/ManageUser.js:128-138 | The dialog opens for that customer, titled by the toggled status |
| ManageUser.HandleConfirmStatusChange | src/components/screens/ManageUser.js:140-176 | Without a customer nothing happens; a resolved request toggles that customer in the filtered list, a rejected one changes no list; the master list is never changed; the dialog closes and keeps its customer |
| ManageUser.ConfirmRewritesOnlyThatCustomer | src/components/screens/ManageUser.js:140-176 | A confirmed change rewrites only the records with that customer's id, keeping length and order |
| ManageUser.FilterAfterChangeShowsOldStatus | src/components/screens/ManageUser.js:118-176 | Filtering again after a confirmed change shows the customers as fetched, since the master list was not updated |
| ManageAdmin.CardStatusClick | src/components/screens/super-admin/ManageAdmin.js:17-27 | A card's button opens its dialog for the toggled status, titled "Disable Admin User" for an Active admin and "Enable Admin User" otherwise |
| ManageAdmin.CardConfirm | src/components/screens/super-admin/ManageAdmin.js:29-46 | The change is reported to the list exactly when the request resolved, as that admin's id with the pending status; loading and the dialog are always cleared |
| ManageAdmin.FetchAdmins | src/components/screens/super-admin/ManageAdmin.js:188-198 | A fetched list replaces the admins; a failure keeps them |
| ManageAdmin.HandleStatusChange | src/components/screens/super-admin/ManageAdmin.js:204-210 | The admins with that id take the new status; the others are unchanged |
| ManageAdmin.CardToggleUpdatesList | src/components/screens/super-admin/ManageAdmin.js:17-210 | Clicking a card and confirming a resolved request toggles that admin in the list; a rejection leaves the list alone |
| ManageAdmin.HandleEdit | src/components/screens/super-admin/ManageAdmin.js:212-215 | Edit shows the form with that id |
| ManageAdmin.HandleAddNew | src/components/screens/super-admin/ManageAdmin.js:217-220 | Add shows the form with no id |
| ManageAdmin.EditingAdmin | src/components/screens/super-admin/ManageAdmin.js:246-248 | The form receives a listed admin whose id is the editing id, and nothing without an id |
| ManageAdmin.FormModes | src/components/screens/super-admin/ManageAdmin.js:212-248 | Add-new hands the form no record; editing a listed admin hands it that admin |
| AddAdminForm.InitialUserData | src/components/screens/super-admin/AddAdminForm.js:31-41 | The form starts with every text field empty and no date |
| AddAdminForm.MapGender | src/components/screens/super-admin/AddAdminForm.js:23-29 | "M" becomes "Male", "F" becomes "Female", anything else is kept |
| AddAdminForm.MapGenderIdempotent | src/components/screens/super-admin/AddAdminForm.js:23-29 | Mapping a mapped gender again changes nothing |
| AddAdminForm.Populate | src/components/screens/super-admin/AddAdminForm.js:43-57 | Editing replaces the form by exactly the six text fields: user name, first and last name, email and mobile number copied from the record ("" when missing), gender mapped, and the record's date; without a record the form is kept |
| AddAdminForm.EditModeHasNoPasswords | src/components/screens/super-admin/AddAdminForm.js:43-57 | In edit mode the password fields disappear and a missing field reads "" |
| AddAdminForm.ValidateForm | src/components/screens/super-admin/AddAdminForm.js:68-80 | Any empty field gives the general error; otherwise in add mode a password mismatch gives the password error; the form passes exactly when neither applies |
| AddAdminForm.NullDateDoesNotBlock | src/components/screens/super-admin/AddAdminForm.js:68-80 | A missing date of birth never blocks validation |
| AddAdminForm.EmptyFormRejected | src/components/screens/super-admin/AddAdminForm.js:31-80 | The untouched add form is rejected with the general message |
| AddAdminForm.HandleSubmit | src/components/screens/super-admin/AddAdminForm.js:82-94 | The confirmation opens only when validation passes, with the add or update title; a failure only records the errors |
| AddAdminForm.Payload | src/components/screens/super-admin/AddAdminForm.js:98-106 | The payload is the form without `repassword`, with role 2 |
| AddAdminForm.SaveFailed | src/components/screens/super-admin/AddAdminForm.js:131-141 | A 422 replaces the errors with the server's; any other failure keeps them; the dialog closes |
| AddAdminForm.SaveSucceeded | src/components/screens/super-admin/AddAdminForm.js:115-127 | A save clears the errors, closes the dialog and hides the form |
| AddAdminForm.ConfirmSubmitAsWritten | src/components/screens/super-admin/AddAdminForm.js:96-142 | As written, add mode always fails without a response; edit mode without a record fails the same way; edit mode with a record saves or fails as the request did |
| AddAdminForm.AddAdminNeverSaves | src/components/screens/super-admin/AddAdminForm.js:109-113 | As written, adding an admin never hides the form and never shows server errors |
| AddAdminForm.ConfirmSubmit | src/components/screens/super-admin/AddAdminForm.js:96-142 | With a sign-up request in the add branch, both modes follow the request's outcome; edit mode is unchanged |
| AddAdminForm.AddAdminSaves | src/components/screens/super-admin/AddAdminForm.js:109-140 | With the sign-up request in place, a successful add hides the form and a 422 shows the server's errors |
| EmailPattern.IsEmail | src/components/ManageAccount.js:78 | An accepted address splits into a local part, "@", a domain, "." and a top-level part as the pattern requires |
| EmailPattern.IsEmailMatches | src/components/ManageAccount.js:78 | The scan accepts exactly the strings the case-insensitive pattern matches |
| EmailPattern.Examples | src/components/ManageAccount.js:78 | A dotted domain matches; a one-letter top-level part does not |
| ManageAccount.Initial | src/components/ManageAccount.js:9-25 | The account screen starts not loading, with empty text fields and passwords, no picture, no preview, no errors and no notification |
| ManageAccount.FetchUserData | src/components/ManageAccount.js:27-67 | "Account Disabled" only sets the disabled notification; other users fill the initial data, the two fields and the stored picture preview; a failure sets the fetch-error notification; loading ends false |
| ManageAccount.HandleInputChange | src/components/ManageAccount.js:98-104 | The named input takes the value and no other field changes |
| ManageAccount.HandleProfilePictureChange | src/components/ManageAccount.js:106-122 | A file over 2 MiB only sets the size error; a smaller file is kept and previewed; no file changes nothing |
| ManageAccount.Validate | src/components/ManageAccount.js:69-96 | Each field's error is present exactly when its check fails, with the source's text: "Username is required"; "Email is required" or "Invalid email address"; and, only with a new password, the current-password message, "Password must be at least 8 characters" and "Passwords do not match" |
| ManageAccount.ValidIffNoErrors | src/components/ManageAccount.js:94-95 | The form is valid exactly when the username and email are present, the email matches the pattern, and a new password, if any, passes its three checks |
| ManageAccount.EmptyNewPasswordSkipsPasswordChecks | src/components/ManageAccount.js:82-92 | Without a new password, the current and confirmation fields never affect validation |
| ManageAccount.Payload | src/components/ManageAccount.js:141-152 | The body starts with username and email; the password parts are present exactly when a new password is set; the picture is the last part exactly when one was chosen |
| ManageAccount.Submit | src/components/ManageAccount.js:124-187 | An invalid form only records its errors; a success clears the three password fields and shows the reply's message or the default; a failure shows the given message |
| ManageAccount.ClearPasswords | src/components/ManageAccount.js:171-176 | Only the three password fields are emptied, and a valid form stays valid |
| ManageAccount.HandleSubmitAsWritten | src/components/ManageAccount.js:178-183 | As written, every failed update shows the fixed default text |
| ManageAccount.ServerErrorNeverShown | src/components/ManageAccount.js:178-183 | As written, the server's `error` text never reaches the notification |
| ManageAccount.HandleSubmit | src/components/ManageAccount.js:124-187 | Corrected: a failed update shows the message the service rethrew; a success behaves as written |
| ManageAccount.ServerErrorShown | src/services.js:148-154 | Corrected: the notification shows the server's `error`, else its `message`, else the service's default text |
| ManageAccount.SuccessClearsPasswordChange | src/components/ManageAccount.js:171-176 | After a successful save the form stays valid and the next body carries no new password |
| ManageAccount.ChosenPictureIsSent | src/components/ManageAccount.js:106-152 | An accepted picture is the last part of the next body; a rejected one leaves the body as it was |
| ManageAccount.DisabledAccountLeavesFormEmpty | src/components/ManageAccount.js:33-39 | A disabled account leaves the form unpopulated, so it cannot be submitted |
| BookingHistory.Initial | src/components/screens/BookingHistory.js:7-12 | The history starts empty and loading, on page 1, with all three filters empty |
| BookingHistory.FetchHistory | src/components/screens/BookingHistory.js:15-29 | A fetched list replaces the history; a failure keeps it; loading ends false |
| BookingHistory.PersonName | src/components/screens/BookingHistory.js:38-43 | A present person is the lowercased first name, a space and the lowercased last name; an absent one is "" |
| BookingHistory.FilteredHistory | src/components/screens/BookingHistory.js:37-65 | A booking is listed exactly when both name queries occur in the lowercased names and it falls on the chosen day, if any |
| BookingHistory.KeepSearchesShownNames | src/components/screens/BookingHistory.js:37-64 | A booking is kept exactly when the lowercased names the table shows ("" for a missing person) contain the lowercased queries and it falls on the chosen day, if any |
| BookingHistory.NoFiltersKeepAll | src/components/screens/BookingHistory.js:53-64 | With all three filters empty, every booking is listed, in order |
| BookingHistory.MissingUserHidden | src/components/screens/BookingHistory.js:38-61 | A booking without a customer is hidden once the customer query is non-empty |
| BookingHistory.HandleClearSearch | src/components/screens/BookingHistory.js:31-35 | Clear All empties all three filters and keeps the list |
| BookingHistory.ClearShowsAll | src/components/screens/BookingHistory.js:31-65 | After Clear All every fetched booking is listed again |
| BookingHistory.CurrentItems | src/components/screens/BookingHistory.js:67-70 | A page holds at most 10 bookings, all of them matching the filters |
| BookingHistory.PagesCoverFiltered | src/components/screens/BookingHistory.js:67-82 | Pages 1 to ceil(n/10) show every matching booking exactly once, in order |
| BookingHistory.NameCell | src/components/screens/BookingHistory.js:203-210 | A name cell is "N/A" without a person, else the name whose lowercase form is what the filter searches |
| BookingHistory.RowOf | src/components/screens/BookingHistory.js:199-210 | The ride-id cell is "N/A" for a missing or 0 id and otherwise reads back as the id; a name cell is "N/A" exactly when the person is missing, and otherwise lowercases to the searched name |
| BookingHistory.RideIdCellReadsBack | src/components/screens/BookingHistory.js:200 | The ride-id cell reads back as the id, unless the id is missing or 0 and the cell shows "N/A" |
| Feedback.FetchFeedbacks | src/components/screens/Feedback.js:13-26 | A fetched list replaces the feedbacks; a failure keeps them |
| Feedback.SearchName | src/components/screens/Feedback.js:29-33 | The searched text is the first name, a space and the last name, with "" for a missing or empty part; a sender with neither part searches " " |
| Feedback.FilteredFeedbacks | src/components/screens/Feedback.js:29-33 | A feedback is listed exactly when its lowercased sender text contains the lowercased query |
| Feedback.EmptyQueryKeepsAll | src/components/screens/Feedback.js:29-33 | An empty search keeps every feedback, in order |
| Feedback.PersonCell | src/components/screens/Feedback.js:102-112 | A person is shown as "first last" only when both parts are non-empty, else "N/A" |
| Feedback.RowOf | src/components/screens/Feedback.js:101-126 | The comment is shown when truthy, else "N/A"; the ride-id cell is "N/A" for a missing or 0 id and otherwise reads back as the id; the person and sender-type cells follow their own rules |
| Feedback.SenderTypeCell | src/components/screens/Feedback.js:114-118 | The sender type shows the longest suffix without a backslash: either the whole type or the text after its last backslash; "N/A" when absent |
| Feedback.SenderCellAgreesWithSearch | src/components/screens/Feedback.js:29-105 | The sender cell is "N/A" exactly when a name part is missing, and otherwise it is the searched text |
| Feedback.SenderTypeExamples | src/components/screens/Feedback.js:114-118 | A plain class name is shown as is; a namespaced one loses its namespace |
| Feedback.CurrentItems | src/components/screens/Feedback.js:36-41 | A page holds at most 10 feedbacks, all of them matching the search |
| Feedback.PagesCoverFiltered | src/components/screens/Feedback.js:36-53 | Pages 1 to ceil(n/10) show every matching feedback exactly once, in order |
| RidersPayment.Initial | src/components/screens/riders/RidersPayment.js:6-17 | The screen opens closed, with an empty form and exactly the three sample payments |
| RidersPayment.OpenRecordPayment | src/components/screens/riders/RidersPayment.js:54-58 | The button opens the record-payment dialog and leaves the ledger alone |
| RidersPayment.ViewProof | src/components/screens/riders/RidersPayment.js:109-112 | A row's proof button opens the dialog on the proof view; the form and the ledger are untouched |
| RidersPayment.Type | src/components/screens/riders/RidersPayment.js:166-190 | Typing into one input sets exactly that input; the other inputs, the dialog and the ledger are untouched |
| RidersPayment.ResetForm | src/components/screens/riders/RidersPayment.js:37-41 | The three inputs are emptied; nothing else changes |
| RidersPayment.CloseModal | src/components/screens/riders/RidersPayment.js:31-35 | Closing clears the dialog type and the form and leaves the ledger alone |
| RidersPayment.HandleSubmit | src/components/screens/riders/RidersPayment.js:19-29 | The typed payment goes first with id length+1, the old ledger follows unchanged, and the dialog closes with an empty form |
| RidersPayment.SampleNumbered | src/components/screens/riders/RidersPayment.js:13-17 | The sample ledger's ids are exactly 1 to 3 |
| RidersPayment.SubmitKeepsNumbering | src/components/screens/riders/RidersPayment.js:19-27 | Submitting keeps the ids exactly 1 to n, each once |
| RidersPayment.RunKeepsNumbering | src/components/screens/riders/RidersPayment.js:13-41 | Whatever the user does, a ledger numbered 1 to n stays so and grows by one per submission |
| RidersPayment.ReachableNumbered | src/components/screens/riders/RidersPayment.js:13-41 | From the opening screen, the ledger's ids are always exactly 1 to n with no duplicate |
| RidersPayment.CloseDiscardsInput | src/components/screens/riders/RidersPayment.js:31-41 | Opening, typing and closing without submitting leaves the ledger unchanged and forgets the input |
| Text.Lower | src/components/screens/riders/RidersList.js:53-59 | Lowercasing keeps the length and maps each character to its lowercase form |
| Text.Includes | src/components/screens/riders/RidersList.js:53-59 | `includes` holds exactly when the query occurs at some offset |
| Text.IncludesPart | src/components/screens/riders/RidersApplicant.js:285-294 | Every middle part of a string is included in it, also after lowercasing both |
| Text.IncludesEmpty | src/components/screens/riders/RidersList.js:53-59 | Every string includes the empty query |
| Text.EmptyIncludesOnlyEmpty | src/components/screens/BookingHistory.js:38-61 | The empty string includes only the empty query |
| Text.LastSegment | src/components/screens/Feedback.js:116 | The last segment is a suffix without the separator, preceded by the separator unless it is the whole string |
| Numerals.ParseIntRoundTrip | src/hooks/useAuth.js:23-40 | A number written to storage parses back to that number |
| Numerals.NumberOrElseShowsId | src/components/screens/Feedback.js:126 | An id cell parses back to the id, unless the id is missing or 0 and the fallback is shown |
| Lists.Filter | src/components/screens/riders/RidersList.js:53 | The filtered list holds exactly the elements that pass, and is no longer than the input |
| Lists.FilterCounts | src/components/screens/riders/RidersList.js:53 | Every element that passes keeps its number of occurrences, and no other element remains |
| Lists.FilterConcat | src/components/screens/riders/RidersList.js:53 | Filtering preserves order across concatenation |
| Paging.Page | src/components/screens/riders/RidersList.js:70-72 | Page p holds at most n items, the ones at positions n(p-1) onwards; the rider list and customer list page their filtered list by 10 with it, the applications by 5 |
| Paging.TotalPages | src/components/screens/riders/RidersList.js:78 | The page count is the least t with t times the page size at least the length |
| Paging.PagesPartition | src/components/screens/riders/RidersList.js:70-84 | The numbered pages 1 to ceil(length/n) together show the list exactly once, in order, for the rider, customer and application lists alike |
| Paging.PagesNonEmpty | src/components/screens/riders/RidersList.js:78-84 | A page is non-empty exactly when its number is at most the page count |

## Left out

- Rendering: JSX, Tailwind classes, dialogs and transitions, toasts and alerts, and console output. The model keeps only the state they display.
- Network: axios and Pusher calls are not modelled. Each request is an input outcome, and each push event is a payload in a sequence.
- Timing: `Promise.all` in the bulk rider actions is one all-or-nothing step. React effect ordering and state batching are not modelled; each handler is one atomic transition.
- Floating point: the verified-percentage bar of the dashboard and the `Number(...)` conversion of a recorded payment amount. The amount is kept as the typed text.
- Dates and locales: date formatting, `toISOString` of the date of birth, and the day comparison of the booking filter. A booking carries its ride day as a `YYYY-MM-DD` string, and an invalid date input is not modelled.
- Browser environment: the DOM measurement and resize listener of the dashboard, which receives the container height as a number. `URL.createObjectURL` previews are also left out; a chosen file stands for its preview.
- Timers: the success banner of the admin screen and the settings message.
- Whole files: `src/components/Settings.js` (local form state and a timer), `src/MainLayout.js` and `src/api.js` (layout and client configuration), `src/components/screens/riders/RidersLocation.js` (coordinates and geolocation), and `src/components/screens/Dashboard copy.js` (an unused duplicate).
- Text.Lower: lowercases ASCII letters only; full Unicode case mapping is not modelled. `includes` is modelled as containment at an offset.
- ManageAccount.Validate: string length counts code points, not UTF-16 code units as JavaScript does, so the 8-character password check differs for characters outside the Basic Multilingual Plane.
- Numerals.ParseIntRoundTrip: `parseInt` is modelled as an optional sign and a run of decimal digits; leading whitespace and radix prefixes are not modelled.
- Routes.AppContent: route matching is exact string equality; react-router's case-insensitive matching and trailing slashes are not modelled.
- RidersApplicant.SortRiders: applicant statuses are the three known values; any other string makes the comparator return NaN, whose order is unspecified.
- AddAdminForm.MapGender: only the two keys of the gender table are modelled, not inherited object properties such as "toString".
- ManageAdmin.CardConfirm: requires a pending status, since its dialog opens only after the status button sets one.
- AddAdminForm.ConfirmSubmit: the admin list refresh after a successful save is not modelled. The form calls a `setAdmin` prop that the admin screen does not pass (it passes `setAdmins`), so the refresh throws after the form is already hidden.
- RidersApplicant.HandleVerificationConfirm: the `isLoading` flag is set at the start of the handler; only its cleared final value is modelled.
- BookingHistory.NameCell, Roster.NameFilter: a person's first and last names are strings; a `null` name part, which a template literal prints as "null", is not modelled (this also affects the name filters of the rider list and the customer screen). Feedback's cells test each part for truthiness and are modelled in full.
- Services.ServiceLogin: the login reply always carries a numeric `user_id`; a reply without one, which would store the text "undefined", is not modelled.
- ManageAccount.Submit: a successful update's body always has a `message` field that may be missing; a `null` body, whose `message` read would throw into the catch block, is not modelled.
- Session.Restore: a `null` role or id and a role that is not a number are both `None`; every reader only compares the role with 1 or 2.

## Findings

| source | as written | input that shows it | evidently intended | confidence | as-written member | corrected member |
|---|---|---|---|---|---|---|
| src/components/screens/super-admin/AddAdminForm.js:112 | In add mode the form calls `userService.signup`, which the service object in src/services.js does not define, so the call throws a TypeError before any request | Open "Add Admin", fill every field with matching passwords, confirm | Send the payload to a sign-up request: on success hide the form, on a 422 show the server's validation errors | high; not executed | AddAdminForm.ConfirmSubmitAsWritten, AddAdminForm.AddAdminNeverSaves | AddAdminForm.ConfirmSubmit, AddAdminForm.AddAdminSaves |
| src/components/ManageAccount.js:182 | The catch block reads `error.response?.data?.error`, but `updateAccount` (src/services.js:150-154) rethrows a plain `Error` carrying only a message, so the default text is always shown | A valid form and a server answer of status 400 with body `{ "error": "Email already taken" }` | Show the rethrown error's message, which already prefers `error`, then `message`, then a default | high; not executed | ManageAccount.HandleSubmitAsWritten, ManageAccount.ServerErrorNeverShown | ManageAccount.HandleSubmit, ManageAccount.ServerErrorShown |

=== FILE: add_admin_form.dfy ===
/**
  The add/edit admin form: gender mapping, filling the form from the
  admin being edited, validation, the submit gate, the payload, and the
  handling of the save request's outcome.
 */
module AddAdminForm {
  import opened Outcomes
  import opened Text
  import opened Services

  const RequiredMessage: string := "Please input all required data"
  const MismatchMessage: string := "Passwords do not match"
  const AdminRole: int := 2

  /** Field name to error text. */
  type Errors = map<string, string>

  /**
    `userData`: the text fields present, by name, and the date of birth
    (a date is never the empty string; `None` is `null`). Dates are kept
    abstract.
   */
  datatype UserData = UserData(fields: map<string, string>, dateOfBirth: Option<int>)

  const TextKeys: set<string> := {"user_name", "first_name", "last_name", "gender", "email", "mobile_number"}
  const PasswordKeys: set<string> := {"password", "repassword"}

  function InitialUserData(): (u: UserData)
    ensures u.fields.Keys == TextKeys + PasswordKeys
    ensures forall k :: k in u.fields ==> u.fields[k] == ""
    ensures u.dateOfBirth.None?
  {
    UserData(map k | k in TextKeys + PasswordKeys :: "", None)
  }

  /** `genderMap[gender] || gender`; `None` is `undefined`. */
  function MapGender(gender: Option<string>): (r: Option<string>)
    ensures gender == Some("M") ==> r == Some("Male")
    ensures gender == Some("F") ==> r == Some("Female")
    ensures gender != Some("M") && gender != Some("F") ==> r == gender
  {
    if gender == Some("M") then Some("Male")
    else if gender == Some("F") then Some("Female")
    else gender
  }

  /** Mapping a mapped value again changes nothing. */
  lemma MapGenderIdempotent(gender: Option<string>)
    ensures MapGender(MapGender(gender)) == MapGender(gender)
  {
  }

  /** The admin record being edited; absent fields are `None`. */
  datatype AdminRecord = AdminRecord(
    userName: Option<string>,
    firstName: Option<string>,
    lastName: Option<string>,
    gender: Option<string>,
    dateOfBirth: Option<int>,
    email: Option<string>,
    mobileNumber: Option<string>)

  /** The effect on `editingAdmin`: replace the form with the record, "" for anything missing. */
  function Populate(u: UserData, editing: Option<AdminRecord>): (r: UserData)
    ensures editing.None? ==> r == u
    ensures editing.Some? ==> r.fields.Keys == TextKeys && r.dateOfBirth == editing.value.dateOfBirth
    ensures editing.Some? ==> r.fields["user_name"] == OrElse(editing.value.userName, "")
    ensures editing.Some? ==> r.fields["first_name"] == OrElse(editing.value.firstName, "")
    ensures editing.Some? ==> r.fields["last_name"] == OrElse(editing.value.lastName, "")
    ensures editing.Some? ==> r.fields["email"] == OrElse(editing.value.email, "")
    ensures editing.Some? ==> r.fields["mobile_number"] == OrElse(editing.value.mobileNumber, "")
    ensures editing.Some? ==> r.fields["gender"] == OrElse(MapGender(editing.value.gender), "")
  {
    match editing
    case None => u
    case Some(a) =>
      UserData(
        map[
          "user_name" := OrElse(a.userName, ""),
          "first_name" := OrElse(a.firstName, ""),
          "last_name" := OrElse(a.lastName, ""),
          "gender" := OrElse(MapGender(a.gender), ""),
          "email" := OrElse(a.email, ""),
          "mobile_number" := OrElse(a.mobileNumber, "")
        ],
        a.dateOfBirth)
  }

  /** In edit mode the password fields disappear, and a missing field reads "". */
  lemma EditModeHasNoPasswords(u: UserData, a: AdminRecord)
    ensures PasswordKeys !! Populate(u, Some(a)).fields.Keys
    ensures a.email.None? ==> Populate(u, Some(a)).fields["email"] == ""
  {
  }

  /** `!editingAdminId`: no id, or id 0. */
  predicate AddMode(editingAdminId: Option<int>) {
    editingAdminId.None? || editingAdminId.value == 0
  }

  function Field(u: UserData, key: string): (v: Option<string>)
    ensures v.Some? <==> key in u.fields
    ensures v.Some? ==> v.value == u.fields[key]
  {
    if key in u.fields then Some(u.fields[key]) else None
  }

  predicate AnyEmpty(u: UserData) {
    exists k :: k in u.fields && u.fields[k] == ""
  }

  /** `validateForm`: the errors it sets, or `Success` when the form may be submitted. */
  function ValidateForm(u: UserData, editingAdminId: Option<int>): (r: Result<(), Errors>)
    ensures AnyEmpty(u) ==> r == Failure(map["general" := RequiredMessage])
    ensures !AnyEmpty(u) && AddMode(editingAdminId) && Field(u, "password") != Field(u, "repassword") ==>
      r == Failure(map["password" := MismatchMessage])
    ensures r.Success? <==>
      !AnyEmpty(u) && (!AddMode(editingAdminId) || Field(u, "password") == Field(u, "repassword"))
  {
    if AnyEmpty(u) then Failure(map["general" := RequiredMessage])
    else if AddMode(editingAdminId) && Field(u, "password") != Field(u, "repassword") then
      Failure(map["password" := MismatchMessage])
    else Success(())
  }

  /** A missing date of birth is not an empty field: only the text fields count. */
  lemma NullDateDoesNotBlock(u: UserData, editingAdminId: Option<int>)
    requires !AnyEmpty(u) && !AddMode(editingAdminId)
    ensures ValidateForm(u.(dateOfBirth := None), editingAdminId).Success?
  {
  }

  /** The untouched add form is rejected with the general message. */
  lemma EmptyFormRejected()
    ensures ValidateForm(InitialUserData(), None) == Failure(map["general" := RequiredMessage])
  {
    assert "email" in InitialUserData().fields;
  }

  datatype Confirmation = Confirmation(isOpen: bool, title: string, message: string)

  datatype Form = Form(userData: UserData, errors: Errors, confirmation: Confirmation, showForm: bool)

  /** `handleSubmit`: open the dialog only when validation passes, else show the errors. */
  function HandleSubmit(f: Form, editingAdminId: Option<int>): (r: Form)
    ensures r.confirmation.isOpen <==> f.confirmation.isOpen || ValidateForm(f.userData, editingAdminId).Success?
    ensures ValidateForm(f.userData, editingAdminId).Failure? ==>
      r == f.(errors := ValidateForm(f.userData, editingAdminId).error)
    ensures ValidateForm(f.userData, editingAdminId).Success? ==>
      r.errors == f.errors && r.confirmation.title == (if AddMode(editingAdminId) then "Confirm Add Admin" else "Confirm Admin Update")
  {
    match ValidateForm(f.userData, editingAdminId)
    case Failure(e) => f.(errors := e)
    case Success(_) =>
      f.(confirmation := if AddMode(editingAdminId)
        then Confirmation(true, "Confirm Add Admin", "Are you sure you want to add this new admin?")
        else Confirmation(true, "Confirm Admin Update", "Are you sure you want to update this admin's information?"))
  }

  /** `adminData`: the form without `repassword`, with `role_id` 2. */
  datatype AdminPayload = AdminPayload(fields: map<string, string>, dateOfBirth: Option<int>, roleId: int)

  function Payload(u: UserData): (p: AdminPayload)
    ensures "repassword" !in p.fields && p.roleId == AdminRole
    ensures p.fields.Keys == u.fields.Keys - {"repassword"}
    ensures forall k :: k in p.fields ==> p.fields[k] == u.fields[k]
    ensures p.dateOfBirth == u.dateOfBirth
  {
    AdminPayload(u.fields - {"repassword"}, u.dateOfBirth, AdminRole)
  }

  /** What the catch block does with a failed save: a 422 replaces the errors; the dialog closes. */
  function SaveFailed(f: Form, e: HttpError, validation: Errors): (r: Form)
    ensures !r.confirmation.isOpen && r.showForm == f.showForm && r.userData == f.userData
    ensures e.response.Some? && e.response.value.status == 422 ==> r.errors == validation
    ensures !(e.response.Some? && e.response.value.status == 422) ==> r.errors == f.errors
  {
    var errors := if e.response.Some? && e.response.value.status == 422 then validation else f.errors;
    f.(errors := errors, confirmation := Confirmation(false, "", ""))
  }

  /**
    The save request's outcome: resolved, or rejected with an error and
    the validation errors its body holds.
   */
  datatype Save = Saved | SaveRejected(error: HttpError, validation: Errors)

  /** A success clears the errors, closes the dialog and hides the form. */
  function SaveSucceeded(f: Form): (r: Form)
    ensures r.errors == map[] && !r.confirmation.isOpen && !r.showForm && r.userData == f.userData
  {
    f.(errors := map[], confirmation := Confirmation(false, "", ""), showForm := false)
  }

  /** The TypeError raised by calling a function the service does not define: it has no response. */
  const NotAFunction: HttpError := HttpError(None)

  /**
    `handleConfirmSubmit` as written. In edit mode it awaits
    `updateAdmin(editingAdmin, adminData)`, which throws before any request
    when no record was found. In add mode it calls `userService.signup`,
    which the service object does not define, so the call throws at once.
   */
  function ConfirmSubmitAsWritten(f: Form, editingAdminId: Option<int>, editing: Option<AdminRecord>, save: Save): (r: Form)
    ensures AddMode(editingAdminId) ==> r == SaveFailed(f, NotAFunction, map[])
    ensures !AddMode(editingAdminId) && editing.None? ==> r == SaveFailed(f, NotAFunction, map[])
    ensures !AddMode(editingAdminId) && editing.Some? && save.Saved? ==> r == SaveSucceeded(f)
    ensures !AddMode(editingAdminId) && editing.Some? && save.SaveRejected? ==>
      r == SaveFailed(f, save.error, save.validation)
  {
    if AddMode(editingAdminId) then SaveFailed(f, NotAFunction, map[])
    else if editing.None? then SaveFailed(f, NotAFunction, map[])
    else match save
      case Saved => SaveSucceeded(f)
      case SaveRejected(e, v) => SaveFailed(f, e, v)
  }

  /**
    As written, adding an admin can never succeed and never shows the
    server's validation errors, whatever the server would answer.
   */
  lemma AddAdminNeverSaves(f: Form, editing: Option<AdminRecord>, save: Save)
    ensures var r := ConfirmSubmitAsWritten(f, None, editing, save);
      r.showForm == f.showForm && r.errors == f.errors && !r.confirmation.isOpen
  {
  }

  /**
    `handleConfirmSubmit` with the add branch sending the payload to a
    sign-up request whose outcome is `save`, like the edit branch.
   */
  function ConfirmSubmit(f: Form, editingAdminId: Option<int>, editing: Option<AdminRecord>, save: Save): (r: Form)
    ensures !r.confirmation.isOpen
    ensures (AddMode(editingAdminId) || editing.Some?) && save.Saved? ==> r == SaveSucceeded(f)
    ensures (AddMode(editingAdminId) || editing.Some?) && save.SaveRejected? ==>
      r == SaveFailed(f, save.error, save.validation)
    ensures !AddMode(editingAdminId) ==> r == ConfirmSubmitAsWritten(f, editingAdminId, editing, save)
  {
    if !AddMode(editingAdminId) && editing.None? then SaveFailed(f, NotAFunction, map[])
    else match save
      case Saved => SaveSucceeded(f)
      case SaveRejected(e, v) => SaveFailed(f, e, v)
  }

  /** With the sign-up request in place, a successful add hides the form and a 422 shows the server's errors. */
  lemma AddAdminSaves(f: Form, e: HttpError, v: Errors)
    requires e.response.Some? && e.response.value.status == 422
    ensures !ConfirmSubmit(f, None, None, Saved).showForm
    ensures ConfirmSubmit(f, None, None, SaveRejected(e, v)).errors == v
  {
  }

}

=== FILE: booking_history.dfy ===
/**
  The booking history: the customer-name, rider-name and ride-day filter,
  Clear All, the table cells and 10-per-page pagination.
 */
module BookingHistory {
  import opened Outcomes
  import opened Text
  import opened Numerals
  import opened Lists
  import opened Paging
  import opened Services
  import opened Roster

  const PerPage: nat := 10

  datatype Person = Person(firstName: string, lastName: string)

  /**
    A booking as the screen reads it. `rideDay` is the UTC calendar day of
    `ride_date` written `YYYY-MM-DD`; the date arithmetic producing it is
    not modelled.
   */
  datatype Booking = Booking(rideId: Option<int>, user: Option<Person>, rider: Option<Person>, rideDay: string)

  /** The three filter inputs; an empty `startDate` means no date filter. */
  datatype Filters = Filters(customerSearch: string, riderSearch: string, startDate: string)

  datatype Screen = Screen(history: seq<Booking>, loading: bool, filters: Filters, currentPage: nat)

  function Initial(): (s: Screen)
    ensures s.history == [] && s.loading && s.currentPage == 1
    ensures s.filters == Filters("", "", "")
  {
    Screen([], true, Filters("", "", ""), 1)
  }

  /** `fetchHistory`: the reply replaces the list; a failure keeps it. */
  function FetchHistory(s: Screen, o: Http<seq<Booking>>): (r: Screen)
    ensures !r.loading && r.filters == s.filters
    ensures o.Resolved? ==> r.history == o.data
    ensures o.Rejected? ==> r.history == s.history
  {
    match o
    case Resolved(data) => s.(history := data, loading := false)
    case Rejected(_) => s.(loading := false)
  }

  /** The lowercased "first last" of a present person, "" for an absent one. */
  function PersonName(p: Option<Person>): (r: string)
    ensures p.None? ==> r == ""
    ensures p.Some? ==> r == Lower(p.value.firstName) + " " + Lower(p.value.lastName)
    ensures p.Some? ==> |r| == |p.value.firstName| + 1 + |p.value.lastName| && r[|p.value.firstName|] == ' '
  {
    match p
    case None => ""
    case Some(q) =>
      LowerConcat(q.firstName + " ", q.lastName);
      LowerConcat(q.firstName, " ");
      Lower(FullName(q.firstName, q.lastName))
  }

  /** The day filter: no start date, or the ride happened on that day. */
  predicate WithinDay(b: Booking, startDate: string) {
    startDate == "" || b.rideDay == startDate
  }

  /** The test `filteredHistory` applies to one booking. */
  predicate Keep(b: Booking, f: Filters) {
    && Includes(PersonName(b.user), Lower(f.customerSearch))
    && Includes(PersonName(b.rider), Lower(f.riderSearch))
    && WithinDay(b, f.startDate)
  }

  /** `filteredHistory`. */
  function FilteredHistory(xs: seq<Booking>, f: Filters): (r: seq<Booking>)
    ensures |r| <= |xs|
    ensures forall b :: b in r <==> b in xs && Keep(b, f)
  {
    Filter(xs, (b: Booking) => Keep(b, f))
  }

  /** With all three filters empty, every booking is listed, in order. */
  lemma NoFiltersKeepAll(xs: seq<Booking>)
    ensures FilteredHistory(xs, Filters("", "", "")) == xs
  {
    LowerEmpty();
    forall i | 0 <= i < |xs|
      ensures Keep(xs[i], Filters("", "", ""))
    {
      IncludesEmpty(PersonName(xs[i].user));
      IncludesEmpty(PersonName(xs[i].rider));
    }
    FilterAllPass(xs, (b: Booking) => Keep(b, Filters("", "", "")));
  }

  /**
    The name filters search the names the table shows, lower-cased; a
    missing person is searched as "".
   */
  lemma KeepSearchesShownNames(b: Booking, f: Filters)
    ensures Keep(b, f) <==>
      && Includes(if b.user.Some? then Lower(NameCell(b.user)) else "", Lower(f.customerSearch))
      && Includes(if b.rider.Some? then Lower(NameCell(b.rider)) else "", Lower(f.riderSearch))
      && (f.startDate == "" || b.rideDay == f.startDate)
  {
  }

  /** A booking without a customer is hidden as soon as the customer query is non-empty. */
  lemma MissingUserHidden(b: Booking, f: Filters)
    requires b.user.None? && f.customerSearch != ""
    ensures !Keep(b, f)
  {
    EmptyIncludesOnlyEmpty(Lower(f.customerSearch));
    assert |Lower(f.customerSearch)| > 0;
  }

  /** `handleClearSearch`. */
  function HandleClearSearch(s: Screen): (r: Screen)
    ensures r.filters.customerSearch == "" && r.filters.riderSearch == "" && r.filters.startDate == ""
    ensures r.history == s.history && r.currentPage == s.currentPage
  {
    s.(filters := Filters("", "", ""))
  }

  /** After Clear All the table lists every fetched booking again. */
  lemma ClearShowsAll(s: Screen)
    ensures FilteredHistory(HandleClearSearch(s).history, HandleClearSearch(s).filters) == s.history
  {
    NoFiltersKeepAll(s.history);
  }

  /** `currentItems`. */
  function CurrentItems(s: Screen): (r: seq<Booking>)
    requires s.currentPage >= 1
    ensures |r| <= PerPage
    ensures forall i :: 0 <= i < |r| ==> r[i] in FilteredHistory(s.history, s.filters)
  {
    Page(FilteredHistory(s.history, s.filters), s.currentPage, PerPage)
  }

  /** Pages 1 to `totalPages` show each matching booking exactly once, in order. */
  lemma PagesCoverFiltered(s: Screen)
    ensures var xs := FilteredHistory(s.history, s.filters);
      Concat(FirstPages(xs, PerPage, TotalPages(|xs|, PerPage))) == xs
  {
    PagesPartition(FilteredHistory(s.history, s.filters), PerPage);
  }

  /** A name cell: "first last" as stored, or "N/A" without a person. */
  function NameCell(p: Option<Person>): (r: string)
    ensures p.None? ==> r == "N/A"
    ensures p.Some? ==> Lower(r) == PersonName(p)
  {
    match p
    case None => "N/A"
    case Some(q) => FullName(q.firstName, q.lastName)
  }

  /** A present person's cell holds a space, so it is never the fallback. */
  lemma NameCellNotFallback(p: Option<Person>)
    ensures NameCell(p) == "N/A" <==> p.None?
  {
    if p.Some? {
      var n := NameCell(p);
      var k := |p.value.firstName|;
      assert n[k] == ' ';
    }
  }

  /** One table row: ride id, customer, rider. */
  datatype Row = Row(rideId: string, customer: string, rider: string)

  function RowOf(b: Booking): (r: Row)
    ensures b.rideId.None? || b.rideId.value == 0 ==> r.rideId == "N/A"
    ensures b.rideId.Some? && b.rideId.value != 0 ==> ParseInt(r.rideId) == b.rideId
    ensures r.customer == "N/A" <==> b.user.None?
    ensures r.rider == "N/A" <==> b.rider.None?
    ensures b.user.Some? ==> Lower(r.customer) == PersonName(b.user)
    ensures b.rider.Some? ==> Lower(r.rider) == PersonName(b.rider)
  {
    NumberOrElseShowsId(b.rideId, "N/A");
    NameCellNotFallback(b.user);
    NameCellNotFallback(b.rider);
    Row(NumberOrElse(b.rideId, "N/A"), NameCell(b.user), NameCell(b.rider))
  }

  /** The ride-id cell reads back as the booking's id unless that id is missing or 0. */
  lemma RideIdCellReadsBack(b: Booking)
    ensures ParseInt(RowOf(b).rideId) == if b.rideId.Some? && b.rideId.value != 0 then b.rideId else None
  {
    NumberOrElseShowsId(b.rideId, "N/A");
  }

}

=== FILE: dashboard.dfy ===
/**
  The Dashboard's snapshot: the counts and recent bookings, replaced
  wholesale by the pull fetch and by every push event; the visible prefix
  of the bookings sized from the table height; the push channel's set-up
  and teardown; and the role-dependent second metric.
 */
module Dashboard {
  import opened Outcomes
  import opened Paging

  /** The `counts` object, field name to value. */
  type Counts = map<string, int>

  const RowHeight: nat := 53
  const InitialPageSize: nat := 5

  /** The six counters the screen starts with, all zero. */
  const InitialCounts: Counts := map[
    "active_riders" := 0, "disabled_riders" := 0, "customers" := 0,
    "completed_rides" := 0, "verified" := 0, "pending" := 0
  ]

  datatype Snapshot<B> = Snapshot(counts: Counts, bookings: seq<B>, isLoading: bool, isInitialLoading: bool, pageSize: nat)

  function InitialSnapshot<B>(): (s: Snapshot<B>)
    ensures forall k :: k in s.counts ==> s.counts[k] == 0
    ensures |s.counts| == 6 && s.bookings == []
    ensures s.counts.Keys == {"active_riders", "disabled_riders", "customers", "completed_rides", "verified", "pending"}
    ensures "admin_count" !in s.counts && "admincount" !in s.counts
    ensures s.isLoading && s.isInitialLoading && s.pageSize == InitialPageSize
  {
    Snapshot(InitialCounts, [], true, true, InitialPageSize)
  }

  /**
    `calculatePageSize`: with a container of height `h`, one row fewer
    than fit, but never under 3; with no container, the size stays.
   */
  function CalculatePageSize(container: Option<nat>, current: nat): (r: nat)
    ensures container.None? ==> r == current
    ensures container.Some? ==> r >= 3
    ensures container.Some? && r > 3 ==> (r + 1) * RowHeight <= container.value < (r + 2) * RowHeight
    ensures container.Some? && r == 3 ==> container.value < 5 * RowHeight
  {
    match container
    case None => current
    case Some(h) =>
      var visibleRows := h / RowHeight;
      if visibleRows - 1 >= 3 then visibleRows - 1 else 3
  }

  /** A taller table never shows fewer rows. */
  lemma PageSizeMonotone(h1: nat, h2: nat, current: nat)
    requires h1 <= h2
    ensures CalculatePageSize(Some(h1), current) <= CalculatePageSize(Some(h2), current)
  {
  }

  /** `recentBookings.slice(0, pageSize)`. */
  function Displayed<B>(s: Snapshot<B>): (r: seq<B>)
    ensures |r| == Min(|s.bookings|, s.pageSize)
    ensures r == s.bookings[..|r|]
  {
    Slice(s.bookings, 0, s.pageSize)
  }

  /** What `getDashboardCounts` settles with. */
  datatype Payload<B> = Payload(counts: Counts, bookings: seq<B>)

  datatype Pull<B> = Pulled(payload: Payload<B>) | PullFailed

  /** `fetchDashboardData`: replace on success, and always clear both loading flags. */
  function FetchDashboardData<B>(s: Snapshot<B>, outcome: Pull<B>): (r: Snapshot<B>)
    ensures !r.isLoading && !r.isInitialLoading
    ensures r.pageSize == s.pageSize
    ensures outcome.Pulled? ==> r.counts == outcome.payload.counts && r.bookings == outcome.payload.bookings
    ensures outcome.PullFailed? ==> r.counts == s.counts && r.bookings == s.bookings
  {
    var loading := s.(isLoading := true);
    var settled :=
      match outcome
      case Pulled(p) => loading.(counts := p.counts, bookings := p.bookings)
      case PullFailed => loading;
    settled.(isLoading := false, isInitialLoading := false)
  }

  /** After a successful pull the screen shows the first rows of that payload. */
  lemma PulledBookingsDisplayed<B>(s: Snapshot<B>, p: Payload<B>)
    ensures var r := FetchDashboardData(s, Pulled(p));
      Displayed(r) == p.bookings[..Min(|p.bookings|, s.pageSize)]
  {
  }

  /** The push channel's life cycle, with the calls made on it in order. */
  datatype ChannelCall = Subscribe | Bind | UnbindAll | Unsubscribe | Disconnect

  datatype Channel = Channel(bound: bool, subscribed: bool, connected: bool, calls: seq<ChannelCall>)

  /** The effect: connect, subscribe to "dashboard", bind DASHBOARD_UPDATE. */
  function Mount(): (ch: Channel)
    ensures ch.bound && ch.subscribed && ch.connected
    ensures ch.calls == [Subscribe, Bind]
  {
    Channel(true, true, true, [Subscribe, Bind])
  }

  /** The cleanup: unbind_all, unsubscribe, disconnect, in that order. */
  function Teardown(ch: Channel): (r: Channel)
    ensures !r.bound && !r.subscribed && !r.connected
    ensures r.calls == ch.calls + [UnbindAll, Unsubscribe, Disconnect]
  {
    var unbound := ch.(bound := false, calls := ch.calls + [UnbindAll]);
    var unsubscribed := unbound.(subscribed := false, calls := unbound.calls + [Unsubscribe]);
    unsubscribed.(connected := false, calls := unsubscribed.calls + [Disconnect])
  }

  /** One DASHBOARD_UPDATE event: replace counts and bookings if the handler is bound. */
  function Deliver<B>(s: Snapshot<B>, ch: Channel, p: Payload<B>): (r: Snapshot<B>)
    ensures ch.bound ==> r == s.(counts := p.counts, bookings := p.bookings)
    ensures !ch.bound ==> r == s
  {
    if ch.bound then s.(counts := p.counts, bookings := p.bookings) else s
  }

  /** Events arriving in order. */
  function DeliverAll<B>(s: Snapshot<B>, ch: Channel, ps: seq<Payload<B>>): Snapshot<B>
    decreases |ps|
  {
    if |ps| == 0 then s else DeliverAll(Deliver(s, ch, ps[0]), ch, ps[1..])
  }

  /** Every event replaces the snapshot wholesale, so the last one wins. */
  lemma {:induction false} LastPushWins<B>(s: Snapshot<B>, ch: Channel, ps: seq<Payload<B>>)
    requires ch.bound && |ps| > 0
    ensures DeliverAll(s, ch, ps) == s.(counts := ps[|ps| - 1].counts, bookings := ps[|ps| - 1].bookings)
    decreases |ps|
  {
    if |ps| > 1 {
      LastPushWins(Deliver(s, ch, ps[0]), ch, ps[1..]);
    }
  }

  /** Once torn down, no event changes the snapshot. */
  lemma {:induction false} NothingAfterTeardown<B>(s: Snapshot<B>, ch: Channel, ps: seq<Payload<B>>)
    ensures DeliverAll(s, Teardown(ch), ps) == s
    decreases |ps|
  {
    if |ps| > 0 {
      NothingAfterTeardown(s, ch, ps[1..]);
    }
  }

  /** The second stat card: its title and the value it shows (`None` is `undefined`). */
  datatype Metric = Metric(title: string, value: Option<int>)

  function Lookup(counts: Counts, key: string): (v: Option<int>)
    ensures v.Some? <==> key in counts
    ensures v.Some? ==> v.value == counts[key]
  {
    if key in counts then Some(counts[key]) else None
  }

  /** Role 1 sees the admin count, falling back to `admincount`; any other role the disabled riders. */
  function RoleMetric(role: Option<int>, counts: Counts): (m: Metric)
    ensures role != Some(1) ==> m == Metric("Disabled Riders", Lookup(counts, "disabled_riders"))
    ensures role == Some(1) && "admin_count" in counts ==> m == Metric("Active Admins", Some(counts["admin_count"]))
    ensures role == Some(1) && "admin_count" !in counts ==> m == Metric("Active Admins", Lookup(counts, "admincount"))
  {
    if role != Some(1) then Metric("Disabled Riders", Lookup(counts, "disabled_riders"))
    else
      var admins := Lookup(counts, "admin_count");
      Metric("Active Admins", if admins.Some? then admins else Lookup(counts, "admincount"))
  }

  /** The metric reads only the current counts, so after pushes it reflects the last event. */
  lemma MetricFollowsLastPush<B>(s: Snapshot<B>, ch: Channel, ps: seq<Payload<B>>, role: Option<int>)
    requires ch.bound && |ps| > 0
    ensures RoleMetric(role, DeliverAll(s, ch, ps).counts) == RoleMetric(role, ps[|ps| - 1].counts)
  {
    LastPushWins(s, ch, ps);
  }

  /** What the screen renders. */
  datatype View = ToLogin | Spinner | Panels

  function Render<B>(isAuthenticated: bool, s: Snapshot<B>): (v: View)
    ensures !isAuthenticated ==> v == ToLogin
    ensures isAuthenticated ==> (v == Spinner <==> s.isInitialLoading)
  {
    if !isAuthenticated then ToLogin else if s.isInitialLoading then Spinner else Panels
  }

  /** The spinner never survives the first fetch, whatever it returned. */
  lemma SpinnerOnlyBeforeFirstFetch<B>(s: Snapshot<B>, outcome: Pull<B>)
    ensures Render(true, InitialSnapshot<B>()) == Spinner
    ensures Render(true, FetchDashboardData(s, outcome)) == Panels
  {
  }

}

=== FILE: email_pattern.dfy ===
/**
  The account form's email pattern, `^[A-Z0-9._%+-]+@[A-Z0-9.-]+\.[A-Z]{2,}$`
  with the case-insensitive flag: a non-empty local part, an `@`, a
  non-empty domain, a dot and a top-level part of at least two letters.
  `Matches` is the pattern read as a definition (some split of the
  address satisfies it); `IsEmail` is a single left-to-right scan; the two
  agree on every string.
 */
module EmailPattern {
  import opened Outcomes
  import opened Numerals

  /** `[A-Z]` under the case-insensitive flag. */
  predicate Letter(c: char) {
    'A' <= c <= 'Z' || 'a' <= c <= 'z'
  }

  /** `[A-Z0-9._%+-]`. */
  predicate LocalChar(c: char) {
    Letter(c) || IsDigit(c) || c == '.' || c == '_' || c == '%' || c == '+' || c == '-'
  }

  /** `[A-Z0-9.-]`. */
  predicate DomainChar(c: char) {
    Letter(c) || IsDigit(c) || c == '.' || c == '-'
  }

  predicate AllLocal(s: string) {
    forall k :: 0 <= k < |s| ==> LocalChar(s[k])
  }

  predicate AllDomain(s: string) {
    forall k :: 0 <= k < |s| ==> DomainChar(s[k])
  }

  predicate AllLetters(s: string) {
    forall k :: 0 <= k < |s| ==> Letter(s[k])
  }

  /**
    The pattern matches `s` with the `@` at `at` and the escaped dot at
    `dot`: each of the three parts is long enough and drawn from its class.
   */
  predicate SplitsAt(s: string, at: int, dot: int) {
    && 0 < at < dot < |s|
    && s[at] == '@' && s[dot] == '.'
    && AllLocal(s[..at])
    && at + 1 < dot && AllDomain(s[at + 1..dot])
    && |s| - (dot + 1) >= 2 && AllLetters(s[dot + 1..])
  }

  /** The pattern matches the whole of `s`. */
  ghost predicate Matches(s: string) {
    exists at, dot :: SplitsAt(s, at, dot)
  }

  /** The first index of `c` in `s`. */
  function FirstIndex(s: string, c: char): (r: Option<nat>)
    ensures r.None? <==> c !in s
    ensures r.Some? ==> r.value < |s| && s[r.value] == c && c !in s[..r.value]
  {
    if |s| == 0 then None
    else if s[0] == c then Some(0)
    else match FirstIndex(s[1..], c)
      case None => None
      case Some(k) =>
        assert s[..k + 1] == [s[0]] + s[1..][..k];
        Some(k + 1)
  }

  /** The last index of `c` in `s`. */
  function LastIndex(s: string, c: char): (r: Option<nat>)
    ensures r.None? <==> c !in s
    ensures r.Some? ==> r.value < |s| && s[r.value] == c && c !in s[r.value + 1..]
  {
    if |s| == 0 then None
    else if s[|s| - 1] == c then Some(|s| - 1)
    else match LastIndex(s[..|s| - 1], c)
      case None => None
      case Some(k) =>
        assert s[k + 1..] == s[..|s| - 1][k + 1..] + [s[|s| - 1]];
        Some(k)
  }

  /**
    The scan: the local part ends at the first `@`, the top-level part
    starts after the last dot, and the three parts are checked.
   */
  function IsEmail(s: string): (b: bool)
    ensures b ==> exists at, dot :: SplitsAt(s, at, dot)
  {
    match FirstIndex(s, '@')
    case None => false
    case Some(at) =>
      match LastIndex(s[at + 1..], '.')
      case None => false
      case Some(d) =>
        var dot := at + 1 + d;
        assert s[at + 1..][d] == s[dot];
        assert s[at + 1..][d + 1..] == s[dot + 1..];
        assert s[at + 1..][..d] == s[at + 1..dot];
        var ok := at > 0 && AllLocal(s[..at]) && d > 0 && AllDomain(s[at + 1..dot])
          && |s| - (dot + 1) >= 2 && AllLetters(s[dot + 1..]);
        assert ok ==> SplitsAt(s, at, dot);
        ok
  }

  /**
    Any split the pattern accepts is the one the scan finds: the `@`
    cannot be in the local part, and the dot cannot be in the top-level
    part.
   */
  lemma SplitIsScanned(s: string, at: int, dot: int)
    requires SplitsAt(s, at, dot)
    ensures FirstIndex(s, '@') == Some(at as nat)
    ensures LastIndex(s[at + 1..], '.') == Some((dot - at - 1) as nat)
  {
    var local := s[..at];
    assert '@' !in local by {
      forall k | 0 <= k < |local| ensures local[k] != '@' {
        assert LocalChar(local[k]);
      }
    }
    assert s[at] == '@';
    var rest := s[at + 1..];
    var d := dot - at - 1;
    assert rest[d] == '.';
    var tld := s[dot + 1..];
    assert '.' !in tld by {
      forall k | 0 <= k < |tld| ensures tld[k] != '.' {
        assert Letter(tld[k]);
      }
    }
    assert rest[d + 1..] == s[dot + 1..];
  }

  /** The scan accepts exactly the strings the pattern matches. */
  lemma {:induction false} IsEmailMatches(s: string)
    ensures IsEmail(s) <==> Matches(s)
  {
    if Matches(s) {
      var at, dot :| SplitsAt(s, at, dot);
      SplitIsScanned(s, at, dot);
    }
  }

  /** An address with a dotted domain matches; a one-letter top-level part does not. */
  lemma Examples()
    ensures Matches("rider.one+pm@mail.example.ph")
    ensures !Matches("a@b.c")
  {
    var e := "rider.one+pm@mail.example.ph";
    assert e[..12] == "rider.one+pm" && AllLocal(e[..12]);
    assert e[13..25] == "mail.example" && AllDomain(e[13..25]);
    assert e[26..] == "ph" && AllLetters(e[26..]);
    assert SplitsAt(e, 12, 25);
    IsEmailMatches("a@b.c");
  }

}

=== FILE: feedback.dfy ===
/**
  The feedback list: the sender-name search, the fallbacks of the table
  cells, the sender type's last backslash segment and 10-per-page
  pagination.
 */
module Feedback {
  import opened Outcomes
  import opened Text
  import opened Numerals
  import opened Lists
  import opened Paging
  import opened Services
  import opened Roster

  const PerPage: nat := 10
  const NotAvailable: string := "N/A"

  /** A feedback record; fields the server leaves out are `None`. */
  datatype Entry = Entry(
    feedbackId: int,
    senderFirstName: Option<string>,
    senderLastName: Option<string>,
    comment: Option<string>,
    recipientFirstName: Option<string>,
    recipientLastName: Option<string>,
    senderType: Option<string>,
    rideId: Option<int>)

  datatype Screen = Screen(feedbacks: seq<Entry>, loading: bool, searchInput: string, currentPage: nat)

  /** `fetchFeedbacks`: the reply replaces the list; a failure keeps it. */
  function FetchFeedbacks(s: Screen, o: Http<seq<Entry>>): (r: Screen)
    ensures !r.loading && r.searchInput == s.searchInput
    ensures o.Resolved? ==> r.feedbacks == o.data
    ensures o.Rejected? ==> r.feedbacks == s.feedbacks
  {
    match o
    case Resolved(data) => s.(feedbacks := data, loading := false)
    case Rejected(_) => s.(loading := false)
  }

  /** The text searched: "first last" with "" for a missing or empty part. */
  function SearchName(e: Entry): (r: string)
    ensures r == OrElse(e.senderFirstName, "") + " " + OrElse(e.senderLastName, "")
    ensures |r| == |OrElse(e.senderFirstName, "")| + 1 + |OrElse(e.senderLastName, "")|
    ensures !Truthy(e.senderFirstName) && !Truthy(e.senderLastName) ==> r == " "
  {
    FullName(OrElse(e.senderFirstName, ""), OrElse(e.senderLastName, ""))
  }

  predicate SenderMatches(e: Entry, query: string) {
    Includes(Lower(SearchName(e)), Lower(query))
  }

  /** `filteredFeedbacks`. */
  function FilteredFeedbacks(xs: seq<Entry>, query: string): (r: seq<Entry>)
    ensures |r| <= |xs|
    ensures forall e :: e in r <==> e in xs && SenderMatches(e, query)
  {
    Filter(xs, (e: Entry) => SenderMatches(e, query))
  }

  /** An empty search keeps every feedback, in order. */
  lemma EmptyQueryKeepsAll(xs: seq<Entry>)
    ensures FilteredFeedbacks(xs, "") == xs
  {
    LowerEmpty();
    forall i | 0 <= i < |xs|
      ensures SenderMatches(xs[i], "")
    {
      IncludesEmpty(Lower(SearchName(xs[i])));
    }
    FilterAllPass(xs, (e: Entry) => SenderMatches(e, ""));
  }

  /** A person cell: "first last" when both parts are truthy, else "N/A". */
  function PersonCell(first: Option<string>, last: Option<string>): (r: string)
    ensures Truthy(first) && Truthy(last) ==> r == FullName(first.value, last.value)
    ensures !(Truthy(first) && Truthy(last)) ==> r == NotAvailable
  {
    if Truthy(first) && Truthy(last) then FullName(first.value, last.value) else NotAvailable
  }

  /** The sender-type cell: the class name after the last backslash, or "N/A". */
  function SenderTypeCell(t: Option<string>): (r: string)
    ensures !Truthy(t) ==> r == NotAvailable
    ensures Truthy(t) ==> '\\' !in r && |r| <= |t.value| && r == t.value[|t.value| - |r|..]
    ensures Truthy(t) ==> r == t.value || t.value[|t.value| - |r| - 1] == '\\'
  {
    if Truthy(t) then LastSegment(t.value, '\\') else NotAvailable
  }

  /** One table row, in column order. */
  datatype Row = Row(sender: string, comment: string, recipient: string, senderType: string, rideId: string)

  function RowOf(e: Entry): (r: Row)
    ensures r.sender == PersonCell(e.senderFirstName, e.senderLastName)
    ensures r.recipient == PersonCell(e.recipientFirstName, e.recipientLastName)
    ensures !Truthy(e.comment) ==> r.comment == NotAvailable
    ensures Truthy(e.comment) ==> r.comment == e.comment.value
    ensures r.senderType == SenderTypeCell(e.senderType)
    ensures e.rideId.None? || e.rideId.value == 0 ==> r.rideId == NotAvailable
    ensures e.rideId.Some? && e.rideId.value != 0 ==> ParseInt(r.rideId) == e.rideId
  {
    NumberOrElseShowsId(e.rideId, NotAvailable);
    Row(
      PersonCell(e.senderFirstName, e.senderLastName),
      OrElse(e.comment, NotAvailable),
      PersonCell(e.recipientFirstName, e.recipientLastName),
      SenderTypeCell(e.senderType),
      NumberOrElse(e.rideId, NotAvailable))
  }

  /**
    The sender cell is "N/A" exactly when a name part is missing or
    empty, and otherwise it is the very text the search looks in.
   */
  lemma SenderCellAgreesWithSearch(e: Entry)
    ensures RowOf(e).sender == NotAvailable <==> !(Truthy(e.senderFirstName) && Truthy(e.senderLastName))
    ensures RowOf(e).sender != NotAvailable ==> RowOf(e).sender == SearchName(e)
  {
    if Truthy(e.senderFirstName) && Truthy(e.senderLastName) {
      var n := RowOf(e).sender;
      if |n| == 3 {
        assert n[|e.senderFirstName.value|] == ' ' && |e.senderFirstName.value| == 1;
        assert NotAvailable[1] == '/';
      }
    }
  }

  /** A type name that is already unqualified is shown as it is; a qualified one loses its namespace. */
  lemma SenderTypeExamples(name: string)
    requires name != "" && '\\' !in name
    ensures SenderTypeCell(Some(name)) == name
    ensures SenderTypeCell(Some("App\\Models\\" + name)) == name
  {
    LastSegmentOfPlain(name, '\\');
    LastSegmentAfter("App\\Models\\", name, '\\');
  }

  /** `currentItems`. */
  function CurrentItems(s: Screen): (r: seq<Entry>)
    requires s.currentPage >= 1
    ensures |r| <= PerPage
    ensures forall i :: 0 <= i < |r| ==> r[i] in FilteredFeedbacks(s.feedbacks, s.searchInput)
  {
    Page(FilteredFeedbacks(s.feedbacks, s.searchInput), s.currentPage, PerPage)
  }

  /** Pages 1 to `totalPages` show each matching feedback exactly once, in order. */
  lemma PagesCoverFiltered(s: Screen)
    ensures var xs := FilteredFeedbacks(s.feedbacks, s.searchInput);
      Concat(FirstPages(xs, PerPage, TotalPages(|xs|, PerPage))) == xs
  {
    PagesPartition(FilteredFeedbacks(s.feedbacks, s.searchInput), PerPage);
  }

}

=== FILE: header.dfy ===
/**
  The Header: the sidebar toggle and the logout-confirmation dialog. The
  confirmed logout calls the remote logout, then the local one, then
  navigates to "/".
 */
module Header {
  import opened Session
  import opened Services

  /** The observable steps of `handleLogout`, in the order they run. */
  datatype Step = RemoteLogout(authorization: string) | LocalLogout | Navigate(to: string)

  datatype HeaderState = HeaderState(isModalOpen: bool)

  /** The outcome of a logout: the resulting client and the steps taken. */
  datatype LogoutRun = LogoutRun(client: Client, steps: seq<Step>)

  /**
    `handleLogout`: await the remote logout (which never rejects), then run
    the local logout, then navigate to "/". When the remote logout itself
    draws a 401, the response interceptor also logs out and navigates to
    "/" before the error is swallowed; logout is idempotent, so the
    resulting client is the same, and those extra steps are not listed.
   */
  function HandleLogout(c: Client, reply: Http<LogoutReply>): (r: LogoutRun)
    ensures r.steps == [RemoteLogout(LogoutAuthorization(c.store)), LocalLogout, Navigate("/")]
    ensures r.client == Logout(c)
    ensures !r.client.auth.isAuthenticated && r.client.store.Keys !! CredentialKeys
  {
    var afterRemote := Client(c.auth, ServiceLogout(c.store, reply));
    assert afterRemote.store - CredentialKeys == c.store - CredentialKeys;
    LogoutRun(Logout(afterRemote), [RemoteLogout(LogoutAuthorization(c.store)), LocalLogout, Navigate("/")])
  }

  /**
    Whatever the server answers, a confirmed logout ends signed out with
    the same store as a local logout alone.
   */
  lemma LogoutAlwaysCompletes(c: Client, reply: Http<LogoutReply>)
    ensures HandleLogout(c, reply).client == Logout(c)
  {
    var s := ServiceLogout(c.store, reply);
    assert s - CredentialKeys == c.store - CredentialKeys;
  }

  /** The logout button opens the dialog. */
  function OpenModal(h: HeaderState): (r: HeaderState)
    ensures r.isModalOpen
  {
    HeaderState(true)
  }

  /** "Cancel": close the dialog, session untouched. */
  function Cancel(h: HeaderState, c: Client): (r: (HeaderState, Client))
    ensures !r.0.isModalOpen && r.1 == c
  {
    (HeaderState(false), c)
  }

  /** "Logout" in the dialog: run `handleLogout` and close the dialog. */
  function ConfirmLogout(h: HeaderState, c: Client, reply: Http<LogoutReply>): (r: (HeaderState, LogoutRun))
    ensures !r.0.isModalOpen
    ensures r.1.client == Logout(c)
    ensures !r.1.client.auth.isAuthenticated && r.1.client.store.Keys !! CredentialKeys
    ensures r.1.steps == [RemoteLogout(LogoutAuthorization(c.store)), LocalLogout, Navigate("/")]
  {
    LogoutAlwaysCompletes(c, reply);
    (HeaderState(false), HandleLogout(c, reply))
  }

  /** `handleMenuSideBar`: flip the sidebar flag and nothing else. */
  function ToggleSideBar(a: AuthState): (r: AuthState)
    ensures r.isSideBarMenuOpen != a.isSideBarMenuOpen
    ensures r.(isSideBarMenuOpen := a.isSideBarMenuOpen) == a
  {
    a.(isSideBarMenuOpen := !a.isSideBarMenuOpen)
  }

  /** Toggling twice restores the sidebar. */
  lemma ToggleSideBarTwice(a: AuthState)
    ensures ToggleSideBar(ToggleSideBar(a)) == a
  {
  }

}

=== FILE: interceptor.dfy ===
/**
  The response interceptor AxiosInterceptor installs: it passes responses
  through, and on a rejection whose response status is 401 it logs out and
  navigates to "/" before rejecting with the same error. Axios keeps its
  interceptors in a list of slots; `eject(id)` empties slot `id`.
 */
module Interceptor {
  import opened Outcomes
  import opened Session
  import opened Services

  const Unauthorized: int := 401

  /** Axios's response interceptor slots; `true` marks an installed handler. */
  datatype Registry = Registry(slots: seq<bool>)

  function ActiveCount(slots: seq<bool>): nat {
    if |slots| == 0 then 0 else ActiveCount(slots[..|slots| - 1]) + (if slots[|slots| - 1] then 1 else 0)
  }

  /** `interceptors.response.use(...)`: install in a new slot and return its id. */
  function Install(reg: Registry): (r: (Registry, nat))
    ensures r.1 == |reg.slots| && r.0.slots == reg.slots + [true]
  {
    (Registry(reg.slots + [true]), |reg.slots|)
  }

  /** `interceptors.response.eject(id)`: empty that slot; other ids are ignored. */
  function Eject(reg: Registry, id: nat): (r: Registry)
    ensures |r.slots| == |reg.slots|
    ensures id < |reg.slots| ==> !r.slots[id]
    ensures forall i :: 0 <= i < |reg.slots| && i != id ==> r.slots[i] == reg.slots[i]
  {
    if id < |reg.slots| then Registry(reg.slots[id := false]) else reg
  }

  lemma {:induction false} ActiveCountAppend(slots: seq<bool>, b: bool)
    ensures ActiveCount(slots + [b]) == ActiveCount(slots) + (if b then 1 else 0)
  {
    assert (slots + [b])[..|slots|] == slots;
  }

  /**
    Mounting and unmounting the interceptor component leaves every other
    slot as it was and the number of installed handlers unchanged.
   */
  lemma MountThenUnmount(reg: Registry)
    ensures var (mounted, id) := Install(reg);
      var after := Eject(mounted, id);
      && |after.slots| == |reg.slots| + 1
      && !after.slots[id]
      && (forall i :: 0 <= i < |reg.slots| ==> after.slots[i] == reg.slots[i])
      && ActiveCount(after.slots) == ActiveCount(reg.slots)
  {
    var (mounted, id) := Install(reg);
    var after := Eject(mounted, id);
    assert after.slots == reg.slots + [false];
    ActiveCountAppend(reg.slots, false);
  }

  /** How a request settled. */
  datatype Settled<+T> = Fulfilled(response: T) | Failed(error: HttpError)

  predicate IsUnauthorized(e: HttpError) {
    e.response.Some? && e.response.value.status == Unauthorized
  }

  /** The guard's effect on one settled request. */
  datatype Guarded<+T> = Guarded(client: Client, navigations: seq<string>, outcome: Settled<T>)

  /** One settled request passing through the interceptor. */
  function Intercept<T>(c: Client, s: Settled<T>): (r: Guarded<T>)
    ensures r.outcome == s
    ensures s.Failed? && IsUnauthorized(s.error) ==> r.client == Logout(c) && r.navigations == ["/"]
    ensures !(s.Failed? && IsUnauthorized(s.error)) ==> r.client == c && r.navigations == []
  {
    match s
    case Fulfilled(_) => Guarded(c, [], s)
    case Failed(e) =>
      if IsUnauthorized(e) then Guarded(Logout(c), ["/"], s) else Guarded(c, [], s)
  }

  /** Several requests settling one after another; nothing de-duplicates. */
  function InterceptAll<T>(c: Client, ss: seq<Settled<T>>): (r: (Client, seq<string>))
    decreases |ss|
  {
    if |ss| == 0 then (c, [])
    else
      var g := Intercept(c, ss[0]);
      var rest := InterceptAll(g.client, ss[1..]);
      (rest.0, g.navigations + rest.1)
  }

  /**
    k requests failing with 401 leave the same session as one logout, but
    each of them navigates.
   */
  lemma {:induction false} ConcurrentUnauthorized<T>(c: Client, ss: seq<Settled<T>>)
    requires |ss| > 0
    requires forall i :: 0 <= i < |ss| ==> ss[i].Failed? && IsUnauthorized(ss[i].error)
    ensures InterceptAll(c, ss).0 == Logout(c)
    ensures InterceptAll(c, ss).1 == seq(|ss|, _ => "/")
    decreases |ss|
  {
    if |ss| > 1 {
      ConcurrentUnauthorized(Logout(c), ss[1..]);
      LogoutIdempotent(c);
    }
  }

}

=== FILE: lists.dfy ===
/**
  The array operations the screens use: `filter`, `find`, `some`, and the
  `map` that rewrites the records matching a predicate and keeps the rest.
 */
module Lists {
  import opened Outcomes

  /** `xs.filter(p)`. */
  function Filter<T(==,!new)>(xs: seq<T>, p: T -> bool): (r: seq<T>)
    ensures |r| <= |xs|
    ensures forall x :: x in r <==> x in xs && p(x)
  {
    if |xs| == 0 then []
    else
      assert xs == [xs[0]] + xs[1..];
      (if p(xs[0]) then [xs[0]] else []) + Filter(xs[1..], p)
  }

  /** `filter` keeps every passing element as often as it occurs, and no other. */
  lemma {:induction false} FilterCounts<T(!new)>(xs: seq<T>, p: T -> bool)
    ensures forall x :: multiset(Filter(xs, p))[x] == if p(x) then multiset(xs)[x] else 0
    decreases |xs|
  {
    if |xs| > 0 {
      FilterCounts(xs[1..], p);
      assert xs == [xs[0]] + xs[1..];
    }
  }

  /** Filtering distributes over concatenation, so it keeps the original order. */
  lemma {:induction false} FilterConcat<T(!new)>(a: seq<T>, b: seq<T>, p: T -> bool)
    ensures Filter(a + b, p) == Filter(a, p) + Filter(b, p)
    decreases |a|
  {
    if |a| > 0 {
      assert (a + b)[1..] == a[1..] + b;
      FilterConcat(a[1..], b, p);
    } else {
      assert a + b == b;
    }
  }

  /** A filter every element passes returns its input unchanged. */
  lemma {:induction false} FilterAllPass<T(!new)>(xs: seq<T>, p: T -> bool)
    requires forall i :: 0 <= i < |xs| ==> p(xs[i])
    ensures Filter(xs, p) == xs
    decreases |xs|
  {
    if |xs| > 0 {
      FilterAllPass(xs[1..], p);
    }
  }

  /** A filter no element passes returns nothing. */
  lemma FilterNonePass<T(!new)>(xs: seq<T>, p: T -> bool)
    requires forall i :: 0 <= i < |xs| ==> !p(xs[i])
    ensures Filter(xs, p) == []
  {
  }

  /** Filtering `a + b + c` where only the elements of `b` pass gives `b`. */
  lemma FilterPicksMiddle<T(!new)>(a: seq<T>, b: seq<T>, c: seq<T>, p: T -> bool)
    requires forall i :: 0 <= i < |a| ==> !p(a[i])
    requires forall i :: 0 <= i < |b| ==> p(b[i])
    requires forall i :: 0 <= i < |c| ==> !p(c[i])
    ensures Filter(a + b + c, p) == b
  {
    FilterNonePass(a, p);
    FilterNonePass(c, p);
    FilterAllPass(b, p);
    FilterConcat(a, b, p);
    FilterConcat(a + b, c, p);
  }

  predicate NoDup<T(==)>(xs: seq<T>) {
    forall i, j :: 0 <= i < j < |xs| ==> xs[i] != xs[j]
  }

  /** Filtering never introduces duplicates. */
  lemma {:induction false} FilterNoDup<T(!new)>(xs: seq<T>, p: T -> bool)
    requires NoDup(xs)
    ensures NoDup(Filter(xs, p))
    decreases |xs|
  {
    if |xs| > 0 {
      FilterNoDup(xs[1..], p);
      var rest := Filter(xs[1..], p);
      assert xs[0] !in xs[1..];
      assert xs[0] !in rest;
    }
  }

  /** `xs.some(p)`. */
  predicate Any<T>(xs: seq<T>, p: T -> bool) {
    exists i :: 0 <= i < |xs| && p(xs[i])
  }

  /** `xs.find(p)`: the first element satisfying `p`, if any. */
  function Find<T(==)>(xs: seq<T>, p: T -> bool): (r: Option<T>)
    ensures r.None? <==> forall i :: 0 <= i < |xs| ==> !p(xs[i])
    ensures r.Some? ==> r.value in xs && p(r.value)
    ensures r.Some? ==> exists i :: 0 <= i < |xs| && xs[i] == r.value && forall j :: 0 <= j < i ==> !p(xs[j])
  {
    if |xs| == 0 then None
    else if p(xs[0]) then Some(xs[0])
    else
      var r := Find(xs[1..], p);
      assert r.Some? ==> forall j :: 1 <= j < |xs| && r.value == xs[j] && (forall k :: 0 <= k < j - 1 ==> !p(xs[1..][k])) ==> forall k :: 0 <= k < j ==> !p(xs[k]);
      r
  }

  /** `xs.map(x => p(x) ? f(x) : x)`. */
  function MapWhere<T>(xs: seq<T>, p: T -> bool, f: T -> T): (r: seq<T>)
    ensures |r| == |xs|
    ensures forall i :: 0 <= i < |xs| ==> r[i] == if p(xs[i]) then f(xs[i]) else xs[i]
  {
    seq(|xs|, i requires 0 <= i < |xs| => if p(xs[i]) then f(xs[i]) else xs[i])
  }

}

=== FILE: login_screen.dfy ===
/**
  The Login screen: `handleLogin` admits only roles 1 and 2, and
  `toggleVisiblePass` flips password visibility.
 */
module LoginScreen {
  import opened Outcomes
  import opened Text
  import opened Session
  import opened Services

  const LoginFailed: string := "An error occurred during login"
  const UnauthorizedAccess: string := "Unauthorized access"

  datatype LoginForm = LoginForm(error: string, isLoading: bool, visiblePass: bool)

  /** The outcome of one login attempt. */
  datatype Attempt = Attempt(form: LoginForm, client: Client, navigation: Option<string>)

  /** What the catch block receives. */
  datatype Thrown = TypeError | RequestFailed(e: HttpError)

  /** The catch block's message: the server's `message`, else the fixed text. */
  function CatchMessage(t: Thrown): (m: string)
    ensures t.TypeError? ==> m == LoginFailed
    ensures t.RequestFailed? && t.e.response.Some? && Truthy(t.e.response.value.data.message) ==>
      m == t.e.response.value.data.message.value
    ensures t.RequestFailed? && (t.e.response.None? || !Truthy(t.e.response.value.data.message)) ==>
      m == LoginFailed
    ensures m != ""
  {
    match t
    case TypeError => LoginFailed
    case RequestFailed(e) =>
      if e.response.Some? then OrElse(e.response.value.data.message, LoginFailed) else LoginFailed
  }

  predicate AdmittedRole(role: Option<int>) {
    role == Some(1) || role == Some(2)
  }

  /**
    `handleLogin`. The service swallows failures and returns `undefined`,
    whose destructuring throws a TypeError; so the only error that reaches
    the catch block carries no server response.
   */
  function HandleLogin(f: LoginForm, c: Client, reply: Http<LoginData>): (r: Attempt)
    ensures !r.form.isLoading
    ensures r.form.visiblePass == f.visiblePass
    ensures ServiceLogin(reply).None? ==>
      r.form.error == LoginFailed && r.client == c && r.navigation.None?
    ensures ServiceLogin(reply).Some? && !AdmittedRole(reply.data.role) ==>
      r.form.error == UnauthorizedAccess && r.client == c && r.navigation.None?
    ensures ServiceLogin(reply).Some? && AdmittedRole(reply.data.role) ==>
      && r.form.error == ""
      && r.client == Login(c, reply.data.token.value, reply.data.role.value, reply.data.userId)
      && r.navigation == Some("/dashboard")
  {
    var cleared := f.(error := "", isLoading := true);
    match ServiceLogin(reply)
    case None =>
      Attempt(cleared.(error := CatchMessage(TypeError), isLoading := false), c, None)
    case Some(d) =>
      if d.role != Some(1) && d.role != Some(2) then
        Attempt(cleared.(error := UnauthorizedAccess, isLoading := false), c, None)
      else
        Attempt(cleared.(isLoading := false), Login(c, d.token.value, d.role.value, d.userId), Some("/dashboard"))
  }

  /** A successful attempt leaves a session restore can read back. */
  lemma AdmittedLoginRestores(f: LoginForm, c: Client, reply: Http<LoginData>, start: AuthState)
    requires ServiceLogin(reply).Some? && AdmittedRole(reply.data.role)
    ensures var r := Restore(Client(start, HandleLogin(f, c, reply).client.store));
      r.auth.isAuthenticated && r.auth.userRole == reply.data.role
  {
    RestoreAfterLogin(c, reply.data.token.value, reply.data.role.value, reply.data.userId, start);
  }

  /** `toggleVisiblePass`. */
  function ToggleVisiblePass(f: LoginForm): (r: LoginForm)
    ensures r.visiblePass != f.visiblePass
    ensures r.(visiblePass := f.visiblePass) == f
  {
    f.(visiblePass := !f.visiblePass)
  }

  lemma ToggleVisiblePassTwice(f: LoginForm)
    ensures ToggleVisiblePass(ToggleVisiblePass(f)) == f
  {
  }

}

=== FILE: manage_account.dfy ===
/**
  The signed-in admin's account screen: loading the profile (including
  the disabled-account answer), field edits, the 2 MB picture limit,
  validation, the multipart payload and the outcome of the update.
 */
module ManageAccount {
  import opened Outcomes
  import opened Text
  import opened Services
  import opened EmailPattern

  const UserNameRequired: string := "Username is required"
  const EmailRequired: string := "Email is required"
  const EmailInvalid: string := "Invalid email address"
  const CurrentPasswordRequired: string := "Current password is required when changing password"
  const PasswordTooShort: string := "Password must be at least 8 characters"
  const PasswordMismatch: string := "Passwords do not match"
  const DisabledMessage: string := "Your account has been disabled. Contact SuperAdmin for more info."
  const FetchFailedMessage: string := "Failed to fetch user data. Please try again later."
  const PictureTooLarge: string := "Profile picture must be less than 2MB"
  const UpdatedMessage: string := "Profile updated successfully!"
  const ProfileErrorDefault: string := "An error occurred while updating your profile."
  const MinPasswordLength: nat := 8
  const MaxPictureBytes: nat := 2 * 1024 * 1024

  /** A chosen file; only its size matters to the screen. */
  datatype File = File(name: string, size: nat)

  /** What the preview shows: the stored picture's URL or a chosen file. */
  datatype Preview = StoredPicture(url: string) | ChosenFile(file: File)

  /** The editable fields; the two profile fields are `None` while the server left them out. */
  datatype FormData = FormData(
    userName: Option<string>,
    email: Option<string>,
    currentPassword: string,
    newPassword: string,
    confirmPassword: string,
    profilePicture: Option<File>)

  datatype Notification = Notification(kind: string, message: string)

  type Errors = map<string, string>

  /** `initialData`. */
  datatype Profile = Profile(userName: Option<string>, email: Option<string>, picture: Option<string>)

  datatype Screen = Screen(
    isLoading: bool,
    notification: Notification,
    initial: Profile,
    form: FormData,
    preview: Option<Preview>,
    errors: Errors)

  function Initial(): (s: Screen)
    ensures !s.isLoading
    ensures s.form == FormData(Some(""), Some(""), "", "", "", None) && s.preview.None?
    ensures s.initial.userName == Some("") && s.initial.email == Some("") && s.initial.picture.None?
    ensures s.errors == map[] && s.notification.kind == "" && s.notification.message == ""
  {
    Screen(false, Notification("", ""), Profile(Some(""), Some(""), None),
      FormData(Some(""), Some(""), "", "", "", None), None, map[])
  }

  /** The body of `fetchAdminById`; `message` is set on the disabled-account answer. */
  datatype AdminUser = AdminUser(message: Option<string>, userName: Option<string>, email: Option<string>, picture: Option<string>)

  /**
    The fetch on mount. `None` is a `null` body, whose `message` cannot be
    read: it fails like a rejected request.
   */
  function FetchUserData(s: Screen, o: Http<Option<AdminUser>>): (r: Screen)
    ensures !r.isLoading
    ensures o.Resolved? && o.data.Some? && o.data.value.message == Some("Account Disabled") ==>
      r == s.(isLoading := false, notification := Notification("error", DisabledMessage))
    ensures o.Resolved? && o.data.Some? && o.data.value.message != Some("Account Disabled") ==>
      var u := o.data.value;
      && r.initial == Profile(u.userName, u.email, u.picture)
      && r.form == s.form.(userName := u.userName, email := u.email)
      && r.preview == (if Truthy(u.picture) then Some(StoredPicture(u.picture.value)) else s.preview)
      && r.notification == s.notification
    ensures o.Rejected? || o.data.None? ==>
      r == s.(isLoading := false, notification := Notification("error", FetchFailedMessage))
  {
    match o
    case Resolved(Some(u)) =>
      if u.message == Some("Account Disabled") then
        s.(isLoading := false, notification := Notification("error", DisabledMessage))
      else
        s.(isLoading := false,
           initial := Profile(u.userName, u.email, u.picture),
           form := s.form.(userName := u.userName, email := u.email),
           preview := if Truthy(u.picture) then Some(StoredPicture(u.picture.value)) else s.preview)
    case _ => s.(isLoading := false, notification := Notification("error", FetchFailedMessage))
  }

  /** The names of the text inputs. */
  const InputNames: set<string> := {"user_name", "email", "currentPassword", "newPassword", "confirmPassword"}

  /** `handleInputChange`: the named field takes the typed value; any other name changes no field. */
  function HandleInputChange(f: FormData, name: string, value: string): (r: FormData)
    ensures name in InputNames ==> Value(r, name) == Some(value)
    ensures forall n :: n in InputNames && n != name ==> Value(r, n) == Value(f, n)
    ensures r.profilePicture == f.profilePicture
  {
    match name
    case "user_name" => f.(userName := Some(value))
    case "email" => f.(email := Some(value))
    case "currentPassword" => f.(currentPassword := value)
    case "newPassword" => f.(newPassword := value)
    case "confirmPassword" => f.(confirmPassword := value)
    case _ => f
  }

  /** The text field of that name, `None` when it is missing. */
  function Value(f: FormData, name: string): Option<string> {
    match name
    case "user_name" => f.userName
    case "email" => f.email
    case "currentPassword" => Some(f.currentPassword)
    case "newPassword" => Some(f.newPassword)
    case "confirmPassword" => Some(f.confirmPassword)
    case _ => None
  }

  /** Whether a chosen file is accepted. */
  predicate PictureFits(file: File) {
    file.size <= MaxPictureBytes
  }

  /** `handleProfilePictureChange`; `None` is an empty file list. */
  function HandleProfilePictureChange(s: Screen, file: Option<File>): (r: Screen)
    ensures file.None? ==> r == s
    ensures file.Some? && !PictureFits(file.value) ==>
      r == s.(notification := Notification("error", PictureTooLarge))
    ensures file.Some? && PictureFits(file.value) ==>
      && r.form == s.form.(profilePicture := file)
      && r.preview == Some(ChosenFile(file.value))
      && r.notification == s.notification
  {
    match file
    case None => s
    case Some(f) =>
      if f.size > MaxPictureBytes then s.(notification := Notification("error", PictureTooLarge))
      else s.(form := s.form.(profilePicture := file), preview := Some(ChosenFile(f)))
  }

  /** `validateForm`: the error of each field that fails, keyed by field name. */
  function Validate(f: FormData): (e: Errors)
    ensures "user_name" in e <==> !Truthy(f.userName)
    ensures "email" in e <==> !Truthy(f.email) || !IsEmail(f.email.value)
    ensures "currentPassword" in e <==> f.newPassword != "" && f.currentPassword == ""
    ensures "newPassword" in e <==> f.newPassword != "" && |f.newPassword| < MinPasswordLength
    ensures "confirmPassword" in e <==> f.newPassword != "" && f.newPassword != f.confirmPassword
    ensures e.Keys <= InputNames
    ensures "user_name" in e ==> e["user_name"] == UserNameRequired
    ensures "email" in e ==> e["email"] == if Truthy(f.email) then EmailInvalid else EmailRequired
    ensures "currentPassword" in e ==> e["currentPassword"] == CurrentPasswordRequired
    ensures "newPassword" in e ==> e["newPassword"] == PasswordTooShort
    ensures "confirmPassword" in e ==> e["confirmPassword"] == PasswordMismatch
  {
    var e0: Errors := if Truthy(f.userName) then map[] else map["user_name" := UserNameRequired];
    var e1 :=
      if !Truthy(f.email) then e0["email" := EmailRequired]
      else if !IsEmail(f.email.value) then e0["email" := EmailInvalid]
      else e0;
    if f.newPassword == "" then e1
    else
      var e2 := if f.currentPassword == "" then e1["currentPassword" := CurrentPasswordRequired] else e1;
      var e3 := if |f.newPassword| < MinPasswordLength then e2["newPassword" := PasswordTooShort] else e2;
      if f.newPassword != f.confirmPassword then e3["confirmPassword" := PasswordMismatch] else e3
  }

  /** The conditions under which the form may be submitted, with the email pattern as a definition. */
  ghost predicate Submittable(f: FormData) {
    && Truthy(f.userName)
    && Truthy(f.email) && Matches(f.email.value)
    && (f.newPassword != "" ==>
          f.currentPassword != "" && |f.newPassword| >= MinPasswordLength && f.newPassword == f.confirmPassword)
  }

  /** The form is valid exactly when no error is recorded. */
  lemma ValidIffNoErrors(f: FormData)
    ensures Validate(f) == map[] <==> Submittable(f)
  {
    if Truthy(f.email) {
      IsEmailMatches(f.email.value);
    }
    var e := Validate(f);
    if e != map[] {
      var k :| k in e;
    }
  }

  /** Leaving the new password empty switches every password check off. */
  lemma EmptyNewPasswordSkipsPasswordChecks(f: FormData, current: string, confirm: string)
    requires f.newPassword == ""
    ensures Validate(f.(currentPassword := current, confirmPassword := confirm)) == Validate(f)
  {
  }

  /** One part of the multipart body. */
  datatype Part = TextPart(name: string, value: string) | FilePart(name: string, file: File)

  /**
    `formDataToSend`, built only once validation passed, so the two
    profile fields are present.
   */
  function Payload(f: FormData): (p: seq<Part>)
    requires f.userName.Some? && f.email.Some?
    ensures |p| >= 2 && p[0] == TextPart("user_name", f.userName.value) && p[1] == TextPart("email", f.email.value)
    ensures TextPart("newPassword", f.newPassword) in p <==> f.newPassword != ""
    ensures f.newPassword != "" ==>
      TextPart("currentPassword", f.currentPassword) in p && TextPart("newPassword_confirmation", f.confirmPassword) in p
    ensures f.newPassword == "" ==> forall i :: 0 <= i < |p| ==> p[i].name !in {"currentPassword", "newPassword", "newPassword_confirmation"}
    ensures forall i :: 0 <= i < |p| ==> (p[i].FilePart? <==> i == |p| - 1 && f.profilePicture.Some?)
    ensures f.profilePicture.Some? ==> p[|p| - 1] == FilePart("profilePicture", f.profilePicture.value)
  {
    var base := [TextPart("user_name", f.userName.value), TextPart("email", f.email.value)];
    var passwords :=
      if f.newPassword != "" then
        [TextPart("currentPassword", f.currentPassword),
         TextPart("newPassword", f.newPassword),
         TextPart("newPassword_confirmation", f.confirmPassword)]
      else [];
    var picture := if f.profilePicture.Some? then [FilePart("profilePicture", f.profilePicture.value)] else [];
    var p := base + passwords + picture;
    assert f.newPassword != "" ==> p[3] == TextPart("newPassword", f.newPassword);
    p
  }

  /** The body of a successful update. */
  datatype UpdateReply = UpdateReply(message: Option<string>)

  /** The form after a successful update: only the three password fields are cleared. */
  function ClearPasswords(f: FormData): (r: FormData)
    ensures r.currentPassword == "" && r.newPassword == "" && r.confirmPassword == ""
    ensures r.userName == f.userName && r.email == f.email && r.profilePicture == f.profilePicture
    ensures Validate(f) == map[] ==> Validate(r) == map[]
  {
    f.(currentPassword := "", newPassword := "", confirmPassword := "")
  }

  /**
    The submit handler's shape, with the message of the failure
    notification left to the caller: invalid forms only record their
    errors; otherwise the update's outcome sets the notification.
   */
  function Submit(s: Screen, outcome: Result<UpdateReply, string>, failureMessage: string): (r: Screen)
    ensures r.errors == Validate(s.form)
    ensures Validate(s.form) != map[] ==> r == s.(errors := Validate(s.form))
    ensures Validate(s.form) == map[] && outcome.Success? ==>
      && r.form == ClearPasswords(s.form)
      && r.notification == Notification("success", OrElse(outcome.value.message, UpdatedMessage))
      && !r.isLoading
    ensures Validate(s.form) == map[] && outcome.Failure? ==>
      r == s.(errors := map[], isLoading := false, notification := Notification("error", failureMessage))
  {
    var errors := Validate(s.form);
    if errors != map[] then s.(errors := errors)
    else match outcome
      case Success(d) =>
        s.(errors := errors, isLoading := false,
           notification := Notification("success", OrElse(d.message, UpdatedMessage)),
           form := ClearPasswords(s.form))
      case Failure(_) =>
        s.(errors := errors, isLoading := false, notification := Notification("error", failureMessage))
  }

  /**
    `handleSubmit` as written: the catch block reads
    `error.response?.data?.error`, but the service rethrows a plain error
    that carries only a message, so the default text is shown for every
    failure.
   */
  function HandleSubmitAsWritten(s: Screen, reply: Http<UpdateReply>): (r: Screen)
    ensures Validate(s.form) == map[] && reply.Rejected? ==> r.notification == Notification("error", ProfileErrorDefault)
  {
    Submit(s, UpdateAccount(reply), ProfileErrorDefault)
  }

  /** As written, the server's explanation of a failed update never reaches the screen. */
  lemma ServerErrorNeverShown(s: Screen, e: HttpError)
    requires Validate(s.form) == map[]
    requires e.response.Some? && e.response.value.data.error == Some("Email already taken")
    ensures HandleSubmitAsWritten(s, Rejected(e)).notification.message != AccountErrorMessage(e)
  {
  }

  /**
    `handleSubmit` with the catch block showing the message the service
    rethrew, which already falls back to its own default.
   */
  function HandleSubmit(s: Screen, reply: Http<UpdateReply>): (r: Screen)
    ensures reply.Resolved? ==> r == HandleSubmitAsWritten(s, reply)
    ensures Validate(s.form) == map[] && reply.Rejected? ==>
      r.notification == Notification("error", AccountErrorMessage(reply.error))
  {
    match UpdateAccount(reply)
    case Success(_) => Submit(s, UpdateAccount(reply), ProfileErrorDefault)
    case Failure(m) => Submit(s, UpdateAccount(reply), m)
  }

  /**
    The corrected handler shows the server's `error` text, or its `message`
    when there is none, and the service's default text otherwise.
   */
  lemma ServerErrorShown(s: Screen, e: HttpError)
    requires Validate(s.form) == map[]
    ensures e.response.Some? && Truthy(e.response.value.data.error) ==>
      HandleSubmit(s, Rejected(e)).notification.message == e.response.value.data.error.value
    ensures e.response.Some? && !Truthy(e.response.value.data.error) && Truthy(e.response.value.data.message) ==>
      HandleSubmit(s, Rejected(e)).notification.message == e.response.value.data.message.value
    ensures (e.response.None? || (!Truthy(e.response.value.data.error) && !Truthy(e.response.value.data.message))) ==>
      HandleSubmit(s, Rejected(e)).notification.message == AccountErrorDefault
  {
  }

  /**
    After a successful password change the form is still valid and the
    next submission carries no password fields.
   */
  lemma SuccessClearsPasswordChange(s: Screen, reply: Http<UpdateReply>)
    requires Validate(s.form) == map[] && reply.Resolved?
    ensures var r := HandleSubmit(s, reply);
      && Validate(r.form) == map[]
      && r.form.userName.Some? && r.form.email.Some?
      && forall i :: 0 <= i < |Payload(r.form)| ==> Payload(r.form)[i].name != "newPassword"
  {
  }

  /** An accepted picture is the last part of the next payload; a rejected one changes nothing that is sent. */
  lemma ChosenPictureIsSent(s: Screen, file: File)
    requires s.form.userName.Some? && s.form.email.Some?
    ensures PictureFits(file) ==>
      var p := Payload(HandleProfilePictureChange(s, Some(file)).form);
      p[|p| - 1] == FilePart("profilePicture", file)
    ensures !PictureFits(file) ==>
      Payload(HandleProfilePictureChange(s, Some(file)).form) == Payload(s.form)
  {
  }

  /** A disabled account leaves the form as it was, so an untouched form cannot be submitted. */
  lemma DisabledAccountLeavesFormEmpty(u: AdminUser)
    requires u.message == Some("Account Disabled")
    ensures FetchUserData(Initial(), Resolved(Some(u))).form == Initial().form
    ensures "user_name" in Validate(FetchUserData(Initial(), Resolved(Some(u))).form)
  {
  }

}

=== FILE: manage_admin.dfy ===
/**
  Admin management: each admin card's status toggle and confirmation, the
  list update it reports back, and the edit / add-new switches of the
  admin form.
 */
module ManageAdmin {
  import opened Outcomes
  import opened Lists
  import opened Services
  import opened Roster

  datatype CardConfirmation = CardConfirmation(isOpen: bool, title: string, message: string, pendingStatus: Option<string>)

  /** One admin card's local state. */
  datatype Card = Card(admin: Member, loading: bool, confirmation: CardConfirmation)

  /** The card's status button: open the dialog for the toggled status. */
  function CardStatusClick(c: Card): (r: Card)
    ensures r.confirmation.isOpen && r.confirmation.pendingStatus == Some(NextStatus(c.admin.status))
    ensures c.admin.status == Active ==> r.confirmation.title == "Disable Admin User"
    ensures c.admin.status != Active ==> r.confirmation.title == "Enable Admin User"
    ensures r.admin == c.admin && r.loading == c.loading
  {
    var newStatus := NextStatus(c.admin.status);
    var enable := newStatus == Active;
    c.(confirmation := CardConfirmation(
      true,
      (if enable then "Enable" else "Disable") + " Admin User",
      "Are you sure you want to " + (if enable then "enable" else "disable") + " "
        + FullName(c.admin.firstName, c.admin.lastName) + "?",
      Some(newStatus)))
  }

  /** A card's confirmation: the new card and the `onStatusChange(id, status)` call it made, if any. */
  datatype CardResult = CardResult(card: Card, reported: Option<(int, string)>)

  /**
    The card's Confirm button. The dialog is only reachable through the
    status button, so a pending status is set. The change is reported only
    after the request succeeds; loading and the dialog are cleared either way.
   */
  function CardConfirm<T>(c: Card, reply: Http<T>): (r: CardResult)
    requires c.confirmation.pendingStatus.Some?
    ensures reply.Resolved? <==> r.reported.Some?
    ensures r.reported.Some? ==> r.reported.value == (c.admin.userId, c.confirmation.pendingStatus.value)
    ensures !r.card.loading && !r.card.confirmation.isOpen
    ensures r.card.admin == c.admin && r.card.confirmation.pendingStatus == c.confirmation.pendingStatus
  {
    var loading := c.(loading := true);
    var reported := match StatusUpdate(reply)
      case Success(_) => Some((c.admin.userId, c.confirmation.pendingStatus.value))
      case Failure(_) => None;
    CardResult(loading.(loading := false, confirmation := c.confirmation.(isOpen := false)), reported)
  }

  datatype Screen = Screen(admins: seq<Member>, showForm: bool, editingAdminId: Option<int>, loading: bool)

  /** `fetchAdmins`. */
  function FetchAdmins(s: Screen, o: Http<seq<Member>>): (r: Screen)
    ensures !r.loading
    ensures o.Resolved? ==> r.admins == o.data
    ensures o.Rejected? ==> r.admins == s.admins
  {
    match o
    case Resolved(data) => s.(admins := data, loading := false)
    case Rejected(_) => s.(loading := false)
  }

  /** `handleStatusChange`: rewrite the admins with that id, keep the rest. */
  function HandleStatusChange(s: Screen, userId: int, status: string): (r: Screen)
    ensures |r.admins| == |s.admins|
    ensures forall i :: 0 <= i < |s.admins| && s.admins[i].userId == userId ==> r.admins[i] == s.admins[i].(status := status)
    ensures forall i :: 0 <= i < |s.admins| && s.admins[i].userId != userId ==> r.admins[i] == s.admins[i]
    ensures r.showForm == s.showForm && r.editingAdminId == s.editingAdminId
  {
    s.(admins := SetStatus(s.admins, [userId], status))
  }

  /** What a card's confirmation does to the list. */
  function Report(s: Screen, r: CardResult): Screen {
    match r.reported
    case None => s
    case Some(change) => HandleStatusChange(s, change.0, change.1)
  }

  /**
    Clicking a card's button and confirming with a successful reply
    toggles that admin's status in the list and nothing else; a failure
    leaves the list alone.
   */
  lemma CardToggleUpdatesList<T>(s: Screen, i: nat, reply: Http<T>)
    requires i < |s.admins|
    ensures var c := CardStatusClick(Card(s.admins[i], false, CardConfirmation(false, "", "", None)));
      var after := Report(s, CardConfirm(c, reply));
      && (reply.Resolved? ==> after.admins[i].status == NextStatus(s.admins[i].status))
      && (reply.Rejected? ==> after == s)
      && |after.admins| == |s.admins|
  {
  }

  /** `handleEdit`. */
  function HandleEdit(s: Screen, userId: int): (r: Screen)
    ensures r.showForm && r.editingAdminId == Some(userId) && r.admins == s.admins
  {
    s.(editingAdminId := Some(userId), showForm := true)
  }

  /** `handleAddNew`. */
  function HandleAddNew(s: Screen): (r: Screen)
    ensures r.showForm && r.editingAdminId.None? && r.admins == s.admins
  {
    s.(editingAdminId := None, showForm := true)
  }

  /** The record handed to the form: the first admin whose id is the editing id. */
  function EditingAdmin(s: Screen): (r: Option<Member>)
    ensures s.editingAdminId.None? ==> r.None?
    ensures r.Some? ==> r.value in s.admins && Some(r.value.userId) == s.editingAdminId
  {
    Find(s.admins, (a: Member) => Some(a.userId) == s.editingAdminId)
  }

  /** Add-new opens an empty form; editing a listed admin hands that admin to the form. */
  lemma FormModes(s: Screen, i: nat)
    requires i < |s.admins|
    ensures EditingAdmin(HandleAddNew(s)).None?
    ensures EditingAdmin(HandleEdit(s, s.admins[i].userId)).Some?
    ensures EditingAdmin(HandleEdit(s, s.admins[i].userId)).value.userId == s.admins[i].userId
  {
    var t := HandleEdit(s, s.admins[i].userId);
    assert Some(t.admins[i].userId) == t.editingAdminId;
  }

}

=== FILE: manage_user.dfy ===
/**
  The customer list: name filter, the per-customer Active/Disabled toggle
  with its confirmation, and 10-per-page pagination. A confirmed change
  is written into the filtered list only.
 */
module ManageUser {
  import opened Outcomes
  import opened Paging
  import opened Services
  import opened Roster

  const PerPage: nat := 10

  datatype Confirmation = Confirmation(isOpen: bool, title: string, message: string, customerToUpdate: Option<Member>)

  datatype Screen = Screen(
    customers: seq<Member>,
    filtered: seq<Member>,
    searchInput: string,
    currentPage: nat,
    loading: bool,
    loadingUserId: Option<int>,
    confirmation: Confirmation)

  function Initial(): (s: Screen)
    ensures s.customers == [] && s.filtered == [] && s.currentPage == 1
    ensures s.loadingUserId.None? && s.confirmation.customerToUpdate.None?
    ensures s.searchInput == "" && !s.loading && !s.confirmation.isOpen
  {
    Screen([], [], "", 1, false, None, Confirmation(false, "", "", None))
  }

  /** The fetch on mount. */
  function FetchCustomers(s: Screen, o: Http<seq<Member>>): (r: Screen)
    ensures !r.loading
    ensures o.Resolved? ==> r.customers == o.data && r.filtered == o.data
    ensures o.Rejected? ==> r.customers == s.customers && r.filtered == s.filtered
  {
    match o
    case Resolved(data) => s.(customers := data, filtered := data, loading := false)
    case Rejected(_) => s.(loading := false)
  }

  /** `handleFilter`: filter the master list, back to page 1. */
  function HandleFilter(s: Screen): (r: Screen)
    ensures r.filtered == NameFilter(s.customers, s.searchInput)
    ensures r.currentPage == 1 && r.customers == s.customers
  {
    s.(filtered := NameFilter(s.customers, s.searchInput), currentPage := 1)
  }

  /** `handleStatusChangeClick`: open the dialog for the toggled status. */
  function HandleStatusChangeClick(s: Screen, c: Member): (r: Screen)
    ensures r.confirmation.isOpen && r.confirmation.customerToUpdate == Some(c)
    ensures c.status == Active ==> r.confirmation.title == "Disable User"
    ensures c.status != Active ==> r.confirmation.title == "Enable User"
    ensures r.customers == s.customers && r.filtered == s.filtered
  {
    var enable := NextStatus(c.status) == Active;
    s.(confirmation := Confirmation(
      true,
      (if enable then "Enable" else "Disable") + " User",
      "Are you sure you want to " + (if enable then "enable" else "disable") + " "
        + FullName(c.firstName, c.lastName) + "?",
      Some(c)))
  }

  /**
    `handleConfirmStatusChange`. The filtered list is rewritten as soon as
    the request resolves, before the reply's `user` is read; the master
    list is never touched. The dialog closes but keeps its customer.
   */
  function HandleConfirmStatusChange(s: Screen, reply: Http<StatusReply>): (r: Screen)
    ensures s.confirmation.customerToUpdate.None? ==> r == s
    ensures s.confirmation.customerToUpdate.Some? ==>
      && r.loadingUserId.None?
      && !r.confirmation.isOpen
      && r.confirmation.customerToUpdate == s.confirmation.customerToUpdate
      && r.customers == s.customers
    ensures s.confirmation.customerToUpdate.Some? && reply.Rejected? ==> r.filtered == s.filtered
    ensures s.confirmation.customerToUpdate.Some? && reply.Resolved? ==>
      var c := s.confirmation.customerToUpdate.value;
      r.filtered == SetStatus(s.filtered, [c.userId], NextStatus(c.status))
  {
    match s.confirmation.customerToUpdate
    case None => s
    case Some(c) =>
      var loading := s.(loadingUserId := Some(c.userId));
      var settled :=
        if reply.Resolved? then loading.(filtered := SetStatus(s.filtered, [c.userId], NextStatus(c.status)))
        else loading;
      settled.(loadingUserId := None, confirmation := s.confirmation.(isOpen := false))
  }

  /**
    A confirmed change rewrites only the records with that customer's id,
    keeping length and order.
   */
  lemma ConfirmRewritesOnlyThatCustomer(s: Screen, reply: Http<StatusReply>)
    requires s.confirmation.customerToUpdate.Some? && reply.Resolved?
    ensures var c := s.confirmation.customerToUpdate.value;
      var r := HandleConfirmStatusChange(s, reply);
      && |r.filtered| == |s.filtered|
      && (forall i :: 0 <= i < |s.filtered| && s.filtered[i].userId != c.userId ==> r.filtered[i] == s.filtered[i])
      && (forall i :: 0 <= i < |s.filtered| && s.filtered[i].userId == c.userId ==>
            r.filtered[i] == s.filtered[i].(status := NextStatus(c.status)))
  {
  }

  /**
    Because the master list is not updated, filtering again after a
    confirmed change shows the customers as they were fetched.
   */
  lemma FilterAfterChangeShowsOldStatus(s: Screen, reply: Http<StatusReply>)
    ensures HandleFilter(HandleConfirmStatusChange(s, reply)).filtered == NameFilter(s.customers, s.searchInput)
  {
  }

  /** `currentCustomers`: one page of the listed records; `Paging.Page` states what it holds. */
  function CurrentCustomers(s: Screen): seq<Member>
    requires s.currentPage >= 1
  {
    Page(s.filtered, s.currentPage, PerPage)
  }

}

=== FILE: numerals.dfy ===
/**
  Numbers written to and read back from the credential store:
  `localStorage.setItem` turns an integer into its decimal text and
  `parseInt` reads it back. Both are modelled over ASCII decimal digits.
 */
module Numerals {
  import opened Outcomes

  predicate IsDigit(c: char) {
    '0' <= c <= '9'
  }

  predicate AllDigits(s: string) {
    forall i :: 0 <= i < |s| ==> IsDigit(s[i])
  }

  function DigitChar(d: nat): (c: char)
    requires d < 10
    ensures IsDigit(c)
  {
    ('0' as int + d) as char
  }

  function DigitValue(c: char): nat
    requires IsDigit(c)
  {
    c as int - '0' as int
  }

  /** Decimal text of a natural number, without leading zeros. */
  function NatDigits(n: nat): (r: string)
    ensures |r| > 0 && AllDigits(r)
    decreases n
  {
    if n < 10 then [DigitChar(n)] else NatDigits(n / 10) + [DigitChar(n % 10)]
  }

  /** `String(n)` for an integer. */
  function IntToString(n: int): (r: string)
    ensures |r| > 0
  {
    if n < 0 then "-" + NatDigits(-n) else NatDigits(n)
  }

  /** The value of a run of decimal digits. */
  function DigitsValue(ds: string): nat
    requires AllDigits(ds)
  {
    if |ds| == 0 then 0 else DigitsValue(ds[..|ds| - 1]) * 10 + DigitValue(ds[|ds| - 1])
  }

  /** Length of the run of decimal digits at the start of `s`. */
  function DigitRun(s: string): (k: nat)
    ensures k <= |s|
    ensures forall i :: 0 <= i < k ==> IsDigit(s[i])
    ensures k < |s| ==> !IsDigit(s[k])
  {
    if |s| == 0 || !IsDigit(s[0]) then 0 else 1 + DigitRun(s[1..])
  }

  function ParseUnsigned(s: string): Option<nat> {
    var k := DigitRun(s);
    if k == 0 then None else Some(DigitsValue(s[..k]))
  }

  /**
    `parseInt(s)`: an optional sign followed by the longest run of digits;
    `None` stands for `NaN`. Trailing text after the digits is ignored.
   */
  function ParseInt(s: string): Option<int> {
    if |s| > 0 && s[0] == '-' then
      match ParseUnsigned(s[1..])
      case Some(v) => Some(0 - v as int)
      case None => None
    else if |s| > 0 && s[0] == '+' then
      match ParseUnsigned(s[1..])
      case Some(v) => Some(v)
      case None => None
    else
      ParseUnsigned(s)
  }

  lemma {:induction false} DigitRunOfDigits(s: string)
    requires AllDigits(s)
    ensures DigitRun(s) == |s|
    decreases |s|
  {
    if |s| > 0 {
      DigitRunOfDigits(s[1..]);
    }
  }

  lemma {:induction false} NatDigitsValue(n: nat)
    ensures DigitsValue(NatDigits(n)) == n
    decreases n
  {
    if n >= 10 {
      var ds := NatDigits(n);
      NatDigitsValue(n / 10);
      assert ds[..|ds| - 1] == NatDigits(n / 10);
    }
  }

  lemma ParseUnsignedOfNatDigits(m: nat)
    ensures ParseUnsigned(NatDigits(m)) == Some(m)
  {
    var ds := NatDigits(m);
    DigitRunOfDigits(ds);
    NatDigitsValue(m);
    assert ds[..|ds|] == ds;
  }

  /** What the store holds for a number reads back as that number. */
  lemma ParseIntRoundTrip(n: int)
    ensures ParseInt(IntToString(n)) == Some(n)
  {
    if n < 0 {
      ParseUnsignedOfNatDigits(-n);
      assert IntToString(n)[1..] == NatDigits(-n);
    } else {
      ParseUnsignedOfNatDigits(n);
      assert IsDigit(NatDigits(n)[0]);
    }
  }

  /** A table cell `id || fallback`: a missing id and the falsy 0 show the fallback. */
  function NumberOrElse(id: Option<int>, fallback: string): (r: string)
    ensures id.None? || id.value == 0 ==> r == fallback
  {
    if id.None? || id.value == 0 then fallback else IntToString(id.value)
  }

  /** A shown id reads back as that id; a hidden one is never mistaken for a number. */
  lemma NumberOrElseShowsId(id: Option<int>, fallback: string)
    requires ParseInt(fallback).None?
    ensures ParseInt(NumberOrElse(id, fallback)) == if id.Some? && id.value != 0 then id else None
  {
    if id.Some? && id.value != 0 {
      ParseIntRoundTrip(id.value);
    }
  }

}

=== FILE: outcomes.dfy ===
/**
  Option and Result values used across the model. `None` stands for a
  JavaScript `null`/`undefined` (or `NaN` where only comparisons with a
  number follow), `Failure` for a thrown exception or a rejected promise.
 */
module Outcomes {

  datatype Option<+T> = None | Some(value: T) {
    function GetOr(default: T): T {
      match this
      case Some(v) => v
      case None => default
    }
  }

  datatype Result<+R, +E> = Success(value: R) | Failure(error: E)

}

=== FILE: paging.dfy ===
/**
  The 1-based pagination every list screen repeats:
  `indexOfLastItem = currentPage * itemsPerPage`,
  `indexOfFirstItem = indexOfLastItem - itemsPerPage`,
  `list.slice(indexOfFirstItem, indexOfLastItem)` and
  `totalPages = Math.ceil(list.length / itemsPerPage)`.
 */
module Paging {

  function Min(a: int, b: int): int {
    if a <= b then a else b
  }

  /** `xs.slice(start, end)` for non-negative bounds: both ends clamp to the length. */
  function Slice<T>(xs: seq<T>, start: nat, end: nat): (r: seq<T>)
    ensures start < end && start < |xs| ==> r == xs[start..Min(end, |xs|)]
    ensures end <= start || |xs| <= start ==> r == []
  {
    if start < end && start < |xs| then xs[start..Min(end, |xs|)] else []
  }

  /** The items shown on page `page` (numbered from 1) of `perPage` items each. */
  function Page<T>(xs: seq<T>, page: nat, perPage: nat): (r: seq<T>)
    requires page >= 1
    ensures |r| <= perPage
    ensures forall i :: 0 <= i < |r| ==> (page - 1) * perPage + i < |xs| && r[i] == xs[(page - 1) * perPage + i]
    ensures |r| == if (page - 1) * perPage >= |xs| then 0 else Min(perPage, |xs| - (page - 1) * perPage)
  {
    Slice(xs, (page - 1) * perPage, page * perPage)
  }

  /** `Math.ceil(n / perPage)`. */
  function TotalPages(n: nat, perPage: nat): (t: nat)
    requires perPage > 0
    ensures t * perPage >= n
    ensures t == 0 || (t - 1) * perPage < n
  {
    var t := (n + perPage - 1) / perPage;
    assert t * perPage + (n + perPage - 1) % perPage == n + perPage - 1;
    t
  }

  /** `[1, 2, ..., total]`, the numbered page buttons. */
  function PageNumbers(total: nat): (r: seq<nat>)
    ensures |r| == total
    ensures forall i :: 0 <= i < total ==> r[i] == i + 1
  {
    seq(total, i requires 0 <= i < total => i + 1)
  }

  /** The concatenation of a sequence of pages. */
  function Concat<T>(pages: seq<seq<T>>): seq<T> {
    if |pages| == 0 then [] else Concat(pages[..|pages| - 1]) + pages[|pages| - 1]
  }

  /** Pages 1 through `count`, in order. */
  function FirstPages<T>(xs: seq<T>, perPage: nat, count: nat): (r: seq<seq<T>>)
    ensures |r| == count
  {
    if count == 0 then [] else FirstPages(xs, perPage, count - 1) + [Page(xs, count, perPage)]
  }

  lemma PageWindow<T>(xs: seq<T>, page: nat, perPage: nat)
    requires page >= 1
    ensures Min((page - 1) * perPage, |xs|) <= Min(page * perPage, |xs|)
    ensures Page(xs, page, perPage) == xs[Min((page - 1) * perPage, |xs|)..Min(page * perPage, |xs|)]
  {
    var a := (page - 1) * perPage;
    assert page * perPage == a + perPage;
  }

  lemma {:induction false} ConcatFirstPages<T>(xs: seq<T>, perPage: nat, count: nat)
    ensures Concat(FirstPages(xs, perPage, count)) == xs[..Min(count * perPage, |xs|)]
    decreases count
  {
    if count > 0 {
      var pages := FirstPages(xs, perPage, count);
      assert pages[..count - 1] == FirstPages(xs, perPage, count - 1);
      ConcatFirstPages(xs, perPage, count - 1);
      PageWindow(xs, count, perPage);
      var lo := Min((count - 1) * perPage, |xs|);
      var hi := Min(count * perPage, |xs|);
      assert Concat(pages) == Concat(pages[..count - 1]) + pages[count - 1];
      assert pages[count - 1] == xs[lo..hi];
      assert xs[..lo] + xs[lo..hi] == xs[..hi];
    }
  }

  /** The numbered pages cover the list exactly once, in order. */
  lemma PagesPartition<T>(xs: seq<T>, perPage: nat)
    requires perPage > 0
    ensures Concat(FirstPages(xs, perPage, TotalPages(|xs|, perPage))) == xs
  {
    ConcatFirstPages(xs, perPage, TotalPages(|xs|, perPage));
  }

  /** Every numbered page is non-empty, and every page after the last is empty. */
  lemma PagesNonEmpty<T>(xs: seq<T>, perPage: nat, page: nat)
    requires perPage > 0 && page >= 1
    ensures page <= TotalPages(|xs|, perPage) <==> |Page(xs, page, perPage)| > 0
  {
    var t := TotalPages(|xs|, perPage);
    if page <= t {
      assert (page - 1) * perPage <= (t - 1) * perPage;
    } else {
      assert (page - 1) * perPage >= t * perPage;
    }
  }

}

=== FILE: riders_applicant.dfy ===
/**
  Rider applications: the rank sort (Pending, then Verified, then
  Unverified), the search over name, user name and status, the
  verification toggle and its confirmation, and which requirements are
  shown as text.
 */
module RidersApplicant {
  import opened Outcomes
  import opened Text
  import opened Lists
  import opened Paging
  import opened Services
  import opened Roster

  const PerPage: nat := 5

  datatype Verification = Pending | Verified | Unverified

  function StatusName(v: Verification): string {
    match v
    case Pending => "Pending"
    case Verified => "Verified"
    case Unverified => "Unverified"
  }

  /** `order[verification_status]`. */
  function Rank(v: Verification): (k: nat)
    ensures k < 3
    ensures v == Pending <==> k == 0
    ensures v == Verified <==> k == 1
  {
    match v
    case Pending => 0
    case Verified => 1
    case Unverified => 2
  }

  datatype Applicant = Applicant(userId: int, firstName: string, lastName: string, userName: string, status: Verification)

  predicate Sorted(xs: seq<Applicant>) {
    forall i, j :: 0 <= i < j < |xs| ==> Rank(xs[i].status) <= Rank(xs[j].status)
  }

  function HasRank(k: nat): Applicant -> bool {
    (a: Applicant) => Rank(a.status) == k
  }

  predicate AllAtLeast(k: nat, ys: seq<Applicant>) {
    forall i :: 0 <= i < |ys| ==> k <= Rank(ys[i].status)
  }

  /** Put `x` before the first element whose rank is not below its own. */
  function Insert(x: Applicant, ys: seq<Applicant>): (r: seq<Applicant>)
    ensures |r| == |ys| + 1
    ensures multiset(r) == multiset(ys) + multiset{x}
  {
    if |ys| == 0 || Rank(x.status) <= Rank(ys[0].status) then [x] + ys
    else
      assert ys == [ys[0]] + ys[1..];
      [ys[0]] + Insert(x, ys[1..])
  }

  /** A lower bound on the ranks survives an insertion that respects it. */
  lemma {:induction false} InsertAtLeast(k: nat, x: Applicant, ys: seq<Applicant>)
    requires AllAtLeast(k, ys) && k <= Rank(x.status)
    ensures AllAtLeast(k, Insert(x, ys))
    decreases |ys|
  {
    if !(|ys| == 0 || Rank(x.status) <= Rank(ys[0].status)) {
      InsertAtLeast(k, x, ys[1..]);
    }
  }

  /** Inserting into a sorted list keeps it sorted. */
  lemma {:induction false} InsertSorted(x: Applicant, ys: seq<Applicant>)
    requires Sorted(ys)
    ensures Sorted(Insert(x, ys))
    decreases |ys|
  {
    if |ys| == 0 || Rank(x.status) <= Rank(ys[0].status) {
    } else {
      var rest := Insert(x, ys[1..]);
      InsertSorted(x, ys[1..]);
      InsertAtLeast(Rank(ys[0].status), x, ys[1..]);
      assert Insert(x, ys) == [ys[0]] + rest;
    }
  }

  /**
    `sortRiders`: `Array.prototype.sort` with the rank comparator. The sort
    is stable, which insertion sort from the back reproduces.
   */
  function SortRiders(xs: seq<Applicant>): (r: seq<Applicant>)
    ensures |r| == |xs|
    ensures multiset(r) == multiset(xs)
    ensures Sorted(r)
  {
    if |xs| == 0 then []
    else
      assert xs == [xs[0]] + xs[1..];
      var rest := SortRiders(xs[1..]);
      InsertSorted(xs[0], rest);
      Insert(xs[0], rest)
  }

  /** Filtering a list with a known head. */
  lemma FilterCons(x: Applicant, ys: seq<Applicant>, p: Applicant -> bool)
    ensures Filter([x] + ys, p) == (if p(x) then [x] else []) + Filter(ys, p)
  {
    assert ([x] + ys)[0] == x;
    assert ([x] + ys)[1..] == ys;
  }

  /** Inserting `x` puts it ahead of the equal-rank elements and moves nothing else. */
  lemma {:induction false} InsertByRank(x: Applicant, ys: seq<Applicant>, k: nat)
    ensures Filter(Insert(x, ys), HasRank(k)) == if Rank(x.status) == k then [x] + Filter(ys, HasRank(k)) else Filter(ys, HasRank(k))
    decreases |ys|
  {
    var p := HasRank(k);
    if |ys| == 0 || Rank(x.status) <= Rank(ys[0].status) {
      FilterCons(x, ys, p);
    } else {
      var rest := Insert(x, ys[1..]);
      InsertByRank(x, ys[1..], k);
      FilterCons(ys[0], rest, p);
      FilterCons(ys[0], ys[1..], p);
      assert ys == [ys[0]] + ys[1..];
      assert Rank(x.status) == k ==> !p(ys[0]);
    }
  }

  /** The sort is stable: the applicants of each rank keep their relative order. */
  lemma {:induction false} SortRidersStable(xs: seq<Applicant>, k: nat)
    ensures Filter(SortRiders(xs), HasRank(k)) == Filter(xs, HasRank(k))
    decreases |xs|
  {
    if |xs| > 0 {
      SortRidersStable(xs[1..], k);
      InsertByRank(xs[0], SortRiders(xs[1..]), k);
    }
  }

  /** Sorting an already sorted list changes nothing. */
  lemma {:induction false} SortRidersSorted(xs: seq<Applicant>)
    requires Sorted(xs)
    ensures SortRiders(xs) == xs
    decreases |xs|
  {
    if |xs| > 0 {
      SortRidersSorted(xs[1..]);
      assert xs == [xs[0]] + xs[1..];
    }
  }

  /** The text the search looks in: "first last user_name" then the status, with no space before it. */
  function SearchText(a: Applicant): string {
    FullName(a.firstName, a.lastName) + " " + a.userName + StatusName(a.status)
  }

  predicate SearchMatches(a: Applicant, query: string) {
    Includes(Lower(SearchText(a)), Lower(query))
  }

  /** A query for the first name, the user name or the status finds the applicant. */
  lemma SearchFindsEachPart(a: Applicant)
    ensures SearchMatches(a, a.firstName)
    ensures SearchMatches(a, a.userName)
    ensures SearchMatches(a, StatusName(a.status))
  {
    var t := SearchText(a);
    var status := StatusName(a.status);
    assert t == [] + a.firstName + (" " + a.lastName + " " + a.userName + status);
    IncludesPart([], a.firstName, " " + a.lastName + " " + a.userName + status);
    assert t == (a.firstName + " " + a.lastName + " ") + a.userName + status;
    IncludesPart(a.firstName + " " + a.lastName + " ", a.userName, status);
    assert t == (a.firstName + " " + a.lastName + " " + a.userName) + status + [];
    IncludesPart(a.firstName + " " + a.lastName + " " + a.userName, status, []);
  }

  datatype VerificationData = VerificationData(userId: int, currentStatus: Verification, newStatus: Verification)

  datatype Screen = Screen(
    riders: seq<Applicant>,
    filtered: seq<Applicant>,
    searchInput: string,
    currentPage: nat,
    selectedUser: Option<Applicant>,
    isModalOpen: bool,
    verificationData: Option<VerificationData>,
    isLoading: bool)

  /** The applicants a query finds, in list order. */
  function Found(xs: seq<Applicant>, query: string): (r: seq<Applicant>)
    ensures forall a :: a in r <==> a in xs && SearchMatches(a, query)
  {
    Filter(xs, (a: Applicant) => SearchMatches(a, query))
  }

  /** The effect on `[searchInput, riders]`: filter, re-sort, back to page 1. */
  function SearchEffect(s: Screen): (r: Screen)
    ensures Sorted(r.filtered) && r.currentPage == 1
    ensures multiset(r.filtered) == multiset(Found(s.riders, s.searchInput))
    ensures forall a :: a in r.filtered <==> a in s.riders && SearchMatches(a, s.searchInput)
    ensures r == s.(filtered := r.filtered, currentPage := 1)
  {
    var found := Found(s.riders, s.searchInput);
    var sorted := SortRiders(found);
    assert forall a :: a in sorted <==> a in found by {
      forall a ensures a in sorted <==> a in found {
        assert a in sorted <==> a in multiset(sorted);
      }
    }
    s.(filtered := sorted, currentPage := 1)
  }

  /** Typing a query (or clearing it with `clearSearch`) re-runs the effect. */
  function SetSearch(s: Screen, query: string): (r: Screen)
    ensures r.searchInput == query && r.currentPage == 1 && r.riders == s.riders
    ensures Sorted(r.filtered)
    ensures multiset(r.filtered) == multiset(Found(s.riders, query))
    ensures forall a :: a in r.filtered <==> a in s.riders && SearchMatches(a, query)
    ensures r.selectedUser == s.selectedUser && r.isModalOpen == s.isModalOpen
  {
    SearchEffect(s.(searchInput := query))
  }

  /** Clearing the search shows the whole, already sorted, list. */
  lemma ClearSearchShowsAll(s: Screen)
    requires Sorted(s.riders)
    ensures SetSearch(s, "").filtered == s.riders
  {
    var p := (a: Applicant) => SearchMatches(a, "");
    forall i | 0 <= i < |s.riders|
      ensures p(s.riders[i])
    {
      IncludesEmpty(Lower(SearchText(s.riders[i])));
    }
    FilterAllPass(s.riders, p);
    SortRidersSorted(s.riders);
  }

  /**
    The fetch on mount sorts the list into both `riders` and
    `filteredRiders`; the change to `riders` then re-runs the search effect,
    so a query typed while the list was loading already narrows it.
   */
  function FetchRiders(s: Screen, o: Http<seq<Applicant>>): (r: Screen)
    ensures o.Resolved? ==>
      && r.riders == SortRiders(o.data) && r.searchInput == s.searchInput
      && Sorted(r.filtered) && multiset(r.filtered) == multiset(Found(r.riders, s.searchInput))
      && r.currentPage == 1
      && r == s.(riders := r.riders, filtered := r.filtered, currentPage := 1)
    ensures o.Rejected? ==> r == s
  {
    match o
    case Resolved(data) =>
      var sorted := SortRiders(data);
      SearchEffect(s.(riders := sorted, filtered := sorted))
    case Rejected(_) => s
  }

  /** With no query typed, the fetched list is shown whole. */
  lemma FetchWithEmptyQueryShowsAll(s: Screen, data: seq<Applicant>)
    requires s.searchInput == ""
    ensures FetchRiders(s, Resolved(data)).filtered == SortRiders(data)
  {
    var sorted := SortRiders(data);
    var t := s.(riders := sorted, filtered := sorted);
    ClearSearchShowsAll(t);
    assert t.(searchInput := "") == t;
  }

  /** `rider.user.user_id === userId ? { ...rider, verification_status } : rider`. */
  function SetVerification(xs: seq<Applicant>, userId: int, v: Verification): (r: seq<Applicant>)
    ensures |r| == |xs|
    ensures forall i :: 0 <= i < |xs| ==> r[i] == if xs[i].userId == userId then xs[i].(status := v) else xs[i]
  {
    MapWhere(xs, (a: Applicant) => a.userId == userId, (a: Applicant) => a.(status := v))
  }

  /** `handleStatusChange`: rewrite and re-sort both lists; follow the selected user only if it matches. */
  function HandleStatusChange(s: Screen, userId: int, v: Verification): (r: Screen)
    ensures r.riders == SortRiders(SetVerification(s.riders, userId, v))
    ensures r.filtered == SortRiders(SetVerification(s.filtered, userId, v))
    ensures s.selectedUser.Some? && s.selectedUser.value.userId == userId ==>
      r.selectedUser == Some(s.selectedUser.value.(status := v))
    ensures !(s.selectedUser.Some? && s.selectedUser.value.userId == userId) ==> r.selectedUser == s.selectedUser
  {
    var selected :=
      if s.selectedUser.Some? && s.selectedUser.value.userId == userId
      then Some(s.selectedUser.value.(status := v))
      else s.selectedUser;
    s.(riders := SortRiders(SetVerification(s.riders, userId, v)),
       filtered := SortRiders(SetVerification(s.filtered, userId, v)),
       selectedUser := selected)
  }

  /**
    After a status change, the list holds the same applicants with only
    the matching user's status rewritten, in rank order.
   */
  lemma StatusChangeRewritesOnlyThatUser(s: Screen, userId: int, v: Verification)
    ensures var r := HandleStatusChange(s, userId, v);
      && Sorted(r.riders)
      && multiset(r.riders) == multiset(SetVerification(s.riders, userId, v))
      && (forall a :: a in r.riders && a.userId != userId ==> a in s.riders)
      && (forall a :: a in r.riders && a.userId == userId ==> a.status == v)
  {
    var updated := SetVerification(s.riders, userId, v);
    var r := HandleStatusChange(s, userId, v);
    forall a | a in r.riders
      ensures a in updated
    {
      assert a in multiset(r.riders);
    }
  }

  /** The verify button's target: Verified becomes Pending, anything else Verified. */
  function VerifyToggle(current: Verification): (v: Verification)
    ensures current == Verified ==> v == Pending
    ensures current != Verified ==> v == Verified
  {
    if current == Verified then Pending else Verified
  }

  /** Between Verified and Pending, the toggle goes back and forth. */
  lemma VerifyToggleTwice(current: Verification)
    requires current != Unverified
    ensures VerifyToggle(VerifyToggle(current)) == current
  {
  }

  /** `handleVerifyClick`. */
  function HandleVerifyClick(s: Screen, userId: int, current: Verification): (r: Screen)
    ensures r.verificationData == Some(VerificationData(userId, current, VerifyToggle(current)))
    ensures r.isModalOpen
    ensures r.riders == s.riders && r.filtered == s.filtered && r.selectedUser == s.selectedUser
    ensures r.searchInput == s.searchInput && r.currentPage == s.currentPage && r.isLoading == s.isLoading
  {
    s.(verificationData := Some(VerificationData(userId, current, VerifyToggle(current))), isModalOpen := true)
  }

  /**
    `handleVerificationConfirm`. `reply` is whether `verifyRider` resolved
    with a truthy body; the change to `riders` re-runs the search effect.
   */
  function HandleVerificationConfirm(s: Screen, reply: Http<bool>): (r: Screen)
    ensures s.verificationData.None? ==> r == s
    ensures s.verificationData.Some? ==> !r.isLoading && !r.isModalOpen && r.verificationData.None?
    ensures s.verificationData.Some? && !(reply.Resolved? && reply.data) ==>
      r.riders == s.riders && r.filtered == s.filtered && r.selectedUser == s.selectedUser
    ensures s.verificationData.Some? && reply.Resolved? && reply.data ==>
      var d := s.verificationData.value;
      && r.riders == SortRiders(SetVerification(s.riders, d.userId, d.newStatus))
      && Sorted(r.filtered) && multiset(r.filtered) == multiset(Found(r.riders, s.searchInput))
      && r.currentPage == 1
      && r.selectedUser == HandleStatusChange(s, d.userId, d.newStatus).selectedUser
  {
    match s.verificationData
    case None => s
    case Some(d) =>
      var loading := s.(isLoading := true);
      var settled :=
        if reply.Resolved? && reply.data then SearchEffect(HandleStatusChange(loading, d.userId, d.newStatus))
        else loading;
      settled.(isLoading := false, isModalOpen := false, verificationData := None)
  }

  /** Clicking verify and confirming a truthy reply toggles that applicant in `riders`. */
  lemma VerifyThenConfirm(s: Screen, userId: int, current: Verification)
    ensures var r := HandleVerificationConfirm(HandleVerifyClick(s, userId, current), Resolved(true));
      && r.riders == SortRiders(SetVerification(s.riders, userId, VerifyToggle(current)))
      && !r.isModalOpen && r.verificationData.None?
  {
  }

  /** `[3, 5, 6, 10].includes(requirement_id)`: these requirements are shown as text. */
  predicate IsTextRequirement(id: int) {
    id in [3, 5, 6, 10]
  }

  /** Clicking a requirement enlarges it only when it is an image. */
  function ImageClick(enlarged: Option<string>, id: int, url: string): (r: Option<string>)
    ensures IsTextRequirement(id) ==> r == enlarged
    ensures !IsTextRequirement(id) ==> r == Some(url)
  {
    if !IsTextRequirement(id) then Some(url) else enlarged
  }

  /** The four text requirements are the dates and numbers; the other six are photos. */
  lemma TextRequirements(id: int)
    ensures IsTextRequirement(id) <==> id == 3 || id == 5 || id == 6 || id == 10
    ensures 1 <= id <= 10 ==> (ImageClick(None, id, "u").Some? <==> id in {1, 2, 4, 7, 8, 9})
  {
  }

  /** `currentRiders`: one page of the listed records; `Paging.Page` states what it holds. */
  function CurrentRiders(s: Screen): seq<Applicant>
    requires s.currentPage >= 1
  {
    Page(s.filtered, s.currentPage, PerPage)
  }

}

=== FILE: riders_list.dfy ===
/**
  The rider list: name filter and clear, 10-per-page pagination, checkbox
  selection, the all-or-nothing bulk Activate/Disable, select-all and the
  predicates that disable the two bulk buttons.
 */
module RidersList {
  import opened Outcomes
  import opened Lists
  import opened Paging
  import opened Services
  import opened Roster

  const PerPage: nat := 10

  datatype Action = Activate | Disable

  datatype Confirmation = Confirmation(isOpen: bool, action: Option<Action>, title: string, message: string)

  datatype Screen = Screen(
    riders: seq<Member>,
    filtered: seq<Member>,
    selected: seq<int>,
    searchInput: string,
    currentPage: nat,
    loading: bool,
    loadingActivate: bool,
    loadingDisable: bool,
    confirmation: Confirmation)

  function Initial(): (s: Screen)
    ensures s.riders == [] && s.filtered == [] && s.selected == []
    ensures s.currentPage == 1 && !s.confirmation.isOpen && s.searchInput == ""
    ensures !s.loading && !s.loadingActivate && !s.loadingDisable
  {
    Screen([], [], [], "", 1, false, false, false, Confirmation(false, None, "", ""))
  }

  /** The fetch on mount: a list replaces both lists; a failure keeps them. */
  function FetchRiders(s: Screen, o: Http<seq<Member>>): (r: Screen)
    ensures !r.loading
    ensures o.Resolved? ==> r.riders == o.data && r.filtered == o.data
    ensures o.Rejected? ==> r.riders == s.riders && r.filtered == s.filtered
  {
    match o
    case Resolved(data) => s.(riders := data, filtered := data, loading := false)
    case Rejected(_) => s.(loading := false)
  }

  /** `handleFilter`. */
  function HandleFilter(s: Screen): (r: Screen)
    ensures r.filtered == NameFilter(s.riders, s.searchInput)
    ensures r.currentPage == 1
    ensures r.riders == s.riders && r.selected == s.selected && r.searchInput == s.searchInput
  {
    s.(filtered := NameFilter(s.riders, s.searchInput), currentPage := 1)
  }

  /** `clearSearchAndFilter`. */
  function ClearSearchAndFilter(s: Screen): (r: Screen)
    ensures r.searchInput == "" && r.filtered == s.riders && r.currentPage == 1
    ensures r.riders == s.riders && r.selected == s.selected
  {
    s.(searchInput := "", filtered := s.riders, currentPage := 1)
  }

  /** Clearing, then filtering with the cleared query, shows every rider. */
  lemma ClearThenFilterShowsAll(s: Screen)
    ensures HandleFilter(ClearSearchAndFilter(s)).filtered == s.riders
  {
    NameFilterEmptyQuery(s.riders);
  }

  /** The selection toggle: remove the id if present, else append it. */
  function ToggleId(selected: seq<int>, id: int): (r: seq<int>)
    ensures id in r <==> id !in selected
    ensures forall x :: x != id ==> (x in r <==> x in selected)
    ensures id !in selected ==> r == selected + [id]
  {
    if id in selected then Filter(selected, (x: int) => x != id) else selected + [id]
  }

  /** The toggle never introduces a duplicate. */
  lemma ToggleKeepsNoDup(selected: seq<int>, id: int)
    requires NoDup(selected)
    ensures NoDup(ToggleId(selected, id))
  {
    if id in selected {
      FilterNoDup(selected, (x: int) => x != id);
    }
  }

  lemma ToggleKeepsNoDupWhen(selected: seq<int>, id: int)
    ensures NoDup(selected) ==> NoDup(ToggleId(selected, id))
  {
    if NoDup(selected) {
      ToggleKeepsNoDup(selected, id);
    }
  }

  /** Ticking a box and unticking it restores the selection exactly. */
  lemma ToggleTwice(selected: seq<int>, id: int)
    requires id !in selected
    ensures ToggleId(ToggleId(selected, id), id) == selected
  {
    var p := (x: int) => x != id;
    FilterConcat(selected, [id], p);
    FilterAllPass(selected, p);
    assert Filter([id], p) == [];
  }

  /** `handleSelectRider`. */
  function HandleSelectRider(s: Screen, id: int): (r: Screen)
    ensures id in r.selected <==> id !in s.selected
    ensures forall x :: x != id ==> (x in r.selected <==> x in s.selected)
    ensures NoDup(s.selected) ==> NoDup(r.selected)
    ensures r.riders == s.riders && r.filtered == s.filtered && r.confirmation == s.confirmation
  {
    ToggleKeepsNoDupWhen(s.selected, id);
    s.(selected := ToggleId(s.selected, id))
  }

  /** The status a bulk action writes. */
  function Target(a: Action): string {
    match a
    case Activate => Active
    case Disable => Disabled
  }

  /** `showConfirmationModal(action)`. */
  function ShowConfirmationModal(s: Screen, a: Action): (r: Screen)
    ensures r.confirmation.isOpen && r.confirmation.action == Some(a)
    ensures r.confirmation.title == if a == Activate then "Confirm Activation" else "Confirm Disable"
    ensures r == s.(confirmation := r.confirmation)
  {
    var verb := if a == Activate then "activate" else "disable";
    var plural := if |s.selected| > 1 then "s" else "";
    s.(confirmation := Confirmation(
      true,
      Some(a),
      "Confirm " + (if a == Activate then "Activation" else "Disable"),
      "Are you sure you want to " + verb + " the selected rider" + plural + "?"))
  }

  /**
    `Promise.all` over one request per selected id, then the toasts that
    read `response.user`: it succeeds only when every request resolved
    with a user.
   */
  predicate AllUpdated(replies: seq<Http<StatusReply>>) {
    forall i :: 0 <= i < |replies| ==> replies[i].Resolved? && replies[i].data.user.Some?
  }

  /**
    `handleActivateRiders` / `handleDisableRiders`, followed by the effect
    that copies `riders` into `filteredRiders` whenever `riders` changes.
   */
  function BulkUpdate(s: Screen, a: Action, replies: seq<Http<StatusReply>>): (r: Screen)
    requires |replies| == |s.selected|
    ensures !r.confirmation.isOpen
    ensures a == Activate ==> !r.loadingActivate && r.loadingDisable == s.loadingDisable
    ensures a == Disable ==> !r.loadingDisable && r.loadingActivate == s.loadingActivate
    ensures AllUpdated(replies) ==>
      && r.riders == SetStatus(s.riders, s.selected, Target(a))
      && r.filtered == r.riders
      && r.selected == []
    ensures !AllUpdated(replies) ==>
      r.riders == s.riders && r.filtered == s.filtered && r.selected == s.selected
    ensures r.currentPage == s.currentPage && r.searchInput == s.searchInput
  {
    var closed := s.(confirmation := s.confirmation.(isOpen := false));
    var settled :=
      if AllUpdated(replies) then
        var riders := SetStatus(s.riders, s.selected, Target(a));
        closed.(riders := riders, filtered := riders, selected := [])
      else closed;
    if a == Activate then settled.(loadingActivate := false) else settled.(loadingDisable := false)
  }

  /**
    A successful bulk action moves every selected rider to the target
    status, keeps length and order, and leaves the other riders alone.
   */
  lemma BulkRewritesSelectedOnly(s: Screen, a: Action, replies: seq<Http<StatusReply>>)
    requires |replies| == |s.selected| && AllUpdated(replies)
    ensures var r := BulkUpdate(s, a, replies);
      && |r.riders| == |s.riders|
      && (forall i :: 0 <= i < |s.riders| ==> r.riders[i].userId == s.riders[i].userId)
      && (forall i :: 0 <= i < |s.riders| && s.riders[i].userId in s.selected ==> r.riders[i].status == Target(a))
      && (forall i :: 0 <= i < |s.riders| && s.riders[i].userId !in s.selected ==> r.riders[i] == s.riders[i])
  {
  }

  /** `handleConfirmAction`: run the action the dialog was opened for, if any. */
  function HandleConfirmAction(s: Screen, replies: seq<Http<StatusReply>>): (r: Screen)
    requires |replies| == |s.selected|
    ensures s.confirmation.action.None? ==> r == s
    ensures s.confirmation.action.Some? ==> r == BulkUpdate(s, s.confirmation.action.value, replies)
  {
    match s.confirmation.action
    case None => s
    case Some(a) => BulkUpdate(s, a, replies)
  }

  /** The header checkbox: every rider id when ticked, nothing when cleared. */
  function SelectAll(s: Screen, checked: bool): (r: Screen)
    ensures checked ==> r.selected == Ids(s.riders)
    ensures !checked ==> r.selected == []
    ensures r.riders == s.riders
  {
    s.(selected := if checked then Ids(s.riders) else [])
  }

  predicate HeaderChecked(s: Screen) {
    |s.selected| == |s.riders| && |s.riders| > 0
  }

  /** Ticking the header checks it exactly when there are riders; clearing unchecks it. */
  lemma SelectAllChecksHeader(s: Screen)
    ensures HeaderChecked(SelectAll(s, true)) <==> |s.riders| > 0
    ensures !HeaderChecked(SelectAll(s, false))
  {
  }

  /** `isAnySelectedActive` / `isAnySelectedDisabled`. */
  predicate AnySelectedWith(s: Screen, status: string) {
    exists i :: 0 <= i < |s.selected| && StatusOf(s.riders, s.selected[i]) == Some(status)
  }

  predicate DisableButtonDisabled(s: Screen) {
    AnySelectedWith(s, Disabled) || s.loadingDisable || |s.selected| == 0
  }

  predicate ActivateButtonDisabled(s: Screen) {
    AnySelectedWith(s, Active) || s.loadingActivate || |s.selected| == 0
  }

  /** After a successful bulk action the selection is empty, so both buttons are disabled. */
  lemma ButtonsAfterBulk(s: Screen, a: Action, replies: seq<Http<StatusReply>>)
    requires |replies| == |s.selected| && AllUpdated(replies)
    ensures DisableButtonDisabled(BulkUpdate(s, a, replies))
    ensures ActivateButtonDisabled(BulkUpdate(s, a, replies))
  {
  }

  /** A selected rider whose first record is already Disabled blocks Disable. */
  lemma SelectedDisabledBlocksDisable(s: Screen, i: nat)
    requires i < |s.selected| && StatusOf(s.riders, s.selected[i]) == Some(Disabled)
    ensures DisableButtonDisabled(s)
  {
  }

  /**
    With riders selected and every one of them Active, Disable is
    enabled and Activate is not.
   */
  lemma AllActiveSelection(s: Screen)
    requires |s.selected| > 0 && !s.loadingDisable
    requires forall i :: 0 <= i < |s.selected| ==> StatusOf(s.riders, s.selected[i]) == Some(Active)
    ensures !DisableButtonDisabled(s)
    ensures ActivateButtonDisabled(s)
  {
    assert StatusOf(s.riders, s.selected[0]) == Some(Active);
  }

  /** With every rider selected, ticking one more id unchecks the header. */
  lemma ExtraTickUnchecksHeader(s: Screen, id: int)
    requires HeaderChecked(s) && id !in s.selected
    ensures !HeaderChecked(HandleSelectRider(s, id))
  {
  }

  /** `currentItems`: one page of the listed records; `Paging.Page` states what it holds. */
  function CurrentItems(s: Screen): seq<Member>
    requires s.currentPage >= 1
  {
    Page(s.filtered, s.currentPage, PerPage)
  }

}

=== FILE: riders_payment.dfy ===
/**
  The rider payment ledger: three sample payments, the record-payment
  dialog, and submission, which puts the new payment first and numbers it
  one past the list's length.
 */
module RidersPayment {
  import opened Lists

  /**
    `Number(paymentAmount)` is kept unevaluated: the sample amounts are
    numbers, a recorded amount is the text typed in.
   */
  datatype Amount = Literal(value: int) | NumberOf(text: string)

  datatype Payment = Payment(id: int, riderName: string, amount: Amount, date: string)

  datatype Screen = Screen(
    isModalOpen: bool,
    modalType: string,
    riderName: string,
    paymentAmount: string,
    paymentDate: string,
    payments: seq<Payment>)

  const SamplePayments: seq<Payment> := [
    Payment(1, "John Doe", Literal(150), "2024-10-01"),
    Payment(2, "Jane Smith", Literal(200), "2024-09-25"),
    Payment(3, "Michael Brown", Literal(180), "2024-09-18")
  ]

  function Initial(): (s: Screen)
    ensures !s.isModalOpen && s.modalType == ""
    ensures s.riderName == "" && s.paymentAmount == "" && s.paymentDate == ""
    ensures s.payments == SamplePayments && |s.payments| == 3
  {
    Screen(false, "", "", "", "", SamplePayments)
  }

  function Ids(ps: seq<Payment>): (r: seq<int>)
    ensures |r| == |ps|
    ensures forall i :: 0 <= i < |ps| ==> r[i] == ps[i].id
  {
    seq(|ps|, i requires 0 <= i < |ps| => ps[i].id)
  }

  /** The ids are exactly 1 to the list's length, each once. */
  predicate NumberedOneToN(ps: seq<Payment>) {
    && NoDup(Ids(ps))
    && (forall i :: 0 <= i < |ps| ==> 1 <= ps[i].id <= |ps|)
    && (forall x :: 1 <= x <= |ps| ==> x in Ids(ps))
  }

  /** The "Record Payment" button. */
  function OpenRecordPayment(s: Screen): (r: Screen)
    ensures r.isModalOpen && r.modalType == "recordPayment"
    ensures r.payments == s.payments
  {
    s.(isModalOpen := true, modalType := "recordPayment")
  }

  /** A row's proof button opens the dialog on the proof view. */
  function ViewProof(s: Screen): (r: Screen)
    ensures r.isModalOpen && r.modalType == "viewProof"
    ensures r == s.(isModalOpen := true, modalType := r.modalType)
  {
    s.(isModalOpen := true, modalType := "viewProof")
  }

  /** The three inputs of the dialog. */
  datatype Input = RiderName | PaymentAmount | PaymentDate

  function Type(s: Screen, field: Input, value: string): (r: Screen)
    ensures r.payments == s.payments && r.isModalOpen == s.isModalOpen && r.modalType == s.modalType
    ensures field == RiderName ==> r.riderName == value && r.paymentAmount == s.paymentAmount && r.paymentDate == s.paymentDate
    ensures field == PaymentAmount ==> r.paymentAmount == value && r.riderName == s.riderName && r.paymentDate == s.paymentDate
    ensures field == PaymentDate ==> r.paymentDate == value && r.riderName == s.riderName && r.paymentAmount == s.paymentAmount
  {
    match field
    case RiderName => s.(riderName := value)
    case PaymentAmount => s.(paymentAmount := value)
    case PaymentDate => s.(paymentDate := value)
  }

  /** `resetForm`. */
  function ResetForm(s: Screen): (r: Screen)
    ensures r.riderName == "" && r.paymentAmount == "" && r.paymentDate == ""
    ensures r.payments == s.payments && r.isModalOpen == s.isModalOpen && r.modalType == s.modalType
  {
    s.(riderName := "", paymentAmount := "", paymentDate := "")
  }

  /** `closeModal`: close, forget the type, reset the form. */
  function CloseModal(s: Screen): (r: Screen)
    ensures !r.isModalOpen && r.modalType == ""
    ensures r.riderName == "" && r.paymentAmount == "" && r.paymentDate == ""
    ensures r.payments == s.payments
  {
    ResetForm(s.(isModalOpen := false, modalType := ""))
  }

  /** `handleSubmit`: the typed payment goes first, numbered `payments.length + 1`, and the dialog closes. */
  function HandleSubmit(s: Screen): (r: Screen)
    ensures |r.payments| == |s.payments| + 1
    ensures r.payments[0] == Payment(|s.payments| + 1, s.riderName, NumberOf(s.paymentAmount), s.paymentDate)
    ensures r.payments[1..] == s.payments
    ensures !r.isModalOpen && r.modalType == ""
    ensures r.riderName == "" && r.paymentAmount == "" && r.paymentDate == ""
  {
    var newPayment := Payment(|s.payments| + 1, s.riderName, NumberOf(s.paymentAmount), s.paymentDate);
    CloseModal(s.(payments := [newPayment] + s.payments))
  }

  /** The sample ledger is numbered 1 to 3. */
  lemma SampleNumbered()
    ensures NumberedOneToN(SamplePayments)
  {
    assert Ids(SamplePayments) == [1, 2, 3];
  }

  /** Submitting keeps the ids exactly 1 to n, each once. */
  lemma SubmitKeepsNumbering(s: Screen)
    requires NumberedOneToN(s.payments)
    ensures NumberedOneToN(HandleSubmit(s).payments)
  {
    var ps := HandleSubmit(s).payments;
    var n := |s.payments|;
    assert Ids(ps) == [n + 1] + Ids(s.payments);
    assert n + 1 !in Ids(s.payments);
  }

  /** What a user can do on the screen. */
  datatype Event = Open | ViewProofOf | Edit(field: Input, value: string) | Submit | Close

  function Step(s: Screen, e: Event): Screen {
    match e
    case Open => OpenRecordPayment(s)
    case ViewProofOf => ViewProof(s)
    case Edit(f, v) => Type(s, f, v)
    case Submit => HandleSubmit(s)
    case Close => CloseModal(s)
  }

  function Run(s: Screen, es: seq<Event>): Screen
    decreases |es|
  {
    if |es| == 0 then s else Run(Step(s, es[0]), es[1..])
  }

  function Submissions(es: seq<Event>): nat
    decreases |es|
  {
    if |es| == 0 then 0 else (if es[0].Submit? then 1 else 0) + Submissions(es[1..])
  }

  /**
    From any correctly numbered ledger, whatever the user does, the ids
    stay exactly 1 to n with no duplicate, and the list grows by one per
    submission.
   */
  lemma {:induction false} RunKeepsNumbering(s: Screen, es: seq<Event>)
    requires NumberedOneToN(s.payments)
    ensures NumberedOneToN(Run(s, es).payments)
    ensures |Run(s, es).payments| == |s.payments| + Submissions(es)
    decreases |es|
  {
    if |es| > 0 {
      if es[0].Submit? {
        SubmitKeepsNumbering(s);
      }
      RunKeepsNumbering(Step(s, es[0]), es[1..]);
    }
  }

  /** On the screen as it opens, the ledger is always numbered 1 to n. */
  lemma ReachableNumbered(es: seq<Event>)
    ensures NumberedOneToN(Run(Initial(), es).payments)
    ensures |Run(Initial(), es).payments| == 3 + Submissions(es)
  {
    SampleNumbered();
    RunKeepsNumbering(Initial(), es);
  }

  /** Closing without submitting forgets the typed values and leaves the ledger as it was. */
  lemma CloseDiscardsInput(s: Screen, f: Input, v: string)
    ensures CloseModal(Type(OpenRecordPayment(s), f, v)).payments == s.payments
    ensures CloseModal(Type(OpenRecordPayment(s), f, v)) == CloseModal(s)
  {
  }

}

=== FILE: roster.dfy ===
/**
  What the list screens share about user records: the name search
  (lowercased "first last" containing the lowercased query), the
  Active/Disabled toggle, and rewriting the status of the records with
  given ids.
 */
module Roster {
  import opened Outcomes
  import opened Text
  import opened Lists

  /** A user record as the list screens read it. */
  datatype Member = Member(userId: int, firstName: string, lastName: string, status: string)

  const Active: string := "Active"
  const Disabled: string := "Disabled"

  /** `${first} ${last}`. */
  function FullName(first: string, last: string): (r: string)
    ensures |r| == |first| + 1 + |last|
    ensures r[..|first|] == first && r[|first|] == ' ' && r[|first| + 1..] == last
  {
    first + " " + last
  }

  predicate NameMatches(m: Member, query: string) {
    Includes(Lower(FullName(m.firstName, m.lastName)), Lower(query))
  }

  /** The name filter of the rider and customer lists. */
  function NameFilter(xs: seq<Member>, query: string): (r: seq<Member>)
    ensures |r| <= |xs|
    ensures forall m :: m in r <==> m in xs && NameMatches(m, query)
  {
    Filter(xs, (m: Member) => NameMatches(m, query))
  }

  lemma LowerEmpty()
    ensures Lower("") == ""
  {
  }

  /** An empty query keeps every record, in order. */
  lemma NameFilterEmptyQuery(xs: seq<Member>)
    ensures NameFilter(xs, "") == xs
  {
    LowerEmpty();
    forall i | 0 <= i < |xs|
      ensures NameMatches(xs[i], "")
    {
      IncludesEmpty(Lower(FullName(xs[i].firstName, xs[i].lastName)));
    }
    FilterAllPass(xs, (m: Member) => NameMatches(m, ""));
  }

  /** The filter works record by record, so it keeps the list's order. */
  lemma NameFilterConcat(a: seq<Member>, b: seq<Member>, query: string)
    ensures NameFilter(a + b, query) == NameFilter(a, query) + NameFilter(b, query)
  {
    FilterConcat(a, b, (m: Member) => NameMatches(m, query));
  }

  /** The status a toggle asks for: Disabled for an Active record, Active otherwise. */
  function NextStatus(status: string): (r: string)
    ensures r == Disabled <==> status == Active
    ensures r == Active || r == Disabled
  {
    if status == Active then Disabled else Active
  }

  /** On the two statuses the server uses, toggling twice is the identity. */
  lemma NextStatusTwice(status: string)
    requires status == Active || status == Disabled
    ensures NextStatus(NextStatus(status)) == status
  {
  }

  /** `xs.map(m => ids.includes(m.user_id) ? { ...m, status } : m)`. */
  function SetStatus(xs: seq<Member>, ids: seq<int>, status: string): (r: seq<Member>)
    ensures |r| == |xs|
    ensures forall i :: 0 <= i < |xs| && xs[i].userId in ids ==> r[i] == xs[i].(status := status)
    ensures forall i :: 0 <= i < |xs| && xs[i].userId !in ids ==> r[i] == xs[i]
  {
    MapWhere(xs, (m: Member) => m.userId in ids, (m: Member) => m.(status := status))
  }

  /** Rewriting the same records to the same status a second time changes nothing. */
  lemma SetStatusIdempotent(xs: seq<Member>, ids: seq<int>, status: string)
    ensures SetStatus(SetStatus(xs, ids, status), ids, status) == SetStatus(xs, ids, status)
  {
  }

  /** The ids of a list of records, in order. */
  function Ids(xs: seq<Member>): (r: seq<int>)
    ensures |r| == |xs|
    ensures forall i :: 0 <= i < |xs| ==> r[i] == xs[i].userId
  {
    seq(|xs|, i requires 0 <= i < |xs| => xs[i].userId)
  }

  /** The status of the first record with that id, if any (`list.find(...)?.status`). */
  function StatusOf(xs: seq<Member>, id: int): (r: Option<string>)
    ensures r.None? <==> forall i :: 0 <= i < |xs| ==> xs[i].userId != id
    ensures r.Some? ==> exists i :: 0 <= i < |xs| && xs[i].userId == id && xs[i].status == r.value
  {
    match Find(xs, (m: Member) => m.userId == id)
    case None => None
    case Some(m) => Some(m.status)
  }

  /** A status request's reply; `user` carries the names the toast reads. */
  datatype StatusReply = StatusReply(user: Option<(string, string)>)

}

=== FILE: routes.dfy ===
/**
  What the app renders for a path: AppContent's gate on `loading` and
  `isAuthenticated` with its route table, and the stand-alone
  ProtectedRoute gate. Paths are compared exactly.
 */
module Routes {
  import opened Outcomes
  import opened Session

  datatype Screen =
    | LoginScreen
    | DashboardScreen
    | FeedbackScreen
    | RidersListScreen
    | RidersApplicantScreen
    | RidersPaymentScreen
    | ManageUserScreen
    | ManageAdminScreen
    | BookingHistoryScreen
    | RidersLocationScreen
    | SettingsScreen
    | ManageAccountScreen

  /** What a gate produces: the loading placeholder, a screen, or a redirect. */
  datatype View = Placeholder | Show(screen: Screen) | Redirect(to: string, replace: bool)

  /** The routes of the signed-in layout, in declaration order. */
  const RouteTable: seq<(string, Screen)> := [
    ("/dashboard", DashboardScreen),
    ("/feedback", FeedbackScreen),
    ("/riderslist", RidersListScreen),
    ("/ridersapplicant", RidersApplicantScreen),
    ("/riderspayment", RidersPaymentScreen),
    ("/manageuser", ManageUserScreen),
    ("/manageadmin", ManageAdminScreen),
    ("/bookinghistory", BookingHistoryScreen),
    ("/riderslocation", RidersLocationScreen),
    ("/settings", SettingsScreen),
    ("/manageacc", ManageAccountScreen)
  ]

  /** The first route whose path equals `path`. */
  function Lookup(table: seq<(string, Screen)>, path: string): (r: Option<Screen>)
    ensures r.None? <==> forall i :: 0 <= i < |table| ==> table[i].0 != path
    ensures r.Some? ==> exists i :: 0 <= i < |table| && table[i] == (path, r.value)
  {
    if |table| == 0 then None
    else if table[0].0 == path then Some(table[0].1)
    else
      var r := Lookup(table[1..], path);
      assert r.Some? ==> exists i :: 0 <= i < |table[1..]| && table[1..][i] == (path, r.value);
      r
  }

  /** AppContent. */
  function AppContent(a: AuthState, path: string): (v: View)
    ensures a.loading ==> v == Placeholder
    ensures !a.loading && !a.isAuthenticated ==> v == Show(LoginScreen)
    ensures !a.loading && a.isAuthenticated ==>
      v == match Lookup(RouteTable, path)
           case Some(s) => Show(s)
           case None => Redirect("/dashboard", true)
  {
    if a.loading then Placeholder
    else if !a.isAuthenticated then Show(LoginScreen)
    else
      match Lookup(RouteTable, path)
      case Some(s) => Show(s)
      case None => Redirect("/dashboard", true)
  }

  /** Until restore runs, every path renders only the placeholder. */
  lemma InitialShowsPlaceholder(path: string)
    ensures AppContent(Initial(), path) == Placeholder
  {
  }

  /** After restore, the placeholder is gone for good, whatever was stored. */
  lemma RestoreLeavesPlaceholder(c: Client, path: string)
    ensures AppContent(Restore(c).auth, path) != Placeholder
  {
  }

  /** Every listed path shows its screen once signed in. */
  lemma {:induction false} ListedPathsShowTheirScreen(a: AuthState, i: nat)
    requires !a.loading && a.isAuthenticated && i < |RouteTable|
    ensures AppContent(a, RouteTable[i].0) == Show(RouteTable[i].1)
  {
    var p := RouteTable[i].0;
    assert forall j, k :: 0 <= j < k < |RouteTable| ==> RouteTable[j].0 != RouteTable[k].0;
    var r := Lookup(RouteTable, p);
    assert r.Some?;
  }

  /** The admin route has no role check: any two roles see the same thing. */
  lemma ManageAdminIgnoresRole(a: AuthState, role: Option<int>)
    ensures AppContent(a, "/manageadmin") == AppContent(a.(userRole := role), "/manageadmin")
    ensures !a.loading && a.isAuthenticated ==> AppContent(a, "/manageadmin") == Show(ManageAdminScreen)
  {
    if !a.loading && a.isAuthenticated {
      ListedPathsShowTheirScreen(a, 6);
    }
  }

  /**
    The stand-alone ProtectedRoute. It asks the hook for `isLoading`, a
    field useAuth does not return, so that test is always false.
   */
  function ProtectedRoute(a: AuthState, children: View): (v: View)
    ensures !a.isAuthenticated ==> v == Redirect("/", true)
    ensures a.isAuthenticated ==> v == children
  {
    if HookFlag(a, "isLoading") then Placeholder
    else if !HookFlag(a, "isAuthenticated") then Redirect("/", true)
    else children
  }

  /** The gate's output depends on `isAuthenticated` alone, even while loading. */
  lemma ProtectedRouteIgnoresLoading(a: AuthState, b: AuthState, children: View)
    requires a.isAuthenticated == b.isAuthenticated
    ensures ProtectedRoute(a, children) == ProtectedRoute(b, children)
    ensures a.loading && children != Placeholder ==> ProtectedRoute(a, children) != Placeholder
  {
  }

}

=== FILE: services.dfy ===
/**
  The request wrappers of the user service. A request is an input outcome:
  it resolves with a payload or rejects with an error that may carry an
  HTTP response. Toasts and console output are not modelled.
 */
module Services {
  import opened Outcomes
  import opened Text
  import opened Session

  /** The parts of an error response body the client reads. */
  datatype ErrorBody = ErrorBody(message: Option<string>, error: Option<string>)

  datatype HttpResponse = HttpResponse(status: int, data: ErrorBody)

  /** A rejected request; `response` is absent for network failures. */
  datatype HttpError = HttpError(response: Option<HttpResponse>)

  datatype Http<+T> = Resolved(data: T) | Rejected(error: HttpError)

  /** The body of the login reply. `role` is `None` when it is not a number. */
  datatype LoginData = LoginData(token: Option<string>, role: Option<int>, userId: int)

  datatype LogoutReply = LogoutReply(message: Option<string>)

  const LogoutConfirmation: string := "Successfully logout"
  const AccountErrorDefault: string := "An error occurred while updating the account."

  /**
    `login(email, password)`: the reply body when it carries a truthy token,
    otherwise `undefined`; a rejected request is swallowed.
   */
  function ServiceLogin(o: Http<LoginData>): (r: Option<LoginData>)
    ensures r.Some? <==> o.Resolved? && Truthy(o.data.token)
    ensures r.Some? ==> r.value == o.data
  {
    match o
    case Resolved(d) => if Truthy(d.token) then Some(d) else None
    case Rejected(_) => None
  }

  /** The Authorization header of the logout request: a missing token prints as `null`. */
  function LogoutAuthorization(store: Store): (h: string)
    ensures StartsWith(h, "Bearer ")
    ensures TokenKey in store ==> h[7..] == store[TokenKey]
    ensures TokenKey !in store ==> h[7..] == "null"
  {
    "Bearer " + (if TokenKey in store then store[TokenKey] else "null")
  }

  /**
    `logout()`: removes only the token, and only when the server confirms
    with the exact message. It never rejects, so it returns a plain store.
   */
  function ServiceLogout(store: Store, o: Http<LogoutReply>): (r: Store)
    ensures o.Resolved? && o.data.message == Some(LogoutConfirmation) ==> r == store - {TokenKey}
    ensures !(o.Resolved? && o.data.message == Some(LogoutConfirmation)) ==> r == store
    ensures forall k :: k != TokenKey ==> (k in r <==> k in store)
  {
    match o
    case Resolved(d) => if d.message == Some(LogoutConfirmation) then store - {TokenKey} else store
    case Rejected(_) => store
  }

  /** The message `updateAccount` rethrows: `data.error`, else `data.message`, else the default. */
  function AccountErrorMessage(e: HttpError): (m: string)
    ensures e.response.Some? && Truthy(e.response.value.data.error) ==> m == e.response.value.data.error.value
    ensures e.response.Some? && !Truthy(e.response.value.data.error) && Truthy(e.response.value.data.message) ==>
      m == e.response.value.data.message.value
    ensures e.response.Some? && !Truthy(e.response.value.data.error) && !Truthy(e.response.value.data.message) ==>
      m == AccountErrorDefault
    ensures e.response.None? ==> m == AccountErrorDefault
    ensures m != ""
  {
    match e.response
    case None => AccountErrorDefault
    case Some(resp) => OrElse(resp.data.error, OrElse(resp.data.message, AccountErrorDefault))
  }

  /** `updateAccount`: the reply, or a fresh error carrying only a message. */
  function UpdateAccount<T>(o: Http<T>): (r: Result<T, string>)
    ensures o.Resolved? ==> r == Success(o.data)
    ensures o.Rejected? ==> r == Failure(AccountErrorMessage(o.error))
  {
    match o
    case Resolved(d) => Success(d)
    case Rejected(e) => Failure(AccountErrorMessage(e))
  }

  /**
    `updateUserStatus`, `updateAdminStatus`, `updateRiderStatus` and
    `verifyRider`: the reply data, or the very error the request raised.
   */
  function StatusUpdate<T>(o: Http<T>): (r: Result<T, HttpError>)
    ensures r.Success? <==> o.Resolved?
    ensures o.Rejected? ==> r.error == o.error
    ensures o.Resolved? ==> r.value == o.data
  {
    match o
    case Resolved(d) => Success(d)
    case Rejected(e) => Failure(e)
  }

}

=== FILE: session.dfy ===
/**
  The session: the flags AuthContext holds and the three-key credential
  store (`token`, `role`, `user_id`) that useAuth restores from, writes at
  login and clears at logout. `localStorage` is a map from key to text.
 */
module Session {
  import opened Outcomes
  import opened Numerals
  import opened Text

  type Store = map<string, string>

  const TokenKey: string := "token"
  const RoleKey: string := "role"
  const UserIdKey: string := "user_id"
  const CredentialKeys: set<string> := {TokenKey, RoleKey, UserIdKey}

  /**
    The AuthContext value. A role or id of `None` stands for `null` and also
    for a `NaN` that `parseInt` produced: every reader only compares them
    with a number, which both fail.
   */
  datatype AuthState = AuthState(
    isAuthenticated: bool,
    userRole: Option<int>,
    userId: Option<int>,
    loading: bool,
    isSideBarMenuOpen: bool)

  /** The AuthContext state together with the browser's local storage. */
  datatype Client = Client(auth: AuthState, store: Store)

  /** The values AuthProvider starts with. */
  function Initial(): (a: AuthState)
    ensures !a.isAuthenticated && a.userRole.None? && a.userId.None?
    ensures a.loading && !a.isSideBarMenuOpen
  {
    AuthState(false, None, None, true, false)
  }

  /** `localStorage.getItem(key)` is truthy: present and not empty. */
  predicate Stored(store: Store, key: string) {
    key in store && store[key] != ""
  }

  /** The session fields logout leaves behind; the other flags are untouched. */
  predicate SignedOut(before: AuthState, after: AuthState) {
    && !after.isAuthenticated
    && after.userRole == None
    && after.userId == None
    && after.loading == before.loading
    && after.isSideBarMenuOpen == before.isSideBarMenuOpen
  }

  /**
    `checkAuthState`: authenticate when both token and role are stored, take
    the id whenever it is stored, and always stop loading.
   */
  function Restore(c: Client): (r: Client)
    ensures r.store == c.store
    ensures Stored(c.store, TokenKey) && Stored(c.store, RoleKey) ==>
      r.auth.isAuthenticated && r.auth.userRole == ParseInt(c.store[RoleKey])
    ensures !(Stored(c.store, TokenKey) && Stored(c.store, RoleKey)) ==>
      r.auth.isAuthenticated == c.auth.isAuthenticated && r.auth.userRole == c.auth.userRole
    ensures Stored(c.store, UserIdKey) ==> r.auth.userId == ParseInt(c.store[UserIdKey])
    ensures !Stored(c.store, UserIdKey) ==> r.auth.userId == c.auth.userId
    ensures !r.auth.loading
    ensures r.auth.isSideBarMenuOpen == c.auth.isSideBarMenuOpen
  {
    var a := c.auth;
    var a1 := if Stored(c.store, TokenKey) && Stored(c.store, RoleKey)
      then a.(isAuthenticated := true, userRole := ParseInt(c.store[RoleKey]))
      else a;
    var a2 := if Stored(c.store, UserIdKey) then a1.(userId := ParseInt(c.store[UserIdKey])) else a1;
    Client(a2.(loading := false), c.store)
  }

  /** `login(token, role, user_id)`: write all three keys and authenticate. */
  function Login(c: Client, token: string, role: int, userId: int): (r: Client)
    ensures r.store.Keys == c.store.Keys + CredentialKeys
    ensures r.store[TokenKey] == token
    ensures ParseInt(r.store[RoleKey]) == Some(role)
    ensures ParseInt(r.store[UserIdKey]) == Some(userId)
    ensures forall k :: k in c.store && k !in CredentialKeys ==> r.store[k] == c.store[k]
    ensures r.auth == c.auth.(isAuthenticated := true, userRole := Some(role), userId := Some(userId))
  {
    ParseIntRoundTrip(role);
    ParseIntRoundTrip(userId);
    var s := c.store[TokenKey := token][RoleKey := IntToString(role)][UserIdKey := IntToString(userId)];
    Client(c.auth.(isAuthenticated := true, userRole := Some(role), userId := Some(userId)), s)
  }

  /** `logout()`: remove the three keys and clear the session fields. */
  function Logout(c: Client): (r: Client)
    ensures r.store.Keys == c.store.Keys - CredentialKeys
    ensures forall k :: k in r.store ==> r.store[k] == c.store[k]
    ensures SignedOut(c.auth, r.auth)
  {
    Client(c.auth.(isAuthenticated := false, userRole := None, userId := None), c.store - CredentialKeys)
  }

  /** A second logout changes nothing. */
  lemma LogoutIdempotent(c: Client)
    ensures Logout(Logout(c)) == Logout(c)
  {
    assert Logout(Logout(c)).store == Logout(c).store;
  }

  /** Logging in and then out ends exactly where logging out alone would. */
  lemma LoginThenLogout(c: Client, token: string, role: int, userId: int)
    ensures Logout(Login(c, token, role, userId)) == Logout(c)
    ensures !Logout(Login(c, token, role, userId)).auth.isAuthenticated
    ensures Logout(Login(c, token, role, userId)).store.Keys !! CredentialKeys
  {
    var l := Login(c, token, role, userId);
    assert Logout(l).store == Logout(c).store;
  }

  /** Restoring from what login stored reproduces the same role and id. */
  lemma RestoreAfterLogin(c: Client, token: string, role: int, userId: int, start: AuthState)
    requires token != ""
    ensures var r := Restore(Client(start, Login(c, token, role, userId).store));
      && r.auth.isAuthenticated
      && r.auth.userRole == Some(role)
      && r.auth.userId == Some(userId)
      && !r.auth.loading
  {
    var s := Login(c, token, role, userId).store;
    assert |IntToString(role)| > 0;
    assert Stored(s, RoleKey) && Stored(s, UserIdKey) && Stored(s, TokenKey);
  }

  /** A stored id without a token still sets the id, but not the session. */
  lemma RestorePartialRecord(userId: int)
    ensures var r := Restore(Client(Initial(), map[UserIdKey := IntToString(userId)]));
      && !r.auth.isAuthenticated
      && r.auth.userRole == None
      && r.auth.userId == Some(userId)
      && !r.auth.loading
  {
    ParseIntRoundTrip(userId);
  }

  /** The starting session is already signed out: logout leaves it as it is. */
  lemma InitialIsSignedOut(store: Store)
    ensures Logout(Client(Initial(), store)).auth == Initial()
  {
  }

  /** `useAuth()`: the context value, or the error thrown outside a provider. */
  function UseAuth(context: Option<AuthState>): (r: Result<AuthState, string>)
    ensures context.None? <==> r == Failure("useAuth must be used within an AuthProvider")
    ensures context.Some? ==> r == Success(context.value)
  {
    match context
    case None => Failure("useAuth must be used within an AuthProvider")
    case Some(a) => Success(a)
  }

  /**
    A boolean field read from the object useAuth returns. It returns
    `isAuthenticated` and `loading` (with `userRole`, `userId`, `login` and
    `logout`); any other name reads as `undefined`, which is falsy.
   */
  function HookFlag(a: AuthState, name: string): bool {
    if name == "isAuthenticated" then a.isAuthenticated
    else if name == "loading" then a.loading
    else false
  }

}

=== FILE: sidenav.dfy ===
/**
  The sidebar: its menu table, the navigation guard `handleClick`, the
  active-entry tests, and which entries are rendered for a role.
 */
module Sidenav {
  import opened Outcomes
  import opened Text
  import opened Lists

  /** The `parent` values the menu filters on. */
  datatype Group = Riders | RidersPayment | RidersLocation

  datatype MenuItem = MenuItem(path: string, title: string, parent: Option<Group>, role: Option<int>)

  const DashboardItem := MenuItem("/dashboard", "Dashboard", None, None)

  /** The entries whose parent is Riders, in menu order. */
  const RiderItems: seq<MenuItem> := [
    MenuItem("/riderslist", "Manage Riders", Some(Riders), None),
    MenuItem("/riderspayment", "Rider Payment", Some(Riders), None),
    MenuItem("/ridersapplicant", "Rider Applications", Some(Riders), None),
    MenuItem("/riderslocation", "Rider Location", Some(Riders), None)
  ]

  const TailItems: seq<MenuItem> := [
    MenuItem("/manageuser", "Manage Users", None, None),
    MenuItem("/manageadmin", "Manage Admin", None, Some(1)),
    MenuItem("/bookinghistory", "Booking History", None, None),
    MenuItem("/feedback", "Feedback", None, None)
  ]

  /** The sidebar's menu table. */
  const MenuItems: seq<MenuItem> := [DashboardItem] + RiderItems + TailItems

  /** `handleClick(item)`: navigate only away from the current path. */
  function HandleClick(current: string, target: string): (nav: Option<string>)
    ensures nav.Some? <==> current != target
    ensures nav.Some? ==> nav.value == target
  {
    if current != target then Some(target) else None
  }

  /** `isActive(path)`: exact equality with the current path. An active entry is disabled. */
  predicate IsActive(current: string, path: string) {
    current == path
  }

  /** The active entry is the one whose click does nothing. */
  lemma ActiveEntryIgnoresClick(current: string, path: string)
    ensures IsActive(current, path) <==> HandleClick(current, path).None?
    ensures !IsActive(current, path) ==> HandleClick(current, path) == Some(path)
  {
  }

  function IsChildOf(parent: Group): MenuItem -> bool {
    (item: MenuItem) => item.parent == Some(parent)
  }

  /** The menu items listed under `parent`, in menu order. */
  function ChildrenOf(parent: Group): seq<MenuItem> {
    Filter(MenuItems, IsChildOf(parent))
  }

  /** `isParentActive(parent)`. */
  predicate IsParentActive(current: string, parent: Group) {
    Any(ChildrenOf(parent), (item: MenuItem) => IsActive(current, item.path)) || StartsWith(current, "/riders")
  }

  /** Each panel lists exactly the entries with that parent, in menu order. */
  lemma Panels(parent: Group)
    ensures ChildrenOf(parent) == if parent == Riders then RiderItems else []
  {
    if parent == Riders {
      FilterPicksMiddle([DashboardItem], RiderItems, TailItems, IsChildOf(parent));
    } else {
      FilterPicksMiddle([DashboardItem], [], RiderItems + TailItems, IsChildOf(parent));
      assert [DashboardItem] + [] + (RiderItems + TailItems) == MenuItems;
    }
  }

  lemma RiderPathsPrefix()
    ensures forall i :: 0 <= i < |RiderItems| ==> StartsWith(RiderItems[i].path, "/riders")
  {
  }

  /** Every rider entry's path starts with "/riders", so the prefix test decides alone. */
  lemma RidersParentActive(current: string, parent: Group)
    ensures IsParentActive(current, parent) <==> StartsWith(current, "/riders")
  {
    Panels(parent);
    RiderPathsPrefix();
  }

  function Paths(items: seq<MenuItem>): (r: seq<string>)
    ensures |r| == |items|
    ensures forall i :: 0 <= i < |items| ==> r[i] == items[i].path
  {
    seq(|items|, i requires 0 <= i < |items| => items[i].path)
  }

  /**
    The navigation buttons rendered, in order. Nothing renders while the
    sidebar is closed; the rider panels render only while the Riders
    disclosure is expanded; the Manage Admin button needs role 1.
   */
  function Buttons(sideBarOpen: bool, ridersExpanded: bool, role: Option<int>): (r: seq<string>)
    ensures !sideBarOpen ==> r == []
    ensures sideBarOpen ==> |r| > 0 && r[0] == "/dashboard"
  {
    if !sideBarOpen then []
    else
      var riders :=
        if ridersExpanded
        then Paths(ChildrenOf(Riders)) + Paths(ChildrenOf(RidersPayment)) + Paths(ChildrenOf(RidersLocation))
        else [];
      ["/dashboard"] + riders + ["/manageuser"]
      + (if role == Some(1) then ["/manageadmin"] else [])
      + ["/bookinghistory", "/feedback"]
  }

  /** The paths of the rider entries. */
  lemma RiderPaths()
    ensures Paths(RiderItems) == ["/riderslist", "/riderspayment", "/ridersapplicant", "/riderslocation"]
  {
  }

  /** With the sidebar open, the rendered buttons in full. */
  lemma ButtonsWhenOpen(ridersExpanded: bool, role: Option<int>)
    ensures Buttons(true, ridersExpanded, role) ==
      ["/dashboard"]
      + (if ridersExpanded then ["/riderslist", "/riderspayment", "/ridersapplicant", "/riderslocation"] else [])
      + ["/manageuser"]
      + (if role == Some(1) then ["/manageadmin"] else [])
      + ["/bookinghistory", "/feedback"]
  {
    Panels(Riders);
    Panels(RidersPayment);
    Panels(RidersLocation);
    RiderPaths();
    var riders := Paths(ChildrenOf(Riders)) + Paths(ChildrenOf(RidersPayment)) + Paths(ChildrenOf(RidersLocation));
    assert riders == ["/riderslist", "/riderspayment", "/ridersapplicant", "/riderslocation"];
  }

  /** The Manage Admin button appears exactly for role 1 with the sidebar open. */
  lemma ManageAdminButtonOnlyForRoleOne(sideBarOpen: bool, ridersExpanded: bool, role: Option<int>)
    ensures "/manageadmin" in Buttons(sideBarOpen, ridersExpanded, role) <==> sideBarOpen && role == Some(1)
  {
    if sideBarOpen {
      ButtonsWhenOpen(ridersExpanded, role);
    }
  }

}

=== FILE: text.dfy ===
/**
  The string operations the screens rely on: `toLowerCase`, `includes`
  (through `indexOf`), `startsWith`, `split(sep).pop()` and JavaScript
  truthiness of optional strings. Lower-casing is ASCII only.
 */
module Text {
  import opened Outcomes

  /** ASCII case folding of one character. */
  function LowerChar(c: char): char {
    if 'A' <= c <= 'Z' then (c as int + 32) as char else c
  }

  /** `s.toLowerCase()`, restricted to ASCII letters. */
  function Lower(s: string): (r: string)
    ensures |r| == |s|
    ensures forall i :: 0 <= i < |s| ==> r[i] == LowerChar(s[i])
  {
    seq(|s|, i requires 0 <= i < |s| => LowerChar(s[i]))
  }

  /** Lower-casing works character by character, so it distributes over concatenation. */
  lemma LowerConcat(a: string, b: string)
    ensures Lower(a + b) == Lower(a) + Lower(b)
  {
  }

  /** `needle` occurs in `hay` starting at index `i`. */
  predicate OccursAt(hay: string, needle: string, i: int) {
    0 <= i && i + |needle| <= |hay| && hay[i..i + |needle|] == needle
  }

  /** Left-to-right search for `needle`, starting at `from`. */
  function IndexFrom(hay: string, needle: string, from: nat): (r: int)
    requires forall j :: 0 <= j < from ==> !OccursAt(hay, needle, j)
    ensures r == -1 || (from <= r && OccursAt(hay, needle, r))
    ensures r >= 0 ==> forall j :: 0 <= j < r ==> !OccursAt(hay, needle, j)
    ensures r == -1 ==> forall j :: !OccursAt(hay, needle, j)
    decreases |hay| + 1 - from
  {
    if from + |needle| > |hay| then -1
    else if hay[from..from + |needle|] == needle then from
    else IndexFrom(hay, needle, from + 1)
  }

  /** `hay.indexOf(needle)`: the first occurrence, or -1 when there is none. */
  function IndexOf(hay: string, needle: string): (r: int)
    ensures r >= 0 ==> OccursAt(hay, needle, r)
    ensures r >= 0 ==> forall j :: 0 <= j < r ==> !OccursAt(hay, needle, j)
    ensures r == -1 || r >= 0
    ensures r == -1 <==> forall j :: !OccursAt(hay, needle, j)
  {
    IndexFrom(hay, needle, 0)
  }

  /** `hay.includes(needle)`. */
  function Includes(hay: string, needle: string): (b: bool)
    ensures b <==> exists i :: OccursAt(hay, needle, i)
  {
    IndexOf(hay, needle) >= 0
  }

  /** Every string includes the empty string, so an empty query keeps everything. */
  lemma IncludesEmpty(hay: string)
    ensures Includes(hay, "")
  {
    assert OccursAt(hay, "", 0);
  }

  /** The empty string includes only the empty query. */
  lemma EmptyIncludesOnlyEmpty(needle: string)
    ensures Includes("", needle) <==> needle == ""
  {
    if needle == "" {
      IncludesEmpty("");
    }
  }

  /** Every middle part of a string is included in it, also after lower-casing both. */
  lemma IncludesPart(a: string, b: string, c: string)
    ensures Includes(a + b + c, b)
    ensures Includes(Lower(a + b + c), Lower(b))
  {
    assert (a + b + c)[|a|..|a| + |b|] == b;
    assert OccursAt(a + b + c, b, |a|);
    LowerConcat(a + b, c);
    LowerConcat(a, b);
    var l := Lower(a) + Lower(b) + Lower(c);
    assert l[|Lower(a)|..|Lower(a)| + |Lower(b)|] == Lower(b);
    assert OccursAt(l, Lower(b), |Lower(a)|);
  }

  /** `s.startsWith(prefix)`. */
  predicate StartsWith(s: string, prefix: string) {
    |prefix| <= |s| && s[..|prefix|] == prefix
  }

  /** `s.split(sep).pop()`: the part of `s` after the last `sep`, or all of `s`. */
  function LastSegment(s: string, sep: char): (r: string)
    ensures |r| <= |s| && r == s[|s| - |r|..]
    ensures sep !in r
    ensures |r| == |s| || s[|s| - |r| - 1] == sep
    decreases |s|
  {
    if |s| == 0 then ""
    else if s[|s| - 1] == sep then ""
    else LastSegment(s[..|s| - 1], sep) + [s[|s| - 1]]
  }

  /** A string without the separator is its own last segment. */
  lemma {:induction false} LastSegmentOfPlain(s: string, sep: char)
    requires sep !in s
    ensures LastSegment(s, sep) == s
    decreases |s|
  {
    if |s| > 0 {
      assert s[..|s| - 1] + [s[|s| - 1]] == s;
      LastSegmentOfPlain(s[..|s| - 1], sep);
    }
  }

  /** After a prefix ending in the separator, the last segment is what follows it. */
  lemma {:induction false} LastSegmentAfter(prefix: string, s: string, sep: char)
    requires sep !in s && |prefix| > 0 && prefix[|prefix| - 1] == sep
    ensures LastSegment(prefix + s, sep) == s
    decreases |s|
  {
    if |s| == 0 {
      assert prefix + s == prefix;
    } else {
      assert (prefix + s)[..|prefix + s| - 1] == prefix + s[..|s| - 1];
      LastSegmentAfter(prefix, s[..|s| - 1], sep);
      assert s[..|s| - 1] + [s[|s| - 1]] == s;
    }
  }

  /** JavaScript truthiness of a field that may be missing: `""` is falsy. */
  predicate Truthy(o: Option<string>) {
    o.Some? && o.value != ""
  }

  /** `o || fallback` for an optional string. */
  function OrElse(o: Option<string>, fallback: string): (r: string)
    ensures Truthy(o) ==> r == o.value
    ensures !Truthy(o) ==> r == fallback
  {
    if Truthy(o) then o.value else fallback
  }

}
